=== FILE: README.md ===
# Molecule geometry and Raman log scanning, modelled in Dafny

This project models two small scientific Python tools.

- **The rigid-geometry kernel of the molecule tools** (`nics/moleculetools.py`).
  It covers vector normalisation, the clipped cosine and angle between two
  vectors, plane normals from cross products, and the axis-angle (Rodrigues)
  4 x 4 homogeneous rotation with an optional pivot. It applies such a
  transform to an N x 3 coordinate list and computes the centroid. It also
  covers the `Structure` class: recentring, the consensus main axis
  (sign-folded unit normals averaged over every 3-atom combination, then
  normalised) and the turn of that axis onto z.
- **The line scanners of the Raman intensity tool** (`rr-kirby/rr-kirby.py`).
  These are `System.get_wn`, `load_raman` and `load_rr`, which collect
  whitespace tokens after marker strings. They also include
  `load_intmodes`, which cuts a log into normal-mode blocks, parses each
  vibration line into atom indices and a value, and splits each mode's
  intensity into molecule / mixed / surface percentages.

Numbers are exact `real`s. The square root, sine, cosine and arccosine are
parameters, so nothing depends on their values. `IsSqrt(sqrt)` states the
two facts used about the square root: it is non-negative, and it squares back
to its argument. `IsTrig(sin, cos)` states the Pythagorean identity, and only
the rigidity lemmas assume it. Where numpy would produce NaN, the model says
so explicitly:

- `Cached.NotANumber` is a NaN vector in a field of a `Structure`.
- `Cached.ScalarNaN` is the single NaN that `np.mean` returns for an empty
  list of normals.
- `Success(None)` from `RotateToZ` means the coordinates become NaN.
  `Failure(ValueError)` means `rotate_to_z` raises.
- `Percent.NaN` is a NaN percentage.

Python failures are `PyError` values returned in a `Result`: `IndexError`,
`ValueError`, `UnboundLocalError`, and the `ZeroDivisionError` and
`OverflowError` that the wavelength conversion at rr-kirby/rr-kirby.py:52
raises for a frequency of 0 or for a quotient too large to round. The files and the lines a
scanner receives are sequences of strings. Python's string operations used by
the scanners are modelled concretely in `Text`: `in`, `find`, slicing with
negative and out-of-range bounds, `split()`, `split(sep)`, `strip` and
`int()`.

Modules: `Wrappers` (Option, Result, first-failure map), `Errors`,
`Vectors`, `Transforms`, `Combinations` (`itertools.combinations` and the
`list(set(...))` deduplication), `PointSets` (sums and centroids),
`Structures`, `Text`, `IntModes` and `LogScan`.

The model keeps three behaviours of the code exactly as written:

- `find_axis` (nics/moleculetools.py:124-138) does not check its input.
  With fewer than three atoms there are no combinations, so `np.mean` of the
  empty list is a single NaN (`ScalarNaN`). `rotate_to_z` then raises
  ValueError, because `np.cross` at nics/moleculetools.py:148 needs a vector
  (`Structures.RotateToZDefined`). A degenerate triple makes `unit_vector`
  divide by the zero vector, so the axis is a NaN vector (`NotANumber`). See
  `Structures.ConsensusAxis`, `Structures.AxisOf` and `Structures.AxisOfKnown`.
- `rotate_to_z` (nics/moleculetools.py:144-151) always turns about
  `axis x z`. For an axis already on z that vector is zero, so the
  coordinates become NaN. See "Findings".
- `find_axis` runs `combinations` over the index list it is given
  (nics/moleculetools.py:127-128), and that list may repeat an index.
  `Combinations.Dedup` removes repeated triples only. A triple that repeats
  an index is degenerate, so the axis becomes NaN.

## Model

| member | source | states |
|---|---|---|
| Vectors.UnitVector | nics/moleculetools.py:6-10 | the result points the same way as the input (a positive multiple of it) and has length one; a zero vector is outside its domain |
| Vectors.UnitVectorOfUnit | nics/moleculetools.py:6-10 | normalising a vector that already has length one returns it unchanged |
| Vectors.UnitVectorOfNeg | nics/moleculetools.py:6-10 | normalising the opposite vector gives the opposite unit vector |
| Vectors.Clip | nics/moleculetools.py:18 | `np.clip` lands in [lo, hi], leaves values inside unchanged, and sends values below or above to the nearer bound |
| Vectors.CosBetween | nics/moleculetools.py:20-26 | the clipped cosine of two non-zero vectors lies in [-1, 1] |
| Vectors.CosBetweenClipInert | nics/moleculetools.py:20-26 | over exact reals the clip never acts: the cosine equals the dot product of the two unit vectors |
| Vectors.UnitDotBounded | nics/moleculetools.py:18 | two unit vectors have a dot product within [-1, 1], which is why the clip is inert |
| Vectors.AngleBetweenSelf | nics/moleculetools.py:12-18 | a vector has cosine 1 with itself, so its angle to itself is arccos(1) |
| Vectors.AngleBetweenOpposite | nics/moleculetools.py:12-18 | a vector has cosine -1 with its opposite, so the angle between them is arccos(-1) |
| Vectors.AngleBetween | nics/moleculetools.py:12-18 | the angle is the arccosine of the dot product of the two unit vectors; the clip never changes it |
| Vectors.AngleBetweenSymmetric | nics/moleculetools.py:12-18 | the angle from u to v is the angle from v to u |
| Vectors.CrossOrthogonal | nics/moleculetools.py:32 | the cross product is orthogonal to both of its factors |
| Vectors.CrossLagrange | nics/moleculetools.py:32 | Lagrange's identity: the squared length of u x v is (u . u)(v . v) - (u . v)^2 |
| Vectors.Abs | nics/moleculetools.py:135 | component-wise `abs`: each component is the input's or its negation, none is negative, and the length is unchanged |
| Vectors.FindNormalFromPoints | nics/moleculetools.py:28-34 | the normal is a unit vector along (b - a) x (c - a), orthogonal to both edges of the triangle |
| Vectors.FindNormalFromVectors | nics/moleculetools.py:36-42 | the normal is a unit vector along u x v, orthogonal to u and to v |
| Transforms.MulVecOuter | nics/moleculetools.py:49 | the outer product d d^T sends v to (d . v) d |
| Transforms.MulVecSkew | nics/moleculetools.py:51-53 | the skew matrix written out in the rotation builder sends v to d x v |
| Transforms.Rodrigues | nics/moleculetools.py:48-53 | the transpose of the block is the block built with the sine negated, that is, the rotation by the opposite angle |
| Transforms.Embed | nics/moleculetools.py:54-59 | the identity with the rotation written into its top-left block and the translation into its last column has those parts and bottom row (0, 0, 0, 1) |
| Transforms.ApplyPoint | nics/moleculetools.py:62-67 | a point with a homogeneous 1 appended, multiplied by the matrix and cut back to three coordinates, is R p + t |
| Transforms.ApplyToSet | nics/moleculetools.py:62-67 | `apply_4x4_matrix_to_3D_set` keeps the row count and maps each row i to R p_i + t |
| Transforms.RodriguesVectorForm | nics/moleculetools.py:48-53 | the matrix c I + (1 - c) d d^T + [s d]x acts on v as c v + (1 - c)(d . v) d + s (d x v) |
| Transforms.RodriguesFixesAxis | nics/moleculetools.py:48-53 | the rotation block leaves its unit direction where it is |
| Transforms.RodriguesPreservesLength | nics/moleculetools.py:48-53 | when sin^2 + cos^2 = 1 the rotation block keeps every length |
| Transforms.RotationMatrix | nics/moleculetools.py:44-60 | the transform has bottom row (0, 0, 0, 1); its block fixes the unit direction; with no pivot it has no translation, and with a pivot the pivot is a fixed point |
| Transforms.RotationMatrixBlock | nics/moleculetools.py:47-55 | bridge lemma: the linear part of the 4 x 4 matrix is the Rodrigues block of the normalised direction. Through it, `RodriguesVectorForm`, `RodriguesFixesAxis` and `RodriguesPreservesLength` apply to `rotation_matrix` |
| Transforms.RotationFixesAxisLine | nics/moleculetools.py:44-60 | every point on the line through the pivot along the direction is fixed |
| Transforms.RotationAngleZeroIsIdentity | nics/moleculetools.py:44-60 | sine 0 and cosine 1 give the 4 x 4 identity for every direction and pivot |
| Transforms.RotationPreservesDistance | nics/moleculetools.py:44-60 | when sin^2 + cos^2 = 1 the transform keeps the distance between any two points |
| Combinations.PairsWith | nics/moleculetools.py:127 | pairs `x` with each later element, in order |
| Combinations.Pairs | nics/moleculetools.py:127 | `combinations(s, 2)` has n(n-1)/2 elements |
| Combinations.PairsMembership | nics/moleculetools.py:127 | a pair is produced exactly when it is taken from two positions i < j |
| Combinations.Triples | nics/moleculetools.py:127 | `combinations(s, 3)` has n(n-1)(n-2)/6 elements |
| Combinations.TriplesMembership | nics/moleculetools.py:127 | a triple is produced exactly when it is taken from three positions i < j < k |
| Combinations.TriplesSound | nics/moleculetools.py:127 | every produced triple comes from positions i < j < k |
| Combinations.TriplesComplete | nics/moleculetools.py:127 | every choice of positions i < j < k is produced |
| Combinations.PairsDistinct | nics/moleculetools.py:127 | over a list without repeats, no pair is produced twice |
| Combinations.TriplesDistinct | nics/moleculetools.py:127 | over a list without repeats, no triple is produced twice |
| Combinations.Dedup | nics/moleculetools.py:128 | `list(set(...))` has no repeats and exactly the members of its input |
| Combinations.DedupDistinct | nics/moleculetools.py:128 | a list without repeats passes through `list(set(...))` unchanged, up to order |
| PointSets.SumConcat | nics/moleculetools.py:112-115 | the sum of a concatenation is the sum of the sums |
| PointSets.SumPermutation | nics/moleculetools.py:137 | reordering points does not change their sum, so neither does the order numpy's mean sees them in |
| PointSets.Centroid | nics/moleculetools.py:111-115 | the number of points times the column means is their sum |
| PointSets.Translate | nics/moleculetools.py:119-121 | subtracting the broadcast centre keeps the row count and moves every row by -t |
| PointSets.SumTranslate | nics/moleculetools.py:119-121 | translating n points by -t moves their sum by -n t |
| PointSets.CentroidTranslate | nics/moleculetools.py:82-86 | translating every point by -t moves the centroid by -t |
| PointSets.CentredAtOrigin | nics/moleculetools.py:117-122 | after subtracting the centroid, the centroid is the origin |
| PointSets.SumApplied | nics/moleculetools.py:62-67 | the sum of the mapped points is R (sum) + n t |
| PointSets.CentroidApplied | nics/moleculetools.py:62-67 | an affine map sends the centroid of a set to the centroid of its image |
| Structures.NewStructure | nics/moleculetools.py:104-108 | a new structure keeps the given atoms and coordinates, takes the given name or "system" when none is given, and has no cached centre or axis |
| Structures.Centre | nics/moleculetools.py:111-115 | the column means are NaN exactly for no rows and otherwise the centroid |
| Structures.FindCenter | nics/moleculetools.py:111-115 | only the centre changes, and it becomes the column means |
| Structures.At | nics/moleculetools.py:131-133 | numpy row indexing succeeds exactly for -n <= i < n, counting negative indices from the end |
| Structures.Contribution | nics/moleculetools.py:134-135 | each contribution is `abs` of the unit normal of its triple: non-negative and of length one |
| Structures.Contributions | nics/moleculetools.py:130-135 | one folded normal per triple, in order |
| Structures.FoldedSumBounded | nics/moleculetools.py:136-137 | a non-empty sum of folded unit normals is non-negative and at least one long |
| Structures.FoldedMean | nics/moleculetools.py:137-138 | the mean of the folded normals is non-negative and non-zero, so it can be normalised |
| Structures.ConsensusAxis | nics/moleculetools.py:129-138 | IndexError exactly when some triple names a missing row. Otherwise: a single NaN exactly when there are no triples; a NaN vector when a triple is degenerate; and otherwise a non-negative unit axis that is a positive multiple of the sum of the contributions |
| Structures.FoldedSumOrderFree | nics/moleculetools.py:128-137 | the sum of the folded normals does not depend on the order of the triples |
| Structures.ConsensusOrderFree | nics/moleculetools.py:128 | the axis, its NaN case and its failure are the same for every ordering of the triples, so set iteration order cannot matter |
| Structures.ConsensusTranslate | nics/moleculetools.py:129-138 | translating all points leaves the consensus axis and its failure modes unchanged |
| Structures.Range | nics/moleculetools.py:126 | `range(n)` lists 0 .. n-1 |
| Structures.VisitsEachSubsetOnce | nics/moleculetools.py:126-128 | for an index list without repeats, deduplication changes nothing, and the triples are exactly the choices i < j < k, C(n, 3) of them |
| Structures.DedupTripleSource | nics/moleculetools.py:127-128 | every visited triple comes from three positions of the index list |
| Structures.NoTriplesBelowThree | nics/moleculetools.py:127-128 | no triple is visited exactly when fewer than three indices are given |
| Structures.DefaultTriplesResolve | nics/moleculetools.py:125-133 | the default indices `range(natoms)` only name existing rows |
| Structures.FindAxis | nics/moleculetools.py:124-138 | fails only with IndexError; the axis is a single NaN exactly when fewer than three indices are used; a numeric axis is a non-negative unit vector along the sum of the folded normals of the visited triples, none of them degenerate; only the main axis changes |
| Structures.FindAxisIndexError | nics/moleculetools.py:124-133 | with explicit indices, IndexError happens exactly when there are at least three of them and one has no row |
| Structures.FindAxisDefaultSucceeds | nics/moleculetools.py:125-126 | with the default indices and one row per atom, `find_axis` never raises |
| Structures.TriplesIndexBad | nics/moleculetools.py:127-133 | a visited triple that names a missing row comes from a list of at least three indices, one of which is out of range |
| Structures.PositionInTriple | nics/moleculetools.py:127-128 | with three or more indices, every index appears in some visited triple |
| Structures.SomeTriplesNeedThreeRows | nics/moleculetools.py:126-128 | a structure with a visited triple has at least three rows |
| Structures.AxisOf | nics/moleculetools.py:124-138 | the default axis is never absent and is a single NaN exactly when there are fewer than three rows. A numeric axis is a non-negative unit vector along the sum of the folded normals of all triples, none of them degenerate |
| Structures.AxisOfKnown | nics/moleculetools.py:124-138 | with three or more rows, the axis is a number exactly when no triple is degenerate, and a NaN vector otherwise |
| Structures.UpdateGeometry | nics/moleculetools.py:140-142 | the centre and the axis are recomputed from the coordinates and nothing else changes |
| Structures.UpdateGeometryIdempotent | nics/moleculetools.py:140-142 | refreshing twice is the same as refreshing once |
| Structures.AxisTranslate | nics/moleculetools.py:117-122 | translating the molecule does not change its default axis |
| Structures.TranslateToCenter | nics/moleculetools.py:117-122 | every row moves by minus the centroid, the new centre is the origin, the axis is unchanged, and with no rows the centre is NaN and nothing moves |
| Structures.TranslateToCenterIdempotent | nics/moleculetools.py:117-122 | recentring a recentred structure changes nothing |
| Structures.TurnToZ | nics/moleculetools.py:146-149 | the turn `rotate_to_z` builds has bottom row (0, 0, 0, 1) and fixes the centre |
| Structures.TurnToZIsRotation | nics/moleculetools.py:146-149 | the turn is `rotation_matrix` by the angle between the axis and z, about the unit normal of the axis and z, pivoting at the centre |
| Structures.TurnToZRigid | nics/moleculetools.py:146-150 | with the Pythagorean identity, the turn keeps every distance |
| Structures.Rotated | nics/moleculetools.py:149-151 | the new coordinates are the old ones through the turn; the refreshed centre is unchanged and the refreshed axis is the default axis of the new coordinates |
| Structures.RotateToZ | nics/moleculetools.py:144-151 | fails only with ValueError. When it yields coordinates, the old axis was numeric and not parallel to z, and the new coordinates are the old ones through the turn about that axis at the centroid. The new axis is recomputed from them, and names, atoms, row count and centre are kept |
| Structures.RotateToZShape | nics/moleculetools.py:144-151 | `rotate_to_z` raises exactly when the axis is a single NaN, and yields numbers exactly when the axis is numeric and not parallel to z |
| Structures.CrossWithZ | nics/moleculetools.py:148 | a non-negative unit axis has a non-zero cross product with z exactly when it is not z |
| Structures.RotateToZDefined | nics/moleculetools.py:144-151 | `rotate_to_z` raises exactly when there are fewer than three rows, and yields numbers exactly when the structure has an axis that is not already z |
| Structures.RotateToZRigid | nics/moleculetools.py:144-151 | every distance between two atoms is the same before and after `rotate_to_z` |
| Structures.FlatAxisIsZ | nics/moleculetools.py:124-138 | a molecule lying in the plane z = 0 has axis exactly z whenever it has one |
| Structures.RotateToZFlatIsNaN | nics/moleculetools.py:144-151 | as written, a planar molecule in z = 0 makes `rotate_to_z` raise ValueError when it has fewer than three atoms, and turns NaN otherwise |
| Structures.FlatTriangle | nics/moleculetools.py:103-109 | the sample right triangle is a well-formed structure lying in z = 0 |
| Structures.ThreeRowTriples | nics/moleculetools.py:126-128 | three atoms give the single triple (0, 1, 2) |
| Structures.FlatTriangleAxis | nics/moleculetools.py:124-138 | the flat triangle has a well-defined axis, and it is z |
| Structures.FlatTriangleRotateIsNaN | nics/moleculetools.py:144-151 | the flat triangle has an axis, and still `rotate_to_z` makes it NaN |
| Structures.RotateToZAligned | nics/moleculetools.py:144-151 | the corrected turn leaves an axis already on z untouched and is otherwise exactly `rotate_to_z` as written. So it raises ValueError exactly when there are fewer than three rows, yields numbers exactly when there is an axis, and keeps names, atoms, row count and centre |
| Structures.RotateToZAlignedRigid | nics/moleculetools.py:144-151 | the corrected turn keeps every distance between two atoms |
| Text.ContainsWithin | rr-kirby/rr-kirby.py:49-52 | a line that contains a marker contains every piece of that marker |
| Text.FindFrom | rr-kirby/rr-kirby.py:82 | searching from position i gives -1 exactly when no occurrence starts at or after i, and otherwise the first one |
| Text.Find | rr-kirby/rr-kirby.py:82 | `str.find` gives -1 exactly when the pattern does not occur, and otherwise its first occurrence |
| Text.SliceBound | rr-kirby/rr-kirby.py:82 | a slice bound counts negative values from the end and is clamped to [0, n] |
| Text.Slice | rr-kirby/rr-kirby.py:82 | a slice is the text between the clamped bounds, or empty when they cross |
| Text.RunLength | rr-kirby/rr-kirby.py:24 | the length of the leading run of non-space characters |
| Text.Words | rr-kirby/rr-kirby.py:24 | `split()` yields only non-empty tokens without whitespace |
| Text.NonSpaceAppend | rr-kirby/rr-kirby.py:24 | dropping whitespace distributes over concatenation |
| Text.WordsKeepEveryCharacter | rr-kirby/rr-kirby.py:24 | the tokens of `split()`, concatenated, are exactly the non-space characters of the line |
| Text.RunLengthOfWord | rr-kirby/rr-kirby.py:24 | a token followed by whitespace or the end is read as one run |
| Text.WordsUnwords | rr-kirby/rr-kirby.py:24 | tokens joined by single spaces split back into the same tokens |
| Text.WordsAfterSpace | rr-kirby/rr-kirby.py:24 | leading whitespace yields no token |
| Text.WordsCons | rr-kirby/rr-kirby.py:24 | a token after any whitespace and before whitespace or the end of the line is the first token, so a run of spaces or tabs separates tokens as one space does |
| Text.WordsLayout | rr-kirby/rr-kirby.py:24 | `split()` gives back exactly the tokens of any line built from tokens and whitespace gaps, whatever the gaps are, leading and trailing ones included |
| Text.SplitOn | rr-kirby/rr-kirby.py:50 | `split(sep)` gives at least one piece, the pieces join back to the input, no piece contains the separator, every cut is leftmost (no occurrence of the separator starts inside a piece and runs into the next separator), and there are two or more pieces exactly when the separator occurs |
| Text.LeftmostCut | rr-kirby/rr-kirby.py:50 | cutting at the first occurrence leaves no occurrence that starts before the cut and overlaps the separator |
| Text.NoEarlierOccurrence | rr-kirby/rr-kirby.py:50 | the text before the first occurrence of a separator does not contain it |
| Text.Strip | rr-kirby/rr-kirby.py:83 | `strip` returns a piece of the text with only whitespace cut from its two ends, and the piece neither starts nor ends with whitespace, so all of it was cut |
| Text.ParseInt | rr-kirby/rr-kirby.py:83 | `int()` succeeds exactly when the stripped text is one or more digits after at most one sign. The value is that of the digits, negated after '-'. Any other text gives ValueError |
| Text.DigitChar | rr-kirby/rr-kirby.py:83 | the character of a digit value is a digit with that value |
| Text.NatToString | rr-kirby/rr-kirby.py:55 | a natural number prints as a non-empty run of digits, starting with '0' only for zero |
| Text.IntToString | rr-kirby/rr-kirby.py:55 | a non-negative integer prints as digits with its value; a negative one prints as '-' followed by the digits of its absolute value |
| Text.NatToStringValue | rr-kirby/rr-kirby.py:55 | the printed digits of n read back as n |
| Text.StripWord | rr-kirby/rr-kirby.py:83 | `strip` leaves text without surrounding whitespace alone |
| Text.StripIdempotent | rr-kirby/rr-kirby.py:83 | stripping twice is stripping once |
| Text.ParseIntToString | rr-kirby/rr-kirby.py:83 | `int(str(n)) == n` for every integer |
| IntModes.Next | rr-kirby/rr-kirby.py:66-72 | after a line, a block is open only from a line at or before it |
| IntModes.ScanFrom | rr-kirby/rr-kirby.py:62-74 | every block found spans more than three lines and ends before the end of the log |
| IntModes.Spans | rr-kirby/rr-kirby.py:62-74 | every block found spans more than three lines and ends inside the log |
| IntModes.RawModes | rr-kirby/rr-kirby.py:71 | one mode per block, holding the lines from four after the "Normal Mode" line up to the closing rule |
| IntModes.ScanSound | rr-kirby/rr-kirby.py:64-72 | every block found opens at a "Normal Mode" line, has no later opener before its end, and closes at a rule line more than three lines later |
| IntModes.StateAt | rr-kirby/rr-kirby.py:64-72 | the open block at any point started before that point |
| IntModes.ScanSuffix | rr-kirby/rr-kirby.py:64-72 | the blocks found from a later point are among those found from an earlier one |
| IntModes.ScanReaches | rr-kirby/rr-kirby.py:64-72 | a block that is open is reported when the scan reaches its closing line |
| IntModes.ScanComplete | rr-kirby/rr-kirby.py:62-74 | every such block in the log is found |
| IntModes.ScanExact | rr-kirby/rr-kirby.py:62-74 | a block is found exactly when it is a well-formed block of the log |
| IntModes.ScanAfter | rr-kirby/rr-kirby.py:64-72 | blocks found from a point end at or after it and start there or in the block open at that point |
| IntModes.OrderedCons | rr-kirby/rr-kirby.py:71 | a block ending before every later block keeps the list ordered |
| IntModes.ScanOrdered | rr-kirby/rr-kirby.py:64-72 | the blocks are found in log order and do not overlap |
| IntModes.SpansOrdered | rr-kirby/rr-kirby.py:62-74 | the modes come out in log order, each ending before the next starts |
| IntModes.AtomFieldBracketed | rr-kirby/rr-kirby.py:82 | with the first '(' before the first ')', the atom field is the text between them |
| IntModes.AtomFieldUnbracketed | rr-kirby/rr-kirby.py:82 | with no brackets the slice `[0:-1]` drops the last character |
| IntModes.AtomField | rr-kirby/rr-kirby.py:82 | with the first '(' before the first ')' the field is the text between them; with neither bracket it is the label minus its last character; it is never longer than the label |
| IntModes.ParseInts | rr-kirby/rr-kirby.py:83 | the list comprehension yields one integer per piece, or fails with the ValueError of the first bad piece |
| IntModes.ParseIntsShown | rr-kirby/rr-kirby.py:83 | printed integers parse back to the same list |
| IntModes.ParseVib | rr-kirby/rr-kirby.py:80-84 | the errors come in statement order: fewer than three tokens give IndexError; bad atom indices give ValueError; exactly three tokens with good atoms give IndexError; a value that is not a float gives ValueError. A line parses exactly when it has four or more tokens, good atom indices and a float, and then holds those atoms and that value |
| IntModes.MolCount | rr-kirby/rr-kirby.py:86-91 | the count of molecule atoms is at most the number of atoms |
| IntModes.MolCountAll | rr-kirby/rr-kirby.py:86 | the count is the full length exactly when every atom belongs to the molecule |
| IntModes.MolCountAny | rr-kirby/rr-kirby.py:88 | the count is positive exactly when some atom belongs to the molecule |
| IntModes.Classify | rr-kirby/rr-kirby.py:86-91 | molecule exactly when all atoms are molecule atoms; mixed exactly when some but not all are; surface exactly when none are |
| Vectors.AbsReal | rr-kirby/rr-kirby.py:87-91 | `abs` is non-negative and is the value or its negation |
| IntModes.RoutedMembers | rr-kirby/rr-kirby.py:86-91 | a line is kept for a share exactly when it is one of the mode's lines and `Classify` picks that share |
| IntModes.RoutedPartition | rr-kirby/rr-kirby.py:86-91 | the if/elif/else puts every line in exactly one share: the three kept lists have as many lines as the mode |
| IntModes.TallyOf | rr-kirby/rr-kirby.py:78-91 | each of the three sums adds `abs(value)` over exactly the lines that `Classify` sends to that share. The sums are non-negative and add up to the total of the absolute values |
| IntModes.ShareBounds | rr-kirby/rr-kirby.py:93-94 | each share of a non-negative total lies in [0, 100] and is proportional to its sum |
| IntModes.SharesSum | rr-kirby/rr-kirby.py:93-94 | the three shares add up to 100 |
| IntModes.SharesOf | rr-kirby/rr-kirby.py:93-94 | a zero total gives three NaNs and only then; otherwise three percentages in [0, 100] adding up to 100, each proportional to its sum |
| IntModes.ParseMode | rr-kirby/rr-kirby.py:79-84 | a mode parses exactly when each line does, line by line, and otherwise fails with the error of the first bad line |
| IntModes.FirstBadMode | rr-kirby/rr-kirby.py:76-84 | a failed pass over the modes fails with the error of the first mode that does not parse |
| IntModes.AllModesShared | rr-kirby/rr-kirby.py:76-97 | the pass over the modes succeeds exactly when every mode parses, and then its columns give mode k's shares in row k |
| IntModes.ModeShares | rr-kirby/rr-kirby.py:77-97 | a mode yields shares exactly when its lines parse, and otherwise the error of its first bad line. The shares are those of the sums of `abs(value)` over the lines sent to molecule, mixed and surface |
| IntModes.Columns | rr-kirby/rr-kirby.py:76-97 | the three columns have one entry per mode, and row k is mode k's shares |
| IntModes.Tabulate | rr-kirby/rr-kirby.py:76-97 | the table exists exactly when every mode parses, and its row k holds mode k's shares; otherwise it fails with the error of the first mode that does not parse |
| IntModes.LoadIntmodes | rr-kirby/rr-kirby.py:58-97 | a table exists exactly when every mode parses. It has one row per block, and row k is block k's shares: a NaN triple or percentages adding up to 100. Otherwise the result is the error of the first mode that does not parse |
| LogScan.NewSystem | rr-kirby/rr-kirby.py:9-13 | a new system has the given name and no intensities, frequencies or mode table |
| LogScan.FlatMapAppend | rr-kirby/rr-kirby.py:21-24 | collecting over two runs of lines is collecting over each in turn |
| LogScan.FlatMapMembership | rr-kirby/rr-kirby.py:21-24 | a token is collected exactly when some line yields it |
| LogScan.DropList | rr-kirby/rr-kirby.py:24 | `xs[k:]` is empty when k exceeds the length and otherwise the tail from k |
| LogScan.CollectAppend | rr-kirby/rr-kirby.py:21-24 | scanning two files' lines back to back collects their tokens back to back |
| LogScan.CollectMembership | rr-kirby/rr-kirby.py:21-24 | a token is collected exactly when some marked line has it among its tokens after the dropped ones |
| LogScan.CollectWords | rr-kirby/rr-kirby.py:24 | every collected token is a non-empty token without whitespace |
| LogScan.GetWn | rr-kirby/rr-kirby.py:16-26 | only the frequencies change; they are the tokens after the second one on every "Frequencies --" line |
| LogScan.GetWnTokens | rr-kirby/rr-kirby.py:16-26 | a frequency is listed exactly when some "Frequencies --" line carries it from its third token on |
| LogScan.LoadRaman | rr-kirby/rr-kirby.py:29-39 | only the "SL" entry is set, to the tokens from the fourth on of every "Raman Activ --" line; all other keys keep their lists |
| LogScan.LoadRamanTokens | rr-kirby/rr-kirby.py:29-39 | an intensity is listed under "SL" exactly when some "Raman Activ --" line carries it from its fourth token on |
| LogScan.ScanSucceeds | rr-kirby/rr-kirby.py:46-54 | the if/elif loop fails exactly when some wavelength line that is not an intensity line fails to convert |
| LogScan.ScanTokens | rr-kirby/rr-kirby.py:46-50 | the intensities collected by the loop are the tokens of the intensity lines, in order |
| LogScan.ScanWavelength | rr-kirby/rr-kirby.py:51-52 | the loop has no wavelength exactly when no line reaches the elif branch, and otherwise it has the value of the last such line |
| LogScan.RrLineHasSeparator | rr-kirby/rr-kirby.py:49-50 | an intensity line contains "--", so `split("--")[1]` exists |
| LogScan.PerturbLineHasColon | rr-kirby/rr-kirby.py:51-52 | a perturbation line contains ':', so `split(':')[1]` exists |
| LogScan.RrScan | rr-kirby/rr-kirby.py:46-54 | the intensities the loop collects are the tokens after "--" on each intensity line, in order |
| LogScan.RrScanSucceeds | rr-kirby/rr-kirby.py:46-54 | the scan of `load_rr` fails exactly when a perturbation line that is not an intensity line fails to convert |
| LogScan.RrScanWavelength | rr-kirby/rr-kirby.py:51-55 | the scan has no wavelength exactly when there is no perturbation line, and otherwise the last one's |
| LogScan.WavelengthKey | rr-kirby/rr-kirby.py:55 | the key ends in "nm", and the text before that reads back through `int()` as the wavelength |
| LogScan.WavelengthKeyInjective | rr-kirby/rr-kirby.py:55 | two wavelengths give the same "{}nm" key exactly when they are equal |
| LogScan.LoadRr | rr-kirby/rr-kirby.py:42-55 | succeeds exactly when every perturbation line converts and there is at least one. A conversion error propagates, and a log with no perturbation line gives UnboundLocalError. On success only the key of the last wavelength is set, to the intensity tokens |
| LogScan.LoadRrKeepsOtherWavelengths | rr-kirby/rr-kirby.py:55 | loading one wavelength leaves the lists of every other wavelength unchanged |
| LogScan.LoadIntmodes | rr-kirby/rr-kirby.py:58-97 | the system gets a mode table exactly when the log's modes all parse, and row k of that table is block k's shares. Otherwise the result is the error of the first bad mode. Nothing else changes |
| Wrappers.MapAll | rr-kirby/rr-kirby.py:83 | mapping succeeds exactly when every element does, element by element, and otherwise fails with the first failure |

## Left out

- Opening and reading files (`get_wn`, `load_raman`, `load_rr` and `load_intmodes` read a file; `read_xyz`, `read_log` and `get_isodata`, nics/moleculetools.py:153-188, are not part of this model). The scanners take the file's lines as a sequence of strings.
- `float(...)` parsing is a parameter `parseFloat: string -> Option<real>`; `None` stands for its ValueError.
- The wavelength conversion `round(45.56335/float(x))` in `load_rr` is a parameter `wavelength: string -> Result<int, PyError>`, because it is floating-point division and rounding. The parameter may fail with ValueError (`float` rejects the text), ZeroDivisionError (a frequency of 0) or OverflowError (an infinite quotient), and the model passes that error on. The model prints the key as `IntToString(wl) + "nm"`.
- `make_df`, pandas, every `print`, and the top-level script: these only build and show a table.
- `calc_rot_matrix` (never called), the empty module-level `element_dict`, and the module-level `find_axis` (a copy of the method without sign folding). The module-level `find_center` is the centroid, `PointSets.Centroid`.
- The `print_info` argument of `find_axis`, which the method never reads.
- The values of sqrt, sin, cos and arccos are left abstract. As a result, no lemma claims that `rotate_to_z` puts the axis exactly on z; that holds only up to rounding.
- Floating point: the model uses exact reals, so rounding error, infinities and NaN arithmetic are not modelled. A NaN result is a distinct value instead.
- The `else: pass` branch of `apply_4x4_matrix_to_3D_set` (nics/moleculetools.py:65-66), which takes coordinates that already have a fourth column. Coordinates are `Vec3` rows here, so only the three-column branch at nics/moleculetools.py:63-64 is modelled.
- Vectors.UnitVector: a zero input is excluded by a precondition instead of producing NaN. Callers in `Structures` check `NonZero` first and model the NaN case themselves.
- Vectors.FindNormalFromPoints: a collinear triple is excluded by a precondition; `Structures.ConsensusAxis` returns NaN for it.
- `Structures.Valid` (one coordinate row per atom) is required by the `Structure` operations that use the default indices. With mismatched lengths the source can raise IndexError or read a wrong row count.
- The order of `list(set(...))` is Python's hash order. The model keeps the combinations in their original order and proves the order does not matter (`Structures.ConsensusOrderFree`).
- `int()` accepts only ASCII digits, an optional sign and surrounding whitespace. Underscores between digits and non-ASCII digits are not modelled.
- Text.IsSpace covers the whitespace characters up to U+00A0. The other Unicode spaces that `str.split()` also uses are not modelled.
- When a later mode fails to parse, the source has already assigned an empty or partial `self.intmodes`. The model returns the error and leaves the system unchanged.
- IntModes.SharesOf requires non-negative sums. That always holds, because the sums add absolute values (`IntModes.TallyOf`).
- Assignment to `self.wn` and `self.ints` mutates the object in place; the model returns a new `System`.

## Findings

| source | as written | input that shows it | evidently intended | confidence | as-written member | corrected member |
|---|---|---|---|---|---|---|
| nics/moleculetools.py:144-151 | `rotate_to_z` always rotates about `axis x z`. When the axis is already z that cross product is zero, `unit_vector` divides by zero, and every coordinate becomes NaN. | A flat molecule in the plane z = 0, such as the triangle (0,0,0), (h,0,0), (0,1,0) with h >= 1: its axis is exactly z. | An axis already on z needs no rotation, so the coordinates should stay as they are. | not executed | Structures.FlatTriangleRotateIsNaN | Structures.RotateToZAligned |

=== FILE: combinations.dfy ===
/**
 * Three-element combinations of a list, as `itertools.combinations(xs, 3)`
 * enumerates them (positions in lexicographic order), and the removal of
 * repeated entries that `list(set(...))` performs.
 */
module Combinations {

  predicate Distinct<T(==)>(s: seq<T>) {
    forall i, j :: 0 <= i < j < |s| ==> s[i] != s[j]
  }

  datatype Pair<T> = Pair(first: T, second: T)

  datatype Triple<T> = Triple(a: T, b: T, c: T)

  /** `x` paired with each element of `s`, in order. */
  function PairsWith<T>(x: T, s: seq<T>): (r: seq<Pair<T>>)
    ensures |r| == |s|
    ensures forall i :: 0 <= i < |s| ==> r[i] == Pair(x, s[i])
  {
    seq(|s|, i requires 0 <= i < |s| => Pair(x, s[i]))
  }

  /** `itertools.combinations(s, 2)`. */
  function Pairs<T>(s: seq<T>): (r: seq<Pair<T>>)
    ensures 2 * |r| == |s| * (|s| - 1)
    decreases |s|
  {
    if |s| < 2 then []
    else
      var rest := Pairs(s[1..]);
      assert 2 * |rest| == (|s| - 1) * (|s| - 2);
      PairsWith(s[0], s[1..]) + rest
  }

  /** `x` put in front of each pair of `ps`, in order. */
  function TriplesWith<T>(x: T, ps: seq<Pair<T>>): (r: seq<Triple<T>>)
    ensures |r| == |ps|
    ensures forall i :: 0 <= i < |ps| ==> r[i] == Triple(x, ps[i].first, ps[i].second)
  {
    seq(|ps|, i requires 0 <= i < |ps| => Triple(x, ps[i].first, ps[i].second))
  }

  /** `itertools.combinations(s, 3)`. */
  function Triples<T>(s: seq<T>): (r: seq<Triple<T>>)
    ensures 6 * |r| == |s| * (|s| - 1) * (|s| - 2)
    decreases |s|
  {
    if |s| < 3 then []
    else
      var n := |s|;
      var ps := Pairs(s[1..]);
      var rest := Triples(s[1..]);
      assert 6 * |rest| == (n - 1) * (n - 2) * (n - 3);
      assert 2 * |ps| == (n - 1) * (n - 2);
      TriplesCount(n, |ps|, |rest|);
      TriplesWith(s[0], ps) + rest
  }

  lemma TriplesCount(n: int, p: int, t: int)
    requires 6 * t == (n - 1) * (n - 2) * (n - 3)
    requires 2 * p == (n - 1) * (n - 2)
    ensures 6 * (p + t) == n * (n - 1) * (n - 2)
  {
    assert (n - 1) * (n - 2) * n == (n - 1) * (n - 2) * (n - 3) + 3 * ((n - 1) * (n - 2));
  }

  /** A pair is produced exactly when it is taken from two positions in increasing order. */
  lemma {:induction false} PairsMembership<T>(s: seq<T>, p: Pair<T>)
    ensures p in Pairs(s) <==> exists i, j :: 0 <= i < j < |s| && p == Pair(s[i], s[j])
    decreases |s|
  {
    if |s| >= 2 {
      var tail := s[1..];
      PairsMembership(tail, p);
      if p in Pairs(s) {
        if p in PairsWith(s[0], tail) {
          var j :| 0 <= j < |tail| && PairsWith(s[0], tail)[j] == p;
          assert p == Pair(s[0], s[j + 1]);
        } else {
          assert p in Pairs(tail);
          var i, j :| 0 <= i < j < |tail| && p == Pair(tail[i], tail[j]);
          assert p == Pair(s[i + 1], s[j + 1]);
        }
      }
      if exists i, j :: 0 <= i < j < |s| && p == Pair(s[i], s[j]) {
        var i, j :| 0 <= i < j < |s| && p == Pair(s[i], s[j]);
        if i == 0 {
          assert PairsWith(s[0], tail)[j - 1] == p;
        } else {
          assert p == Pair(tail[i - 1], tail[j - 1]);
        }
      }
    }
  }

  /** A triple is produced exactly when it is taken from three positions in increasing order. */
  lemma {:induction false} TriplesMembership<T>(s: seq<T>, t: Triple<T>)
    ensures t in Triples(s) <==> exists i, j, k :: 0 <= i < j < k < |s| && t == Triple(s[i], s[j], s[k])
  {
    if t in Triples(s) {
      TriplesSound(s, t);
    }
    if exists i, j, k :: 0 <= i < j < k < |s| && t == Triple(s[i], s[j], s[k]) {
      var i, j, k :| 0 <= i < j < k < |s| && t == Triple(s[i], s[j], s[k]);
      TriplesComplete(s, i, j, k);
    }
  }

  lemma {:induction false} TriplesSound<T>(s: seq<T>, t: Triple<T>)
    requires t in Triples(s)
    ensures exists i, j, k :: 0 <= i < j < k < |s| && t == Triple(s[i], s[j], s[k])
    decreases |s|
  {
    var tail := s[1..];
    var ps := Pairs(tail);
    if t in TriplesWith(s[0], ps) {
      var m :| 0 <= m < |ps| && TriplesWith(s[0], ps)[m] == t;
      assert Pair(t.b, t.c) == ps[m];
      PairsMembership(tail, Pair(t.b, t.c));
      var j, k :| 0 <= j < k < |tail| && Pair(t.b, t.c) == Pair(tail[j], tail[k]);
      assert t == Triple(s[0], s[j + 1], s[k + 1]);
    } else {
      assert t in Triples(tail);
      TriplesSound(tail, t);
      var i, j, k :| 0 <= i < j < k < |tail| && t == Triple(tail[i], tail[j], tail[k]);
      assert t == Triple(s[i + 1], s[j + 1], s[k + 1]);
    }
  }

  lemma {:induction false} TriplesComplete<T>(s: seq<T>, i: nat, j: nat, k: nat)
    requires i < j < k < |s|
    ensures Triple(s[i], s[j], s[k]) in Triples(s)
    decreases |s|
  {
    var t := Triple(s[i], s[j], s[k]);
    var tail := s[1..];
    var ps := Pairs(tail);
    if i == 0 {
      PairsMembership(tail, Pair(t.b, t.c));
      assert Pair(t.b, t.c) == Pair(tail[j - 1], tail[k - 1]);
      var m :| 0 <= m < |ps| && ps[m] == Pair(t.b, t.c);
      assert TriplesWith(s[0], ps)[m] == t;
    } else {
      TriplesComplete(tail, i - 1, j - 1, k - 1);
      assert t == Triple(tail[i - 1], tail[j - 1], tail[k - 1]);
    }
  }

  lemma DistinctConcat<T>(a: seq<T>, b: seq<T>)
    requires Distinct(a) && Distinct(b)
    requires forall x :: x in a ==> x !in b
    ensures Distinct(a + b)
  {
    forall i, j | 0 <= i < j < |a + b|
      ensures (a + b)[i] != (a + b)[j]
    {
      if j >= |a| && i < |a| {
        assert (a + b)[i] in a && (a + b)[j] in b;
      }
    }
  }

  /** Over a list without repeats, the pairs never repeat. */
  lemma {:induction false} PairsDistinct<T>(s: seq<T>)
    requires Distinct(s)
    ensures Distinct(Pairs(s))
    decreases |s|
  {
    if |s| >= 2 {
      var tail := s[1..];
      assert Distinct(tail);
      PairsDistinct(tail);
      var front := PairsWith(s[0], tail);
      forall p | p in front
        ensures p !in Pairs(tail)
      {
        PairsMembership(tail, p);
      }
      DistinctConcat(front, Pairs(tail));
    }
  }

  /** Over a list without repeats, the triples never repeat, so `set` removes nothing. */
  lemma {:induction false} TriplesDistinct<T>(s: seq<T>)
    requires Distinct(s)
    ensures Distinct(Triples(s))
    decreases |s|
  {
    if |s| >= 3 {
      var tail := s[1..];
      assert Distinct(tail);
      TriplesDistinct(tail);
      PairsDistinct(tail);
      var ps := Pairs(tail);
      var front := TriplesWith(s[0], ps);
      assert Distinct(front) by {
        forall i, j | 0 <= i < j < |front|
          ensures front[i] != front[j]
        {
          assert ps[i] != ps[j];
        }
      }
      forall t | t in front
        ensures t !in Triples(tail)
      {
        if t in Triples(tail) {
          TriplesSound(tail, t);
        }
      }
      DistinctConcat(front, Triples(tail));
    }
  }

  /**
   * `list(set(s))` with the first occurrences kept in order.  Python's set
   * iteration order is unspecified; the sums this list feeds do not depend on it.
   */
  function Dedup<T(==, !new)>(s: seq<T>): (r: seq<T>)
    ensures Distinct(r)
    ensures forall x :: x in r <==> x in s
    decreases |s|
  {
    if |s| == 0 then []
    else
      var init := s[..|s| - 1];
      var last := s[|s| - 1];
      var r := Dedup(init);
      assert s == init + [last];
      if last in r then r else r + [last]
  }

  /** A list without repeats is left as it is. */
  lemma {:induction false} DedupDistinct<T(!new)>(s: seq<T>)
    requires Distinct(s)
    ensures Dedup(s) == s
    decreases |s|
  {
    if |s| > 0 {
      var init := s[..|s| - 1];
      assert Distinct(init);
      DedupDistinct(init);
      assert s[|s| - 1] !in init;
    }
  }
}

=== FILE: errors.dfy ===
/** The exceptions the modelled Python code can raise, as values. */
module Errors {
  datatype PyError =
    | IndexError         // a list index outside the list
    | ValueError         // `int(...)` on text that is not an integer literal
    | UnboundLocalError  // a local variable read before any assignment
    | ZeroDivisionError  // a division by zero, such as `45.56335 / 0.0`
    | OverflowError      // `round(...)` of an infinite quotient
}

=== FILE: intmodes.dfy ===
/**
 * The internal-coordinate analysis of a normal-mode log: find the block of
 * vibration lines that belongs to each normal mode, read the atoms and the
 * contribution of every vibration, sort the contributions into molecule,
 * mixed and surface shares, and turn the three shares into percentages.
 */
module IntModes {
  import opened Wrappers
  import opened Errors
  import opened Text
  import Vectors

  // ---------------------------------------------------------------------
  // Finding the mode blocks

  const NormalMode: string := "Normal Mode"

  /** The rule of eighty dashes that closes a block. */
  const Rule: string := "--------------------------------------------------------------------------------"

  predicate Opens(line: string) {
    Contains(line, NormalMode)
  }

  predicate Closes(line: string) {
    Contains(line, Rule)
  }

  /** A block runs from its "Normal Mode" line `start` to its closing rule `end`. */
  datatype Span = Span(start: nat, end: nat)

  /** Line `i` closes the block opened at `open`: the `elif` branch of the scan. */
  predicate Emits(lines: seq<string>, i: nat, open: Option<nat>)
    requires i < |lines|
  {
    !Opens(lines[i]) && Closes(lines[i]) && open.Some? && i - open.value > 3
  }

  /** The scan state after line `i`: the start of the block being read, if any. */
  function Next(lines: seq<string>, i: nat, open: Option<nat>): (r: Option<nat>)
    requires i < |lines|
    requires open.Some? ==> open.value < i
    ensures r.Some? ==> r.value <= i
  {
    if Opens(lines[i]) then Some(i)
    else if Emits(lines, i, open) then None
    else open
  }

  /** The blocks closed at or after line `i`, when the scan reaches line `i` in state `open`. */
  function ScanFrom(lines: seq<string>, i: nat, open: Option<nat>): (spans: seq<Span>)
    requires i <= |lines|
    requires open.Some? ==> open.value < i
    ensures forall k :: 0 <= k < |spans| ==> spans[k].start + 3 < spans[k].end < |lines|
    decreases |lines| - i
  {
    if i == |lines| then []
    else
      (if Emits(lines, i, open) then [Span(open.value, i)] else [])
      + ScanFrom(lines, i + 1, Next(lines, i, open))
  }

  /** The blocks of the whole log, in file order. */
  function Spans(lines: seq<string>): (spans: seq<Span>)
    ensures forall k :: 0 <= k < |spans| ==> spans[k].start + 3 < spans[k].end < |lines|
  {
    ScanFrom(lines, 0, None)
  }

  /** The vibration lines of every block: from four lines below the header up to the rule. */
  function RawModes(lines: seq<string>): (modes: seq<seq<string>>)
    ensures |modes| == |Spans(lines)|
    ensures forall k :: 0 <= k < |modes| ==>
      modes[k] == lines[Spans(lines)[k].start + 4..Spans(lines)[k].end]
  {
    var spans := Spans(lines);
    seq(|spans|, k requires 0 <= k < |spans| => lines[spans[k].start + 4..spans[k].end])
  }

  /**
   * The block opened at `s` is still being read when the scan reaches line
   * `i`: no later header, and no rule far enough below the header to close it.
   */
  predicate OpenSince(lines: seq<string>, i: nat, s: nat) {
    s < i <= |lines| && Opens(lines[s])
    && (forall k :: s < k < i ==> !Opens(lines[k]))
    && (forall k :: s + 3 < k < i ==> !Closes(lines[k]))
  }

  /** Lines `s` and `e` delimit a block, described without reference to the scan. */
  predicate IsBlock(lines: seq<string>, s: nat, e: nat) {
    s + 3 < e < |lines| && OpenSince(lines, e, s) && !Opens(lines[e]) && Closes(lines[e])
  }

  /** Every block the scan reports is delimited as `IsBlock` describes. */
  lemma {:induction false} ScanSound(lines: seq<string>, i: nat, open: Option<nat>)
    requires i <= |lines|
    requires open.Some? ==> OpenSince(lines, i, open.value)
    ensures forall sp :: sp in ScanFrom(lines, i, open) ==> IsBlock(lines, sp.start, sp.end)
    decreases |lines| - i
  {
    if i < |lines| {
      var o := Next(lines, i, open);
      if Opens(lines[i]) {
        assert OpenSince(lines, i + 1, i);
      } else if o.Some? {
        assert OpenSince(lines, i + 1, o.value);
      }
      ScanSound(lines, i + 1, o);
    }
  }

  /** The state of the scan when it reaches line `j`, having been in state `open` at line `i`. */
  function StateAt(lines: seq<string>, i: nat, open: Option<nat>, j: nat): (o: Option<nat>)
    requires i <= j <= |lines|
    requires open.Some? ==> open.value < i
    ensures o.Some? ==> o.value < j
    decreases j - i
  {
    if i == j then open else StateAt(lines, i + 1, Next(lines, i, open), j)
  }

  /** What the scan reports from line `j` on is part of what it reports from an earlier line. */
  lemma {:induction false} ScanSuffix(lines: seq<string>, i: nat, open: Option<nat>, j: nat)
    requires i <= j <= |lines|
    requires open.Some? ==> open.value < i
    ensures forall sp :: sp in ScanFrom(lines, j, StateAt(lines, i, open, j)) ==> sp in ScanFrom(lines, i, open)
    decreases j - i
  {
    if i < j {
      ScanSuffix(lines, i + 1, Next(lines, i, open), j);
    }
  }

  lemma {:induction false} ScanReaches(lines: seq<string>, i: nat, s: nat, e: nat)
    requires IsBlock(lines, s, e)
    requires s < i <= e
    ensures Span(s, e) in ScanFrom(lines, i, Some(s))
    decreases e - i
  {
    if i < e {
      assert !Opens(lines[i]);
      assert !Emits(lines, i, Some(s));
      ScanReaches(lines, i + 1, s, e);
    }
  }

  /** Every pair of lines that delimits a block is reported by the scan. */
  lemma ScanComplete(lines: seq<string>, s: nat, e: nat)
    requires IsBlock(lines, s, e)
    ensures Span(s, e) in Spans(lines)
  {
    var o := StateAt(lines, 0, None, s);
    ScanSuffix(lines, 0, None, s);
    assert Next(lines, s, o) == Some(s);
    ScanReaches(lines, s + 1, s, e);
  }

  /** The scan reports exactly the delimited blocks. */
  lemma ScanExact(lines: seq<string>, s: nat, e: nat)
    ensures Span(s, e) in Spans(lines) <==> IsBlock(lines, s, e)
  {
    ScanSound(lines, 0, None);
    if IsBlock(lines, s, e) {
      ScanComplete(lines, s, e);
    }
  }

  lemma {:induction false} ScanAfter(lines: seq<string>, i: nat, open: Option<nat>)
    requires i <= |lines|
    requires open.Some? ==> open.value < i
    ensures forall sp :: sp in ScanFrom(lines, i, open) ==> i <= sp.end && (i <= sp.start || open == Some(sp.start))
    decreases |lines| - i
  {
    if i < |lines| {
      ScanAfter(lines, i + 1, Next(lines, i, open));
    }
  }

  /** Blocks follow one another in file order and do not overlap. */
  predicate Ordered(spans: seq<Span>) {
    forall k :: 0 <= k < |spans| - 1 ==> spans[k].end < spans[k + 1].start
  }

  lemma OrderedCons(head: Span, rest: seq<Span>)
    requires Ordered(rest)
    requires forall sp :: sp in rest ==> head.end < sp.start
    ensures Ordered([head] + rest)
  {
    var all := [head] + rest;
    forall k | 0 <= k < |all| - 1
      ensures all[k].end < all[k + 1].start
    {
      if k == 0 {
        assert all[1] == rest[0] && rest[0] in rest;
      } else {
        assert all[k] == rest[k - 1] && all[k + 1] == rest[k];
      }
    }
  }

  lemma {:induction false} ScanOrdered(lines: seq<string>, i: nat, open: Option<nat>)
    requires i <= |lines|
    requires open.Some? ==> open.value < i
    ensures Ordered(ScanFrom(lines, i, open))
    decreases |lines| - i
  {
    if i < |lines| {
      var o := Next(lines, i, open);
      var rest := ScanFrom(lines, i + 1, o);
      ScanOrdered(lines, i + 1, o);
      if Emits(lines, i, open) {
        ScanAfter(lines, i + 1, o);
        OrderedCons(Span(open.value, i), rest);
      } else {
        assert ScanFrom(lines, i, open) == rest;
      }
    }
  }

  /** The blocks of a log, in file order, without overlap. */
  lemma SpansOrdered(lines: seq<string>)
    ensures Ordered(Spans(lines))
  {
    ScanOrdered(lines, 0, None);
  }

  // ---------------------------------------------------------------------
  // One vibration line

  /** A parsed vibration: the atoms of its internal coordinate and its contribution. */
  datatype Vib = Vib(atoms: seq<int>, value: real)

  /** The text between the brackets of a coordinate label, as `desc[desc.find('(')+1:desc.find(')')]`. */
  function AtomField(desc: string): (r: string)
    ensures |r| <= |desc|
    ensures Contains(desc, "(") && Contains(desc, ")") && Find(desc, "(") < Find(desc, ")") ==>
      r == desc[Find(desc, "(") + 1..Find(desc, ")")]
    ensures !Contains(desc, "(") && !Contains(desc, ")") && |desc| > 0 ==> r == desc[..|desc| - 1]
  {
    Slice(desc, Find(desc, "(") + 1, Find(desc, ")"))
  }

  /** A label such as `R(1,2)` yields the text between its first brackets. */
  lemma AtomFieldBracketed(desc: string, p: nat, q: nat)
    requires p < q
    requires OccursAt(desc, "(", p) && forall k :: 0 <= k < p ==> !OccursAt(desc, "(", k)
    requires OccursAt(desc, ")", q) && forall k :: 0 <= k < q ==> !OccursAt(desc, ")", k)
    ensures AtomField(desc) == desc[p + 1..q]
  {
    assert Find(desc, "(") == p by {
      assert Contains(desc, "(");
    }
    assert Find(desc, ")") == q by {
      assert Contains(desc, ")");
    }
  }

  /** A label without brackets loses its last character: both searches give -1, and the slice is `desc[0:-1]`. */
  lemma AtomFieldUnbracketed(desc: string)
    requires |desc| > 0
    requires !Contains(desc, "(") && !Contains(desc, ")")
    ensures AtomField(desc) == desc[..|desc| - 1]
  {
  }

  /** `[int(x) for x in pieces]`. */
  function ParseInts(pieces: seq<string>): (r: Result<seq<int>, PyError>)
    ensures r.Success? ==> (|r.value| == |pieces|
      && forall i :: 0 <= i < |pieces| ==> ParseInt(pieces[i]) == Success(r.value[i]))
    ensures r.Failure? ==> (r.error == ValueError
      && exists i :: 0 <= i < |pieces| && ParseInt(pieces[i]).Failure?)
  {
    MapAll(pieces, ParseInt)
  }

  /** Printed integers parse back to themselves. */
  lemma ParseIntsShown(xs: seq<int>)
    ensures ParseInts(seq(|xs|, i requires 0 <= i < |xs| => IntToString(xs[i]))) == Success(xs)
  {
    var shown := seq(|xs|, i requires 0 <= i < |xs| => IntToString(xs[i]));
    forall i | 0 <= i < |xs|
      ensures ParseInt(shown[i]) == Success(xs[i])
    {
      ParseIntToString(xs[i]);
    }
    var r := ParseInts(shown);
    assert r.Success?;
    assert forall i :: 0 <= i < |xs| ==> r.value[i] == xs[i];
    assert r.value == xs;
  }

  /**
   * One vibration line: the third word is the coordinate label, the atoms are
   * the comma-separated integers between its brackets, and the fourth word is
   * the contribution. The errors come in the order the statements run.
   */
  function ParseVib(vib: string, parseFloat: string -> Option<real>): (r: Result<Vib, PyError>)
    ensures |Words(vib)| < 3 ==> r == Failure(IndexError)
    ensures r.Success? ==> (|Words(vib)| >= 4 && |r.value.atoms| >= 1
      && parseFloat(Words(vib)[3]) == Some(r.value.value)
      && ParseInts(SplitOn(AtomField(Words(vib)[2]), ",")) == Success(r.value.atoms))
    ensures |Words(vib)| >= 3 && ParseInts(SplitOn(AtomField(Words(vib)[2]), ",")).Failure? ==> r == Failure(ValueError)
    ensures |Words(vib)| == 3 && ParseInts(SplitOn(AtomField(Words(vib)[2]), ",")).Success? ==> r == Failure(IndexError)
    ensures (|Words(vib)| >= 4 && ParseInts(SplitOn(AtomField(Words(vib)[2]), ",")).Success?
              && parseFloat(Words(vib)[3]).None?) ==> r == Failure(ValueError)
    ensures r.Success? <==> (|Words(vib)| >= 4 && ParseInts(SplitOn(AtomField(Words(vib)[2]), ",")).Success?
              && parseFloat(Words(vib)[3]).Some?)
  {
    var parts := Words(vib);
    if |parts| < 3 then Failure(IndexError)
    else
      match ParseInts(SplitOn(AtomField(parts[2]), ","))
      case Failure(e) => Failure(e)
      case Success(atoms) =>
        if |parts| < 4 then Failure(IndexError)
        else
          match parseFloat(parts[3])
          case None => Failure(ValueError)
          case Some(v) => Success(Vib(atoms, v))
  }

  // ---------------------------------------------------------------------
  // Sorting contributions

  datatype Share = Mol | Mix | Sur

  /** How many of `atoms` belong to the molecule. */
  function MolCount(atoms: seq<int>, molAtoms: seq<int>): (n: nat)
    ensures n <= |atoms|
  {
    if |atoms| == 0 then 0
    else (if atoms[0] in molAtoms then 1 else 0) + MolCount(atoms[1..], molAtoms)
  }

  lemma {:induction false} MolCountAll(atoms: seq<int>, molAtoms: seq<int>)
    ensures MolCount(atoms, molAtoms) == |atoms| <==> forall i :: 0 <= i < |atoms| ==> atoms[i] in molAtoms
    decreases |atoms|
  {
    if |atoms| > 0 {
      MolCountAll(atoms[1..], molAtoms);
      if forall i :: 0 <= i < |atoms| ==> atoms[i] in molAtoms {
        assert forall i :: 0 <= i < |atoms[1..]| ==> atoms[1..][i] in molAtoms by {
          forall i | 0 <= i < |atoms[1..]| ensures atoms[1..][i] in molAtoms {
            assert atoms[1..][i] == atoms[i + 1];
          }
        }
      } else {
        var j :| 0 <= j < |atoms| && atoms[j] !in molAtoms;
        if j > 0 {
          assert atoms[1..][j - 1] == atoms[j];
        }
      }
    }
  }

  lemma {:induction false} MolCountAny(atoms: seq<int>, molAtoms: seq<int>)
    ensures MolCount(atoms, molAtoms) > 0 <==> exists i :: 0 <= i < |atoms| && atoms[i] in molAtoms
    decreases |atoms|
  {
    if |atoms| > 0 {
      MolCountAny(atoms[1..], molAtoms);
      if MolCount(atoms[1..], molAtoms) > 0 {
        var j :| 0 <= j < |atoms[1..]| && atoms[1..][j] in molAtoms;
        assert atoms[j + 1] in molAtoms;
      }
      if exists i :: 0 <= i < |atoms| && atoms[i] in molAtoms {
        var j :| 0 <= j < |atoms| && atoms[j] in molAtoms;
        if j > 0 {
          assert atoms[1..][j - 1] == atoms[j];
        }
      }
    }
  }

  /**
   * Where a contribution goes, by counting the atoms that belong to the
   * molecule: all of them, some of them, or none.
   */
  function Classify(atoms: seq<int>, molAtoms: seq<int>): (c: Share)
    ensures c == Mol <==> forall i :: 0 <= i < |atoms| ==> atoms[i] in molAtoms
    ensures c == Mix <==> ((exists i :: 0 <= i < |atoms| && atoms[i] in molAtoms)
                       && !(forall i :: 0 <= i < |atoms| ==> atoms[i] in molAtoms))
    ensures c == Sur <==> (!(exists i :: 0 <= i < |atoms| && atoms[i] in molAtoms)
                       && !(forall i :: 0 <= i < |atoms| ==> atoms[i] in molAtoms))
  {
    MolCountAll(atoms, molAtoms);
    MolCountAny(atoms, molAtoms);
    var n := MolCount(atoms, molAtoms);
    if n == |atoms| then Mol else if n > 0 then Mix else Sur
  }

  /** The accumulated absolute contributions of a mode, per share. */
  datatype Tally = Tally(mol: real, mix: real, sur: real)

  function Total(t: Tally): real {
    t.mol + t.mix + t.sur
  }

  predicate NonNegative(t: Tally) {
    0.0 <= t.mol && 0.0 <= t.mix && 0.0 <= t.sur
  }

  /** The sum of the absolute contributions. */
  function AbsSum(vibs: seq<Vib>): (s: real)
    ensures 0.0 <= s
  {
    if |vibs| == 0 then 0.0 else AbsSum(vibs[..|vibs| - 1]) + Vectors.AbsReal(vibs[|vibs| - 1].value)
  }

  lemma AbsSumSnoc(vibs: seq<Vib>, v: Vib)
    ensures AbsSum(vibs + [v]) == AbsSum(vibs) + Vectors.AbsReal(v.value)
  {
    assert (vibs + [v])[..|vibs|] == vibs;
  }

  /** The vibrations, in order, whose atoms `Classify` sends to `share`. */
  function Routed(vibs: seq<Vib>, molAtoms: seq<int>, share: Share): (r: seq<Vib>)
    ensures |r| <= |vibs|
    decreases |vibs|
  {
    if |vibs| == 0 then []
    else
      var v := vibs[|vibs| - 1];
      Routed(vibs[..|vibs| - 1], molAtoms, share) + (if Classify(v.atoms, molAtoms) == share then [v] else [])
  }

  /** A vibration is routed to `share` exactly when it is one of the mode's and `Classify` picks `share` for it. */
  lemma {:induction false} RoutedMembers(vibs: seq<Vib>, molAtoms: seq<int>, share: Share, v: Vib)
    ensures v in Routed(vibs, molAtoms, share) <==> v in vibs && Classify(v.atoms, molAtoms) == share
    decreases |vibs|
  {
    if |vibs| > 0 {
      var init, last := vibs[..|vibs| - 1], vibs[|vibs| - 1];
      RoutedMembers(init, molAtoms, share, v);
      assert vibs == init + [last];
    }
  }

  /** Every vibration lands in exactly one of the three buckets. */
  lemma {:induction false} RoutedPartition(vibs: seq<Vib>, molAtoms: seq<int>)
    ensures |Routed(vibs, molAtoms, Mol)| + |Routed(vibs, molAtoms, Mix)| + |Routed(vibs, molAtoms, Sur)| == |vibs|
    decreases |vibs|
  {
    if |vibs| > 0 {
      RoutedPartition(vibs[..|vibs| - 1], molAtoms);
    }
  }

  /** Adding one vibration adds its absolute contribution to the bucket it is routed to, and nothing to the others. */
  lemma RoutedStep(vibs: seq<Vib>, molAtoms: seq<int>, share: Share)
    requires |vibs| > 0
    ensures var v := vibs[|vibs| - 1];
            AbsSum(Routed(vibs, molAtoms, share))
            == AbsSum(Routed(vibs[..|vibs| - 1], molAtoms, share))
               + (if Classify(v.atoms, molAtoms) == share then Vectors.AbsReal(v.value) else 0.0)
  {
    var init, v := vibs[..|vibs| - 1], vibs[|vibs| - 1];
    if Classify(v.atoms, molAtoms) == share {
      AbsSumSnoc(Routed(init, molAtoms, share), v);
    } else {
      assert Routed(vibs, molAtoms, share) == Routed(init, molAtoms, share);
    }
  }

  /**
   * `mol += abs(value)` and friends, over the vibrations of a mode in order:
   * each bucket holds the absolute contributions of exactly the vibrations
   * `Classify` sends to it, and together they hold all of them.
   */
  function TallyOf(vibs: seq<Vib>, molAtoms: seq<int>): (t: Tally)
    ensures t.mol == AbsSum(Routed(vibs, molAtoms, Mol))
    ensures t.mix == AbsSum(Routed(vibs, molAtoms, Mix))
    ensures t.sur == AbsSum(Routed(vibs, molAtoms, Sur))
    ensures NonNegative(t)
    ensures Total(t) == AbsSum(vibs)
    decreases |vibs|
  {
    if |vibs| == 0 then Tally(0.0, 0.0, 0.0)
    else
      var init := vibs[..|vibs| - 1];
      var t := TallyOf(init, molAtoms);
      var v := vibs[|vibs| - 1];
      var a := Vectors.AbsReal(v.value);
      var share := Classify(v.atoms, molAtoms);
      RoutedStep(vibs, molAtoms, Mol);
      RoutedStep(vibs, molAtoms, Mix);
      RoutedStep(vibs, molAtoms, Sur);
      match share
      case Mol => t.(mol := t.mol + a)
      case Mix => t.(mix := t.mix + a)
      case Sur => t.(sur := t.sur + a)
  }

  // ---------------------------------------------------------------------
  // Percentages

  /** A percentage, or the NaN numpy produces for 0/0. */
  datatype Percent = NaN | Pct(p: real)

  datatype Shares = Shares(mol: Percent, mix: Percent, sur: Percent)

  lemma ShareBounds(a: real, s: real, total: real)
    requires 0.0 <= a <= s && total == s / 100.0 && total != 0.0
    ensures 0.0 <= a / total <= 100.0
    ensures (a / total) * s == 100.0 * a
  {
    assert a / total == 100.0 * a / s;
  }

  lemma SharesSum(a: real, b: real, c: real, total: real)
    requires total == (a + b + c) / 100.0 && total != 0.0
    ensures a / total + b / total + c / total == 100.0
  {
    assert a / total + b / total + c / total == (a + b + c) / total;
  }

  /**
   * `np.array([mol, mix, sur]) / ((mol + mix + sur) / 100)`: three NaNs for a
   * mode with no contribution, otherwise three percentages summing to 100,
   * each proportional to its share.
   */
  function SharesOf(t: Tally): (w: Shares)
    requires NonNegative(t)
    ensures Total(t) == 0.0 <==> w == Shares(NaN, NaN, NaN)
    ensures Total(t) != 0.0 ==> w.mol.Pct? && w.mix.Pct? && w.sur.Pct?
    ensures Total(t) != 0.0 ==> w.mol.p + w.mix.p + w.sur.p == 100.0
    ensures Total(t) != 0.0 ==> 0.0 <= w.mol.p <= 100.0 && 0.0 <= w.mix.p <= 100.0 && 0.0 <= w.sur.p <= 100.0
    ensures Total(t) != 0.0 ==> (w.mol.p * Total(t) == 100.0 * t.mol
      && w.mix.p * Total(t) == 100.0 * t.mix && w.sur.p * Total(t) == 100.0 * t.sur)
  {
    var total := (t.mol + t.mix + t.sur) / 100.0;
    if total == 0.0 then Shares(NaN, NaN, NaN)
    else
      ShareBounds(t.mol, Total(t), total);
      ShareBounds(t.mix, Total(t), total);
      ShareBounds(t.sur, Total(t), total);
      SharesSum(t.mol, t.mix, t.sur, total);
      Shares(Pct(t.mol / total), Pct(t.mix / total), Pct(t.sur / total))
  }

  // ---------------------------------------------------------------------
  // The whole table

  /** The vibrations of one mode, stopping at the first line that raises. */
  function ParseMode(vibs: seq<string>, parseFloat: string -> Option<real>): (r: Result<seq<Vib>, PyError>)
    ensures r.Success? <==> forall i :: 0 <= i < |vibs| ==> ParseVib(vibs[i], parseFloat).Success?
    ensures r.Success? ==> (|r.value| == |vibs|
      && forall i :: 0 <= i < |vibs| ==> ParseVib(vibs[i], parseFloat) == Success(r.value[i]))
    ensures r.Failure? ==> exists i :: (0 <= i < |vibs| && ParseVib(vibs[i], parseFloat) == Failure(r.error)
      && forall j :: 0 <= j < i ==> ParseVib(vibs[j], parseFloat).Success?)
  {
    MapAll(vibs, v => ParseVib(v, parseFloat))
  }

  /**
   * The shares of one mode, when all of its lines parse: the absolute
   * contributions summed per share, as percentages of their total.
   */
  function ModeShares(vibs: seq<string>, molAtoms: seq<int>, parseFloat: string -> Option<real>): (r: Result<Shares, PyError>)
    ensures r.Success? <==> ParseMode(vibs, parseFloat).Success?
    ensures r.Failure? ==> ParseMode(vibs, parseFloat) == Failure(r.error)
    ensures r.Success? ==> var vs := ParseMode(vibs, parseFloat).value;
              r.value == SharesOf(Tally(AbsSum(Routed(vs, molAtoms, Mol)), AbsSum(Routed(vs, molAtoms, Mix)),
                                        AbsSum(Routed(vs, molAtoms, Sur))))
  {
    match ParseMode(vibs, parseFloat)
    case Failure(e) => Failure(e)
    case Success(vs) => Success(SharesOf(TallyOf(vs, molAtoms)))
  }

  /** The `mol%`, `mix%` and `sur%` columns, one entry per mode. */
  datatype Table = Table(mol: seq<Percent>, mix: seq<Percent>, sur: seq<Percent>)

  /** Row `k` of a table with three columns of the same length. */
  function Row(tb: Table, k: nat): Shares
    requires k < |tb.mol| && k < |tb.mix| && k < |tb.sur|
  {
    Shares(tb.mol[k], tb.mix[k], tb.sur[k])
  }

  /** A row is either three NaNs or three percentages summing to 100. */
  predicate WellFormedRow(w: Shares) {
    w == Shares(NaN, NaN, NaN)
    || (w.mol.Pct? && w.mix.Pct? && w.sur.Pct? && w.mol.p + w.mix.p + w.sur.p == 100.0)
  }

  /** The three columns of a sequence of rows. */
  function Columns(ws: seq<Shares>): (tb: Table)
    ensures |tb.mol| == |ws| && |tb.mix| == |ws| && |tb.sur| == |ws|
    ensures forall k :: 0 <= k < |ws| ==> Row(tb, k) == ws[k]
  {
    Table(seq(|ws|, k requires 0 <= k < |ws| => ws[k].mol),
          seq(|ws|, k requires 0 <= k < |ws| => ws[k].mix),
          seq(|ws|, k requires 0 <= k < |ws| => ws[k].sur))
  }

  /** Columns of equal length with row `k` holding the shares of mode `k`. */
  predicate Tabulates(tb: Table, modes: seq<seq<string>>, molAtoms: seq<int>, parseFloat: string -> Option<real>) {
    |tb.mol| == |modes| && |tb.mix| == |modes| && |tb.sur| == |modes|
    && forall k :: 0 <= k < |modes| ==> Success(Row(tb, k)) == ModeShares(modes[k], molAtoms, parseFloat)
  }

  /** `ModeShares` as a function of the mode alone. */
  function Sharer(molAtoms: seq<int>, parseFloat: string -> Option<real>): seq<string> -> Result<Shares, PyError> {
    m => ModeShares(m, molAtoms, parseFloat)
  }

  /** A failed map over the modes stops at the first mode that does not parse, with its error. */
  lemma FirstBadMode(modes: seq<seq<string>>, molAtoms: seq<int>, parseFloat: string -> Option<real>)
    requires MapAll(modes, Sharer(molAtoms, parseFloat)).Failure?
    ensures var e := MapAll(modes, Sharer(molAtoms, parseFloat)).error;
            exists k :: (0 <= k < |modes| && ParseMode(modes[k], parseFloat) == Failure(e)
              && forall j :: 0 <= j < k ==> ParseMode(modes[j], parseFloat).Success?)
  {
    var f := Sharer(molAtoms, parseFloat);
    var e := MapAll(modes, f).error;
    var k :| 0 <= k < |modes| && f(modes[k]) == Failure(e) && forall j :: 0 <= j < k ==> f(modes[j]).Success?;
    assert ModeShares(modes[k], molAtoms, parseFloat) == Failure(e);
    forall j | 0 <= j < k
      ensures ParseMode(modes[j], parseFloat).Success?
    {
      assert f(modes[j]).Success?;
    }
  }

  /** A successful map over the modes gives every mode's shares, and each mode parses. */
  lemma AllModesShared(modes: seq<seq<string>>, molAtoms: seq<int>, parseFloat: string -> Option<real>)
    ensures MapAll(modes, Sharer(molAtoms, parseFloat)).Success? <==>
              forall k :: 0 <= k < |modes| ==> ParseMode(modes[k], parseFloat).Success?
    ensures MapAll(modes, Sharer(molAtoms, parseFloat)).Success? ==>
              Tabulates(Columns(MapAll(modes, Sharer(molAtoms, parseFloat)).value), modes, molAtoms, parseFloat)
  {
    var f := Sharer(molAtoms, parseFloat);
    assert forall k :: 0 <= k < |modes| ==> f(modes[k]) == ModeShares(modes[k], molAtoms, parseFloat);
  }

  /** The table for a sequence of modes, one row per mode in order. */
  function Tabulate(modes: seq<seq<string>>, molAtoms: seq<int>, parseFloat: string -> Option<real>): (r: Result<Table, PyError>)
    ensures r.Success? <==> forall k :: 0 <= k < |modes| ==> ParseMode(modes[k], parseFloat).Success?
    ensures r.Success? ==> Tabulates(r.value, modes, molAtoms, parseFloat)
    ensures r.Failure? ==> exists k :: (0 <= k < |modes| && ParseMode(modes[k], parseFloat) == Failure(r.error)
      && forall j :: 0 <= j < k ==> ParseMode(modes[j], parseFloat).Success?)
  {
    var shares := MapAll(modes, Sharer(molAtoms, parseFloat));
    AllModesShared(modes, molAtoms, parseFloat);
    if shares.Failure? then
      FirstBadMode(modes, molAtoms, parseFloat);
      Failure(shares.error)
    else
      Success(Columns(shares.value))
  }

  /** `load_intmodes` on the lines of a log: the table, or the error the first bad line raises. */
  function LoadIntmodes(lines: seq<string>, molAtoms: seq<int>, parseFloat: string -> Option<real>): (r: Result<Table, PyError>)
    ensures r.Success? ==> |r.value.mol| == |Spans(lines)| && |r.value.mix| == |Spans(lines)| && |r.value.sur| == |Spans(lines)|
    ensures r.Success? ==> forall k :: 0 <= k < |Spans(lines)| ==> WellFormedRow(Row(r.value, k))
    ensures r.Success? <==> forall k :: 0 <= k < |Spans(lines)| ==> ParseMode(RawModes(lines)[k], parseFloat).Success?
    ensures r.Success? ==> Tabulates(r.value, RawModes(lines), molAtoms, parseFloat)
    ensures r.Failure? ==> exists k :: (0 <= k < |Spans(lines)| && ParseMode(RawModes(lines)[k], parseFloat) == Failure(r.error)
      && forall j :: 0 <= j < k ==> ParseMode(RawModes(lines)[j], parseFloat).Success?)
  {
    var r := Tabulate(RawModes(lines), molAtoms, parseFloat);
    assert r.Success? ==> forall k :: 0 <= k < |Spans(lines)| ==> WellFormedRow(Row(r.value, k)) by {
      if r.Success? {
        forall k | 0 <= k < |Spans(lines)| ensures WellFormedRow(Row(r.value, k)) {
          var vs := ParseMode(RawModes(lines)[k], parseFloat).value;
          var t := TallyOf(vs, molAtoms);
          assert Row(r.value, k) == SharesOf(t);
        }
      }
    }
    r
  }
}

=== FILE: logscan.dfy ===
/**
 * The loaders of the resonance-Raman script, as functions from the lines of
 * a log file to the updated system: wavenumbers, off-resonance Raman
 * activities, resonance-Raman activities keyed by excitation wavelength, and
 * the internal-mode table.
 */
module LogScan {
  import opened Wrappers
  import opened Errors
  import opened Text
  import IntModes

  /**
   * The analysed system. Python attributes that have not been assigned yet
   * (`wn`, `intmodes`) are `None`; `ints` maps a column name to its tokens.
   */
  datatype System = System(
    name: Option<string>,
    wn: Option<seq<string>>,
    ints: map<string, seq<string>>,
    intmodes: Option<IntModes.Table>)

  /** A new system: a name (or none), no intensity columns and nothing loaded yet. */
  function NewSystem(name: Option<string>): (s: System)
    ensures s.name == name && s.ints == map[]
    ensures s.wn.None? && s.intmodes.None?
  {
    System(name, None, map[], None)
  }

  const FreqMarker: string := "Frequencies --"
  const RamanMarker: string := "Raman Activ --"
  const RrMarker: string := "RamAct Fr= 1--"
  const PerturbMarker: string := "Using perturbation frequencies:"

  // ---------------------------------------------------------------------
  // Folds over the lines of a log, stated once for any element type

  /** The concatenation of `f(x)` over `xs`, in order. */
  function FlatMap<A, T>(xs: seq<A>, f: A -> seq<T>): seq<T>
    decreases |xs|
  {
    if |xs| == 0 then [] else FlatMap(xs[..|xs| - 1], f) + f(xs[|xs| - 1])
  }

  lemma {:induction false} FlatMapAppend<A, T>(a: seq<A>, b: seq<A>, f: A -> seq<T>)
    ensures FlatMap(a + b, f) == FlatMap(a, f) + FlatMap(b, f)
    decreases |b|
  {
    if |b| == 0 {
      assert a + b == a;
    } else {
      var ab := a + b;
      assert ab[..|ab| - 1] == a + b[..|b| - 1];
      assert ab[|ab| - 1] == b[|b| - 1];
      FlatMapAppend(a, b[..|b| - 1], f);
    }
  }

  lemma {:induction false} FlatMapMembership<A, T>(xs: seq<A>, f: A -> seq<T>, w: T)
    ensures w in FlatMap(xs, f) <==> exists i :: 0 <= i < |xs| && w in f(xs[i])
    decreases |xs|
  {
    if |xs| > 0 {
      var init := xs[..|xs| - 1];
      FlatMapMembership(init, f, w);
      if w in FlatMap(init, f) {
        var i :| 0 <= i < |init| && w in f(init[i]);
        assert xs[i] == init[i];
      }
      if exists i :: 0 <= i < |xs| && w in f(xs[i]) {
        var i :| 0 <= i < |xs| && w in f(xs[i]);
        if i < |init| {
          assert init[i] == xs[i];
        }
      }
    }
  }

  // ---------------------------------------------------------------------
  // Tokens after the first words of marked lines

  /** `xs[k:]`: empty when `k` is past the end. */
  function DropList<T>(xs: seq<T>, k: nat): (r: seq<T>)
    ensures |r| == if k <= |xs| then |xs| - k else 0
    ensures forall i :: 0 <= i < |r| ==> r[i] == xs[k + i]
  {
    if k <= |xs| then xs[k..] else []
  }

  /** What one line adds: its words after the first `drop`, when it carries the marker. */
  function LineTokens(line: string, marker: string, drop: nat): seq<string> {
    if Contains(line, marker) then DropList(Words(line), drop) else []
  }

  function Tokenizer(marker: string, drop: nat): string -> seq<string> {
    line => LineTokens(line, marker, drop)
  }

  /** The tokens of every marked line, in file order. */
  function Collect(lines: seq<string>, marker: string, drop: nat): seq<string> {
    FlatMap(lines, Tokenizer(marker, drop))
  }

  /** Reading two pieces of a log one after the other gives the tokens of the first, then those of the second. */
  lemma CollectAppend(a: seq<string>, b: seq<string>, marker: string, drop: nat)
    ensures Collect(a + b, marker, drop) == Collect(a, marker, drop) + Collect(b, marker, drop)
  {
    FlatMapAppend(a, b, Tokenizer(marker, drop));
  }

  /** A token is collected exactly when some marked line has it after its first `drop` words. */
  lemma CollectMembership(lines: seq<string>, marker: string, drop: nat, w: string)
    ensures w in Collect(lines, marker, drop)
        <==> exists i :: 0 <= i < |lines| && Contains(lines[i], marker) && w in DropList(Words(lines[i]), drop)
  {
    var f := Tokenizer(marker, drop);
    FlatMapMembership(lines, f, w);
    assert forall i :: 0 <= i < |lines| ==> f(lines[i]) == LineTokens(lines[i], marker, drop);
  }

  /** Every collected token is a whitespace-free word. */
  lemma CollectWords(lines: seq<string>, marker: string, drop: nat, w: string)
    requires w in Collect(lines, marker, drop)
    ensures IsWord(w)
  {
    CollectMembership(lines, marker, drop, w);
    var i :| 0 <= i < |lines| && Contains(lines[i], marker) && w in DropList(Words(lines[i]), drop);
    var ws := Words(lines[i]);
    var k :| 0 <= k < |DropList(ws, drop)| && DropList(ws, drop)[k] == w;
    assert ws[drop + k] == w;
  }

  // ---------------------------------------------------------------------
  // get_wn and load_raman

  /** `get_wn`: the wavenumbers are the words after "Frequencies --" on every frequency line. */
  function GetWn(sys: System, lines: seq<string>): (r: System)
    ensures r.name == sys.name && r.ints == sys.ints && r.intmodes == sys.intmodes
    ensures r.wn == Some(Collect(lines, FreqMarker, 2))
  {
    sys.(wn := Some(Collect(lines, FreqMarker, 2)))
  }

  /** A wavenumber is loaded exactly when a frequency line carries it from its third word on. */
  lemma GetWnTokens(sys: System, lines: seq<string>, w: string)
    ensures w in GetWn(sys, lines).wn.value
        <==> exists i :: 0 <= i < |lines| && Contains(lines[i], FreqMarker) && w in DropList(Words(lines[i]), 2)
  {
    CollectMembership(lines, FreqMarker, 2, w);
  }

  /** `load_raman`: the "SL" column holds the words after "Raman Activ --" on every activity line. */
  function LoadRaman(sys: System, lines: seq<string>): (r: System)
    ensures r.name == sys.name && r.wn == sys.wn && r.intmodes == sys.intmodes
    ensures "SL" in r.ints && r.ints["SL"] == Collect(lines, RamanMarker, 3)
    ensures r.ints.Keys == sys.ints.Keys + {"SL"}
    ensures forall k :: k in sys.ints && k != "SL" ==> r.ints[k] == sys.ints[k]
  {
    sys.(ints := sys.ints["SL" := Collect(lines, RamanMarker, 3)])
  }

  /** An activity is loaded exactly when an activity line carries it from its fourth word on. */
  lemma LoadRamanTokens(sys: System, lines: seq<string>, w: string)
    ensures w in LoadRaman(sys, lines).ints["SL"]
        <==> exists i :: 0 <= i < |lines| && Contains(lines[i], RamanMarker) && w in DropList(Words(lines[i]), 3)
  {
    CollectMembership(lines, RamanMarker, 3, w);
  }

  // ---------------------------------------------------------------------
  // The load_rr loop, for any kind of line and token

  /** The loop state: the collected tokens and the last wavelength read. */
  datatype Scan<T> = Scan(tmp: seq<T>, wl: Option<int>)

  /**
   * The `if`/`elif` loop of `load_rr`: a line of the first kind adds its
   * tokens; a line of the second kind (and not the first) sets the
   * wavelength, or raises; other lines are skipped.
   */
  function ScanLines<A, T>(xs: seq<A>, isRr: A -> bool, isWl: A -> bool, tokens: A -> seq<T>,
                           convert: A -> Result<int, PyError>): Result<Scan<T>, PyError>
    decreases |xs|
  {
    if |xs| == 0 then Success(Scan([], None))
    else
      var x := xs[|xs| - 1];
      match ScanLines(xs[..|xs| - 1], isRr, isWl, tokens, convert)
      case Failure(e) => Failure(e)
      case Success(st) =>
        if isRr(x) then Success(st.(tmp := st.tmp + tokens(x)))
        else if isWl(x) then
          match convert(x)
          case Failure(e) => Failure(e)
          case Success(w) => Success(st.(wl := Some(w)))
        else Success(st)
  }

  /** The loop runs to the end exactly when every wavelength line converts; otherwise it stops with the error of one of them. */
  lemma {:induction false} ScanSucceeds<A, T>(xs: seq<A>, isRr: A -> bool, isWl: A -> bool, tokens: A -> seq<T>,
                                               convert: A -> Result<int, PyError>)
    ensures ScanLines(xs, isRr, isWl, tokens, convert).Success?
        <==> forall i :: 0 <= i < |xs| && !isRr(xs[i]) && isWl(xs[i]) ==> convert(xs[i]).Success?
    ensures ScanLines(xs, isRr, isWl, tokens, convert).Failure? ==> exists i ::
      (0 <= i < |xs| && !isRr(xs[i]) && isWl(xs[i])
       && convert(xs[i]) == Failure(ScanLines(xs, isRr, isWl, tokens, convert).error))
    decreases |xs|
  {
    if |xs| > 0 {
      var init := xs[..|xs| - 1];
      assert forall i :: 0 <= i < |init| ==> init[i] == xs[i];
      ScanSucceeds(init, isRr, isWl, tokens, convert);
    }
  }

  /** The tokens a line of the first kind contributes; nothing for the others. */
  function Kept<A, T>(isRr: A -> bool, tokens: A -> seq<T>): A -> seq<T> {
    x => if isRr(x) then tokens(x) else []
  }

  /** Whatever the wavelength lines say, the collected tokens are those of the lines of the first kind. */
  lemma {:induction false} ScanTokens<A, T>(xs: seq<A>, isRr: A -> bool, isWl: A -> bool, tokens: A -> seq<T>,
                                             convert: A -> Result<int, PyError>)
    requires ScanLines(xs, isRr, isWl, tokens, convert).Success?
    ensures ScanLines(xs, isRr, isWl, tokens, convert).value.tmp == FlatMap(xs, Kept(isRr, tokens))
    decreases |xs|
  {
    if |xs| > 0 {
      ScanTokens(xs[..|xs| - 1], isRr, isWl, tokens, convert);
    }
  }

  /** The wavelength is unset without a wavelength line, and otherwise comes from the last one. */
  lemma {:induction false} ScanWavelength<A, T>(xs: seq<A>, isRr: A -> bool, isWl: A -> bool, tokens: A -> seq<T>,
                                                 convert: A -> Result<int, PyError>)
    requires ScanLines(xs, isRr, isWl, tokens, convert).Success?
    ensures ScanLines(xs, isRr, isWl, tokens, convert).value.wl.None?
        <==> forall i :: 0 <= i < |xs| ==> !(!isRr(xs[i]) && isWl(xs[i]))
    ensures ScanLines(xs, isRr, isWl, tokens, convert).value.wl.Some? ==> exists i ::
      (0 <= i < |xs| && !isRr(xs[i]) && isWl(xs[i])
       && convert(xs[i]) == Success(ScanLines(xs, isRr, isWl, tokens, convert).value.wl.value)
       && forall j :: i < j < |xs| ==> !(!isRr(xs[j]) && isWl(xs[j])))
    decreases |xs|
  {
    if |xs| > 0 {
      var init := xs[..|xs| - 1];
      var n := |xs| - 1;
      assert forall i :: 0 <= i < |init| ==> init[i] == xs[i];
      ScanWavelength(init, isRr, isWl, tokens, convert);
      var st := ScanLines(init, isRr, isWl, tokens, convert).value;
      if isRr(xs[n]) || !isWl(xs[n]) {
        assert ScanLines(xs, isRr, isWl, tokens, convert).value.wl == st.wl;
        if st.wl.Some? {
          var i :| 0 <= i < |init| && !isRr(init[i]) && isWl(init[i])
            && convert(init[i]) == Success(st.wl.value)
            && forall j :: i < j < |init| ==> !(!isRr(init[j]) && isWl(init[j]));
          assert forall j :: i < j < |xs| ==> !(!isRr(xs[j]) && isWl(xs[j]));
        }
      }
    }
  }

  // ---------------------------------------------------------------------
  // load_rr

  predicate IsRrLine(line: string) {
    Contains(line, RrMarker)
  }

  predicate HasPerturbMarker(line: string) {
    Contains(line, PerturbMarker)
  }

  /** A line taken by the `elif` branch: a perturbation line that is not also an activity line. */
  predicate IsPerturb(line: string) {
    !IsRrLine(line) && HasPerturbMarker(line)
  }

  /** Every activity line contains "--", so `line.split("--")[1]` exists. */
  lemma RrLineHasSeparator(line: string)
    requires IsRrLine(line)
    ensures |SplitOn(line, "--")| >= 2
  {
    ContainsWithin(line, RrMarker, "--", 12);
  }

  /** Every perturbation line contains ':', so `line.split(':')[1]` exists. */
  lemma PerturbLineHasColon(line: string)
    requires HasPerturbMarker(line)
    ensures |SplitOn(line, ":")| >= 2
  {
    ContainsWithin(line, PerturbMarker, ":", 30);
  }

  /** The tokens of an activity line: the words after its first "--". */
  function RrLineTokens(line: string): seq<string> {
    var pieces := SplitOn(line, "--");
    if |pieces| >= 2 then Words(pieces[1]) else []
  }

  /** The wavelength text of a perturbation line: what follows its first ':'. */
  function PerturbText(line: string): string {
    var pieces := SplitOn(line, ":");
    if |pieces| >= 2 then pieces[1] else ""
  }

  function Converter(wavelength: string -> Result<int, PyError>): string -> Result<int, PyError> {
    line => wavelength(PerturbText(line))
  }

  /** The activity tokens of a log, in file order. */
  function RrTokens(lines: seq<string>): seq<string> {
    FlatMap(lines, Kept(IsRrLine, RrLineTokens))
  }

  /**
   * The loop of `load_rr` over `lines`. `wavelength` stands for the
   * conversion of the perturbation frequency into a rounded wavelength,
   * which may raise.
   */
  function RrScan(lines: seq<string>, wavelength: string -> Result<int, PyError>): (r: Result<Scan<string>, PyError>)
    ensures r.Success? ==> r.value.tmp == RrTokens(lines)
  {
    var r := ScanLines(lines, IsRrLine, HasPerturbMarker, RrLineTokens, Converter(wavelength));
    if r.Failure? then r
    else
      ScanTokens(lines, IsRrLine, HasPerturbMarker, RrLineTokens, Converter(wavelength));
      r
  }

  /** The loop fails exactly when some perturbation line's conversion raises, with that error. */
  lemma RrScanSucceeds(lines: seq<string>, wavelength: string -> Result<int, PyError>)
    ensures RrScan(lines, wavelength).Success?
        <==> forall i :: 0 <= i < |lines| && IsPerturb(lines[i]) ==> wavelength(PerturbText(lines[i])).Success?
    ensures RrScan(lines, wavelength).Failure? ==> exists i :: (0 <= i < |lines| && IsPerturb(lines[i])
      && wavelength(PerturbText(lines[i])) == Failure(RrScan(lines, wavelength).error))
  {
    ScanSucceeds(lines, IsRrLine, HasPerturbMarker, RrLineTokens, Converter(wavelength));
  }

  /** The wavelength is unbound without a perturbation line, and otherwise comes from the last one. */
  lemma RrScanWavelength(lines: seq<string>, wavelength: string -> Result<int, PyError>)
    requires RrScan(lines, wavelength).Success?
    ensures RrScan(lines, wavelength).value.wl.None? <==> forall i :: 0 <= i < |lines| ==> !IsPerturb(lines[i])
    ensures RrScan(lines, wavelength).value.wl.Some? ==> exists i :: (0 <= i < |lines| && IsPerturb(lines[i])
      && wavelength(PerturbText(lines[i])) == Success(RrScan(lines, wavelength).value.wl.value)
      && forall j :: i < j < |lines| ==> !IsPerturb(lines[j]))
  {
    ScanWavelength(lines, IsRrLine, HasPerturbMarker, RrLineTokens, Converter(wavelength));
  }

  /** The column name for an excitation wavelength in nanometres, as `"{}nm".format(in_wl)`. */
  function WavelengthKey(wl: int): (k: string)
    ensures |k| > 2 && k[|k| - 2..] == "nm"
    ensures ParseInt(k[..|k| - 2]) == Success(wl)
  {
    var digits := IntToString(wl);
    ParseIntToString(wl);
    assert (digits + "nm")[..|digits|] == digits;
    digits + "nm"
  }

  /** Different wavelengths get different columns. */
  lemma WavelengthKeyInjective(a: int, b: int)
    ensures WavelengthKey(a) == WavelengthKey(b) <==> a == b
  {
    if WavelengthKey(a) == WavelengthKey(b) {
      var sa, sb := IntToString(a), IntToString(b);
      assert |sa| == |sb|;
      assert sa == WavelengthKey(a)[..|sa|];
      assert sb == WavelengthKey(b)[..|sb|];
      ParseIntToString(a);
      ParseIntToString(b);
    }
  }

  /**
   * `load_rr`: stores the activity tokens under the column of the last
   * wavelength read; a log without a perturbation line leaves the wavelength
   * unbound.
   */
  function LoadRr(sys: System, lines: seq<string>, wavelength: string -> Result<int, PyError>): (r: Result<System, PyError>)
    ensures RrScan(lines, wavelength).Failure? ==> r == Failure(RrScan(lines, wavelength).error)
    ensures RrScan(lines, wavelength).Success? ==>
      ((forall i :: 0 <= i < |lines| ==> !IsPerturb(lines[i])) <==> r == Failure(UnboundLocalError))
    ensures r.Success? ==> exists wl :: (RrScan(lines, wavelength).Success?
      && RrScan(lines, wavelength).value.wl == Some(wl)
      && r.value.ints == sys.ints[WavelengthKey(wl) := RrTokens(lines)])
    ensures r.Success? ==> r.value.name == sys.name && r.value.wn == sys.wn && r.value.intmodes == sys.intmodes
    ensures r.Success? <==> RrScan(lines, wavelength).Success? && exists i :: 0 <= i < |lines| && IsPerturb(lines[i])
  {
    match RrScan(lines, wavelength)
    case Failure(e) => Failure(e)
    case Success(st) =>
      RrScanWavelength(lines, wavelength);
      match st.wl
      case None => Failure(UnboundLocalError)
      case Some(wl) => Success(sys.(ints := sys.ints[WavelengthKey(wl) := st.tmp]))
  }

  /** Loading a second log at another wavelength keeps the column of the first. */
  lemma LoadRrKeepsOtherWavelengths(sys: System, lines: seq<string>, wavelength: string -> Result<int, PyError>, other: int)
    requires LoadRr(sys, lines, wavelength).Success?
    requires RrScan(lines, wavelength).value.wl != Some(other)
    requires WavelengthKey(other) in sys.ints
    ensures WavelengthKey(other) in LoadRr(sys, lines, wavelength).value.ints
    ensures LoadRr(sys, lines, wavelength).value.ints[WavelengthKey(other)] == sys.ints[WavelengthKey(other)]
  {
    var wl := RrScan(lines, wavelength).value.wl.value;
    WavelengthKeyInjective(wl, other);
  }

  // ---------------------------------------------------------------------
  // load_intmodes

  /** `load_intmodes`: the mode table, or the error of the first vibration line that raises. */
  function LoadIntmodes(sys: System, lines: seq<string>, molAtoms: seq<int>, parseFloat: string -> Option<real>)
    : (r: Result<System, PyError>)
    ensures r.Success? <==> IntModes.LoadIntmodes(lines, molAtoms, parseFloat).Success?
    ensures r.Success? ==> (r.value.name == sys.name && r.value.wn == sys.wn && r.value.ints == sys.ints
      && r.value.intmodes == Some(IntModes.LoadIntmodes(lines, molAtoms, parseFloat).value))
    ensures r.Success? ==> IntModes.Tabulates(r.value.intmodes.value, IntModes.RawModes(lines), molAtoms, parseFloat)
    ensures r.Failure? ==> r.error == IntModes.LoadIntmodes(lines, molAtoms, parseFloat).error
  {
    match IntModes.LoadIntmodes(lines, molAtoms, parseFloat)
    case Failure(e) => Failure(e)
    case Success(tb) => Success(sys.(intmodes := Some(tb)))
  }
}

=== FILE: pointsets.dfy ===
/**
 * Finite point sets: sums, centroids, translations and the effect of an
 * affine map on the centroid. A point set is an ordered sequence of points,
 * as the coordinate arrays of the molecule tools are.
 */
module PointSets {
  import opened Vectors
  import opened Transforms

  /** The component-wise sum of the points (the empty sum is the origin). */
  function Sum(pts: seq<Vec3>): Vec3
    decreases |pts|
  {
    if |pts| == 0 then Origin else Add(Sum(pts[..|pts| - 1]), pts[|pts| - 1])
  }

  /** The arithmetic mean of a non-empty point set: the point that, counted once per point, gives their sum. */
  function Centroid(pts: seq<Vec3>): (c: Vec3)
    requires |pts| > 0
    ensures Scale(|pts| as real, c) == Sum(pts)
  {
    var n := |pts| as real;
    var s := Sum(pts);
    InverseCancels(n, s.x);
    InverseCancels(n, s.y);
    InverseCancels(n, s.z);
    Scale(1.0 / n, s)
  }

  lemma InverseCancels(n: real, a: real)
    requires n != 0.0
    ensures n * ((1.0 / n) * a) == a
  {
  }

  /** Every point moved by `-t`. */
  function Translate(pts: seq<Vec3>, t: Vec3): (r: seq<Vec3>)
    ensures |r| == |pts|
    ensures forall i :: 0 <= i < |pts| ==> r[i] == Sub(pts[i], t)
  {
    seq(|pts|, i requires 0 <= i < |pts| => Sub(pts[i], t))
  }

  lemma StepCount(a: real, b: real, x: real)
    requires a == b - 1.0
    ensures a * x + x == b * x
  {
  }

  lemma AddSubStep(s: Vec3, a: real, b: real, p: Vec3, t: Vec3)
    requires a == b - 1.0
    ensures Add(Sub(s, Scale(a, t)), Sub(p, t)) == Sub(Add(s, p), Scale(b, t))
  {
    StepCount(a, b, t.x);
    StepCount(a, b, t.y);
    StepCount(a, b, t.z);
    var l := Add(Sub(s, Scale(a, t)), Sub(p, t));
    var r := Sub(Add(s, p), Scale(b, t));
    assert l.x == r.x;
    assert l.y == r.y;
    assert l.z == r.z;
  }

  /** Sum of a concatenation. */
  lemma {:induction false} SumConcat(u: seq<Vec3>, v: seq<Vec3>)
    ensures Sum(u + v) == Add(Sum(u), Sum(v))
    decreases |v|
  {
    if |v| == 0 {
      assert u + v == u;
      var l := Sum(u);
      assert Add(l, Origin) == l;
    } else {
      var w := u + v;
      assert w[..|w| - 1] == u + v[..|v| - 1];
      SumConcat(u, v[..|v| - 1]);
      var a, b, c := Sum(u), Sum(v[..|v| - 1]), v[|v| - 1];
      assert Add(Add(a, b), c) == Add(a, Add(b, c));
    }
  }

  /** Removing one occurrence of `x` from both sides keeps two multisets equal. */
  lemma MultisetRemove<T>(a: seq<T>, x: T, b: seq<T>, i: nat)
    requires i < |b| && b[i] == x
    requires multiset(a + [x]) == multiset(b)
    ensures multiset(a) == multiset(b[..i] + b[i + 1..])
  {
    var b' := b[..i] + b[i + 1..];
    assert b == b[..i] + [x] + b[i + 1..];
    assert multiset(b) == multiset(b') + multiset{x};
    assert multiset(a + [x]) == multiset(a) + multiset{x};
    forall y: T
      ensures multiset(a)[y] == multiset(b')[y]
    {
      assert multiset(a + [x])[y] == multiset(b)[y];
    }
  }

  lemma AddSwap(p: Vec3, x: Vec3, q: Vec3)
    ensures Add(Add(p, x), q) == Add(Add(p, q), x)
  {
  }

  /** The sum is the sum without the point at `i`, plus that point. */
  lemma SumRemove(b: seq<Vec3>, i: nat)
    requires i < |b|
    ensures Sum(b) == Add(Sum(b[..i] + b[i + 1..]), b[i])
  {
    var x := b[i];
    var pre, post := b[..i], b[i + 1..];
    var px := pre + [x];
    assert b == px + post;
    SumConcat(px, post);
    assert px[..|px| - 1] == pre;
    assert Sum(px) == Add(Sum(pre), x);
    SumConcat(pre, post);
    AddSwap(Sum(pre), x, Sum(post));
  }

  /** Reordering the points does not change their sum. */
  lemma {:induction false} SumPermutation(a: seq<Vec3>, b: seq<Vec3>)
    requires multiset(a) == multiset(b)
    ensures Sum(a) == Sum(b)
    decreases |a|
  {
    if |a| == 0 {
      assert |b| == |multiset(b)| == 0;
    } else {
      var x := a[|a| - 1];
      var a' := a[..|a| - 1];
      assert a == a' + [x];
      assert x in multiset(b);
      var i :| 0 <= i < |b| && b[i] == x;
      MultisetRemove(a', x, b, i);
      SumPermutation(a', b[..i] + b[i + 1..]);
      SumRemove(b, i);
    }
  }

  /** Translating every point moves the sum by the count times the offset. */
  lemma {:induction false} SumTranslate(pts: seq<Vec3>, t: Vec3)
    ensures Sum(Translate(pts, t)) == Sub(Sum(pts), Scale(|pts| as real, t))
    decreases |pts|
  {
    var n := |pts|;
    if n == 0 {
      assert Sub(Origin, Scale(0.0, t)) == Origin;
    } else {
      var init := pts[..n - 1];
      assert Translate(pts, t)[..n - 1] == Translate(init, t);
      SumTranslate(init, t);
      AddSubStep(Sum(init), |init| as real, |pts| as real, pts[n - 1], t);
    }
  }

  lemma MeanShift(n: real, a: real, x: real)
    requires n != 0.0
    ensures (1.0 / n) * (a - n * x) == (1.0 / n) * a - x
  {
  }

  lemma MeanShiftVec(n: real, s: Vec3, t: Vec3)
    requires n != 0.0
    ensures Scale(1.0 / n, Sub(s, Scale(n, t))) == Sub(Scale(1.0 / n, s), t)
  {
    MeanShift(n, s.x, t.x);
    MeanShift(n, s.y, t.y);
    MeanShift(n, s.z, t.z);
    var l := Scale(1.0 / n, Sub(s, Scale(n, t)));
    var r := Sub(Scale(1.0 / n, s), t);
    assert l.x == r.x;
    assert l.y == r.y;
    assert l.z == r.z;
  }

  /** Translating every point by `-t` moves the centroid by `-t`. */
  lemma CentroidTranslate(pts: seq<Vec3>, t: Vec3)
    requires |pts| > 0
    ensures Centroid(Translate(pts, t)) == Sub(Centroid(pts), t)
  {
    SumTranslate(pts, t);
    assert |Translate(pts, t)| == |pts|;
    MeanShiftVec(|pts| as real, Sum(pts), t);
  }

  /** Centring a non-empty set on its own centroid puts the centroid at the origin. */
  lemma CentredAtOrigin(pts: seq<Vec3>)
    requires |pts| > 0
    ensures Centroid(Translate(pts, Centroid(pts))) == Origin
  {
    CentroidTranslate(pts, Centroid(pts));
  }

  lemma AddAffineStep(m: Mat3, s: Vec3, a: real, b: real, p: Vec3, t: Vec3)
    requires a == b - 1.0
    ensures Add(Add(MulVec(m, s), Scale(a, t)), Add(MulVec(m, p), t))
         == Add(MulVec(m, Add(s, p)), Scale(b, t))
  {
    MulVecAdd(m, s, p);
    Regroup(MulVec(m, s), MulVec(m, p), a, b, t);
  }

  lemma Regroup(u: Vec3, w: Vec3, a: real, b: real, t: Vec3)
    requires a == b - 1.0
    ensures Add(Add(u, Scale(a, t)), Add(w, t)) == Add(Add(u, w), Scale(b, t))
  {
    StepCount(a, b, t.x);
    StepCount(a, b, t.y);
    StepCount(a, b, t.z);
  }

  /** The sum of the mapped points is the linear part applied to the sum, plus the count times the translation. */
  lemma {:induction false} SumApplied(m: Mat4, pts: seq<Vec3>)
    ensures Sum(ApplyToSet(m, pts)) == Add(MulVec(Block(m), Sum(pts)), Scale(|pts| as real, Translation(m)))
    decreases |pts|
  {
    var n := |pts|;
    if n == 0 {
      var z := MulVec(Block(m), Origin);
      assert z == Origin;
      assert Add(z, Scale(0.0, Translation(m))) == Origin;
    } else {
      var init := pts[..n - 1];
      assert ApplyToSet(m, pts)[..n - 1] == ApplyToSet(m, init);
      SumApplied(m, init);
      AddAffineStep(Block(m), Sum(init), |init| as real, |pts| as real, pts[n - 1], Translation(m));
    }
  }

  lemma MeanAffine(n: real, y: real, x: real)
    requires n != 0.0
    ensures (1.0 / n) * (y + n * x) == (1.0 / n) * y + x
  {
  }

  lemma MeanAffineVec(n: real, y: Vec3, t: Vec3)
    requires n != 0.0
    ensures Scale(1.0 / n, Add(y, Scale(n, t))) == Add(Scale(1.0 / n, y), t)
  {
    MeanAffine(n, y.x, t.x);
    MeanAffine(n, y.y, t.y);
    MeanAffine(n, y.z, t.z);
    var l := Scale(1.0 / n, Add(y, Scale(n, t)));
    var r := Add(Scale(1.0 / n, y), t);
    assert l.x == r.x;
    assert l.y == r.y;
    assert l.z == r.z;
  }

  /** An affine map sends the centroid of a set to the centroid of its image. */
  lemma CentroidApplied(m: Mat4, pts: seq<Vec3>)
    requires |pts| > 0
    ensures Centroid(ApplyToSet(m, pts)) == ApplyPoint(m, Centroid(pts))
  {
    SumApplied(m, pts);
    MulVecScale(Block(m), 1.0 / (|pts| as real), Sum(pts));
    MeanAffineVec(|pts| as real, MulVec(Block(m), Sum(pts)), Translation(m));
  }
}

=== FILE: structure.dfy ===
/**
 * The `Structure` class of the molecule tools: a named list of atoms with
 * their coordinates, a cached centroid and a cached main axis, and the
 * operations that recentre the molecule and turn its main axis onto z.
 *
 * numpy yields NaN where the model has no number (the mean of no rows, the
 * direction of a zero vector); the cached fields record that as `NotANumber`.
 * The mean of an empty list of normals is a different NaN: a 0-d array,
 * not a 3-vector, recorded as `ScalarNaN`.
 */
module Structures {
  import opened Wrappers
  import opened Errors
  import opened Vectors
  import opened Transforms
  import opened Combinations
  import opened PointSets

  /**
   * A derived quantity: never computed, a vector of NaNs, a 0-d NaN (what
   * `np.mean` returns for an empty list, so it has no components), or a number.
   */
  datatype Cached<T> = Absent | NotANumber | ScalarNaN | Known(value: T)

  datatype Structure = Structure(
    name: string,
    atoms: seq<string>,
    coords: seq<Vec3>,
    center: Cached<Vec3>,
    mainAxis: Cached<Vec3>)

  /** One coordinate row per atom. */
  predicate Valid(st: Structure) {
    |st.coords| == |st.atoms|
  }

  /** `Structure(atoms, coords, name=...)`; the name defaults to "system". */
  function NewStructure(atoms: seq<string>, coords: seq<Vec3>, name: Option<string>): (st: Structure)
    ensures st.center == Absent && st.mainAxis == Absent
    ensures st.atoms == atoms && st.coords == coords
    ensures name.None? ==> st.name == "system"
    ensures name.Some? ==> st.name == name.value
  {
    Structure(name.GetOr("system"), atoms, coords, Absent, Absent)
  }

  /** The sine and cosine passed in satisfy the Pythagorean identity. */
  ghost predicate IsTrig(sin: real -> real, cos: real -> real) {
    forall a: real :: sin(a) * sin(a) + cos(a) * cos(a) == 1.0
  }

  // ---------------------------------------------------------------------
  // Centre

  /** The column means of the coordinates; NaN for no rows. */
  function Centre(coords: seq<Vec3>): (r: Cached<Vec3>)
    ensures r.NotANumber? <==> |coords| == 0
    ensures r.Known? ==> r.value == Centroid(coords)
    ensures r != Absent && r != ScalarNaN
  {
    if |coords| == 0 then NotANumber else Known(Centroid(coords))
  }

  /** `Structure.find_center`. */
  function FindCenter(st: Structure): (r: Structure)
    ensures r.center == Centre(st.coords)
    ensures r.(center := st.center) == st
  {
    st.(center := Centre(st.coords))
  }

  // ---------------------------------------------------------------------
  // Atom triples

  /** numpy row indexing: negative indices count from the end; others raise IndexError. */
  function At(coords: seq<Vec3>, i: int): (r: Option<Vec3>)
    ensures r.Some? <==> -|coords| <= i < |coords|
    ensures 0 <= i < |coords| ==> r == Some(coords[i])
    ensures -|coords| <= i < 0 ==> r == Some(coords[|coords| + i])
  {
    if 0 <= i < |coords| then Some(coords[i])
    else if -|coords| <= i < 0 then Some(coords[|coords| + i])
    else None
  }

  predicate Resolves(coords: seq<Vec3>, t: Triple<int>) {
    At(coords, t.a).Some? && At(coords, t.b).Some? && At(coords, t.c).Some?
  }

  /** The cross product `(b - a) x (c - a)` of the triple's corners. */
  function PlaneDirection(coords: seq<Vec3>, t: Triple<int>): Vec3
    requires Resolves(coords, t)
  {
    var a, b, c := At(coords, t.a).value, At(coords, t.b).value, At(coords, t.c).value;
    Cross(Sub(b, a), Sub(c, a))
  }

  /** The corners resolve and are not collinear, so the triple has a normal. */
  predicate Good(coords: seq<Vec3>, t: Triple<int>) {
    Resolves(coords, t) && NonZero(PlaneDirection(coords, t))
  }

  /** The sign-folded unit normal of one triple: `abs(unit_vector(find_normal_from_points(a, b, c)))`. */
  function Contribution(sqrt: real -> real, coords: seq<Vec3>, t: Triple<int>): (r: Vec3)
    requires IsSqrt(sqrt)
    requires Good(coords, t)
    ensures NonNegative(r)
    ensures Dot(r, r) == 1.0
    ensures r == Abs(UnitVector(sqrt, PlaneDirection(coords, t)))
  {
    var a, b, c := At(coords, t.a).value, At(coords, t.b).value, At(coords, t.c).value;
    var n := FindNormalFromPoints(sqrt, a, b, c);
    UnitVectorOfUnit(sqrt, n);
    Abs(UnitVector(sqrt, n))
  }

  predicate AllResolve(coords: seq<Vec3>, ts: seq<Triple<int>>) {
    forall i :: 0 <= i < |ts| ==> Resolves(coords, ts[i])
  }

  predicate AllGood(coords: seq<Vec3>, ts: seq<Triple<int>>) {
    forall i :: 0 <= i < |ts| ==> Good(coords, ts[i])
  }

  function Contributions(sqrt: real -> real, coords: seq<Vec3>, ts: seq<Triple<int>>): (r: seq<Vec3>)
    requires IsSqrt(sqrt)
    requires AllGood(coords, ts)
    ensures |r| == |ts|
    ensures forall i :: 0 <= i < |ts| ==> r[i] == Contribution(sqrt, coords, ts[i])
  {
    seq(|ts|, i requires 0 <= i < |ts| => Contribution(sqrt, coords, ts[i]))
  }

  // ---------------------------------------------------------------------
  // Sums of folded unit vectors

  lemma GrowSquare(s: real, v: real)
    requires 0.0 <= s && 0.0 <= v
    ensures s * s <= (s + v) * (s + v)
  {
  }

  /** Adding a non-negative vector to a non-negative vector never shortens it. */
  lemma AddNonNegativeGrows(s: Vec3, v: Vec3)
    requires NonNegative(s) && NonNegative(v)
    ensures NonNegative(Add(s, v))
    ensures Dot(s, s) <= Dot(Add(s, v), Add(s, v))
  {
    GrowSquare(s.x, v.x);
    GrowSquare(s.y, v.y);
    GrowSquare(s.z, v.z);
  }

  /** A non-empty sum of non-negative unit vectors is non-negative and at least unit length. */
  lemma {:induction false} FoldedSumBounded(vs: seq<Vec3>)
    requires |vs| > 0
    requires forall i :: 0 <= i < |vs| ==> NonNegative(vs[i]) && Dot(vs[i], vs[i]) == 1.0
    ensures NonNegative(Sum(vs))
    ensures 1.0 <= Dot(Sum(vs), Sum(vs))
    decreases |vs|
  {
    var n := |vs|;
    var init := vs[..n - 1];
    var last := vs[n - 1];
    if n == 1 {
      assert Sum(init) == Origin;
      assert Add(Origin, last) == last;
    } else {
      FoldedSumBounded(init);
      AddNonNegativeGrows(Sum(init), last);
    }
  }

  lemma PositiveMultipleNonNegative(u: Vec3, v: Vec3)
    requires IsPositiveMultiple(u, v)
    requires NonNegative(v)
    ensures NonNegative(u)
  {
    var k :| 0.0 < k && u == Scale(k, v);
  }

  /** The mean of a non-empty list of folded unit vectors has a direction, and it is non-negative. */
  lemma FoldedMean(vs: seq<Vec3>)
    requires |vs| > 0
    requires forall i :: 0 <= i < |vs| ==> NonNegative(vs[i]) && Dot(vs[i], vs[i]) == 1.0
    ensures NonNegative(Scale(1.0 / (|vs| as real), Sum(vs)))
    ensures NonZero(Scale(1.0 / (|vs| as real), Sum(vs)))
  {
    FoldedSumBounded(vs);
    var k := 1.0 / (|vs| as real);
    DotScaleBoth(1.0 / (|vs| as real), Sum(vs));
    assert 0.0 < k * k;
  }

  // ---------------------------------------------------------------------
  // Consensus axis

  /** A positive multiple of a positive multiple of `w` is a positive multiple of `w`. */
  lemma PositiveMultipleOfMultiple(u: Vec3, v: Vec3, w: Vec3)
    requires IsPositiveMultiple(u, v) && IsPositiveMultiple(v, w)
    ensures IsPositiveMultiple(u, w)
  {
    var k1 :| 0.0 < k1 && u == Scale(k1, v);
    var k2 :| 0.0 < k2 && v == Scale(k2, w);
    ScaleScale(k1, k2, w);
    assert 0.0 < k1 * k2;
  }

  lemma ScaleScale(k1: real, k2: real, w: Vec3)
    ensures Scale(k1, Scale(k2, w)) == Scale(k1 * k2, w)
  {
    assert k1 * (k2 * w.x) == (k1 * k2) * w.x;
    assert k1 * (k2 * w.y) == (k1 * k2) * w.y;
    assert k1 * (k2 * w.z) == (k1 * k2) * w.z;
  }

  lemma MeanIsPositiveMultiple(vs: seq<Vec3>)
    requires |vs| > 0
    ensures IsPositiveMultiple(Scale(1.0 / (|vs| as real), Sum(vs)), Sum(vs))
  {
    var k := 1.0 / (|vs| as real);
    assert 0.0 < k;
  }

  /**
   * The loop body of `Structure.find_axis` over a list of index triples: the
   * normalised mean of the folded normals. An index outside the coordinates
   * raises IndexError; no triples leave the mean of an empty list (a 0-d NaN),
   * and a collinear triple makes the mean a vector of NaNs. Otherwise the axis
   * is the unit vector along the sum of the folded normals.
   */
  function ConsensusAxis(sqrt: real -> real, coords: seq<Vec3>, ts: seq<Triple<int>>): (r: Result<Cached<Vec3>, PyError>)
    requires IsSqrt(sqrt)
    ensures r.Failure? <==> !AllResolve(coords, ts)
    ensures r.Failure? ==> r.error == IndexError
    ensures r.Success? ==> r.value != Absent
    ensures r.Success? ==> (r.value == ScalarNaN <==> |ts| == 0)
    ensures r.Success? && r.value.Known? <==> |ts| > 0 && AllGood(coords, ts)
    ensures r.Success? && r.value.Known? ==> NonNegative(r.value.value) && Dot(r.value.value, r.value.value) == 1.0
    ensures r.Success? && r.value.Known? ==>
              AllGood(coords, ts) && IsPositiveMultiple(r.value.value, Sum(Contributions(sqrt, coords, ts)))
  {
    if !AllResolve(coords, ts) then Failure(IndexError)
    else if |ts| == 0 then Success(ScalarNaN)
    else if !AllGood(coords, ts) then Success(NotANumber)
    else
      var folded := Contributions(sqrt, coords, ts);
      var mean := Scale(1.0 / (|folded| as real), Sum(folded));
      FoldedMean(folded);
      var axis := UnitVector(sqrt, mean);
      PositiveMultipleNonNegative(axis, mean);
      MeanIsPositiveMultiple(folded);
      PositiveMultipleOfMultiple(axis, mean, Sum(folded));
      Success(Known(axis))
  }

  // ---------------------------------------------------------------------
  // The order of the triples does not matter

  /** Two lists with the same elements (with multiplicity) agree on every "all elements" test. */
  lemma SameMembers(coords: seq<Vec3>, ts: seq<Triple<int>>, us: seq<Triple<int>>)
    requires multiset(ts) == multiset(us)
    ensures |ts| == |us|
    ensures AllResolve(coords, ts) <==> AllResolve(coords, us)
    ensures AllGood(coords, ts) <==> AllGood(coords, us)
  {
    assert |ts| == |multiset(ts)| == |multiset(us)| == |us|;
    forall i | 0 <= i < |us|
      ensures us[i] in ts
    {
      assert us[i] in multiset(us);
    }
    forall i | 0 <= i < |ts|
      ensures ts[i] in us
    {
      assert ts[i] in multiset(ts);
    }
  }

  /** The triples left after removing the one at position `i` are still all good. */
  lemma AllGoodRemove(coords: seq<Vec3>, us: seq<Triple<int>>, i: nat)
    requires i < |us|
    requires AllGood(coords, us)
    ensures AllGood(coords, us[..i] + us[i + 1..])
  {
    var rest := us[..i] + us[i + 1..];
    forall k | 0 <= k < |rest|
      ensures Good(coords, rest[k])
    {
      if k < i {
        assert rest[k] == us[k];
      } else {
        assert rest[k] == us[k + 1];
      }
    }
  }

  lemma FoldedSumLast(sqrt: real -> real, coords: seq<Vec3>, ts: seq<Triple<int>>)
    requires IsSqrt(sqrt)
    requires |ts| > 0 && AllGood(coords, ts)
    ensures AllGood(coords, ts[..|ts| - 1])
    ensures Sum(Contributions(sqrt, coords, ts))
         == Add(Sum(Contributions(sqrt, coords, ts[..|ts| - 1])), Contribution(sqrt, coords, ts[|ts| - 1]))
  {
    var n := |ts|;
    assert Contributions(sqrt, coords, ts)[..n - 1] == Contributions(sqrt, coords, ts[..n - 1]);
  }

  lemma FoldedSumRemove(sqrt: real -> real, coords: seq<Vec3>, us: seq<Triple<int>>, i: nat)
    requires IsSqrt(sqrt)
    requires i < |us| && AllGood(coords, us)
    ensures AllGood(coords, us[..i] + us[i + 1..])
    ensures Sum(Contributions(sqrt, coords, us))
         == Add(Sum(Contributions(sqrt, coords, us[..i] + us[i + 1..])), Contribution(sqrt, coords, us[i]))
  {
    AllGoodRemove(coords, us, i);
    var cu := Contributions(sqrt, coords, us);
    var rest := us[..i] + us[i + 1..];
    var cr := Contributions(sqrt, coords, rest);
    SumRemove(cu, i);
    var left := cu[..i] + cu[i + 1..];
    assert |left| == |cr|;
    forall k | 0 <= k < |cr|
      ensures left[k] == cr[k]
    {
      if k < i {
        assert left[k] == cu[k] && rest[k] == us[k];
      } else {
        assert left[k] == cu[k + 1] && rest[k] == us[k + 1];
      }
    }
    assert left == cr;
  }

  /** The sum of the folded normals does not depend on the order of the triples. */
  lemma {:induction false} FoldedSumOrderFree(sqrt: real -> real, coords: seq<Vec3>, ts: seq<Triple<int>>, us: seq<Triple<int>>)
    requires IsSqrt(sqrt)
    requires AllGood(coords, ts) && AllGood(coords, us)
    requires multiset(ts) == multiset(us)
    ensures Sum(Contributions(sqrt, coords, ts)) == Sum(Contributions(sqrt, coords, us))
    decreases |ts|
  {
    if |ts| == 0 {
      assert |us| == |multiset(us)| == 0;
    } else {
      var n := |ts|;
      var x := ts[n - 1];
      assert ts == ts[..n - 1] + [x];
      assert x in multiset(us);
      var i :| 0 <= i < |us| && us[i] == x;
      MultisetRemove(ts[..n - 1], x, us, i);
      FoldedSumLast(sqrt, coords, ts);
      FoldedSumRemove(sqrt, coords, us, i);
      FoldedSumOrderFree(sqrt, coords, ts[..n - 1], us[..i] + us[i + 1..]);
    }
  }

  /**
   * The consensus axis is the same for every ordering of the triples, so the
   * arbitrary iteration order of a Python set cannot change it.
   */
  lemma ConsensusOrderFree(sqrt: real -> real, coords: seq<Vec3>, ts: seq<Triple<int>>, us: seq<Triple<int>>)
    requires IsSqrt(sqrt)
    requires multiset(ts) == multiset(us)
    ensures ConsensusAxis(sqrt, coords, ts) == ConsensusAxis(sqrt, coords, us)
  {
    SameMembers(coords, ts, us);
    if |ts| > 0 && AllResolve(coords, ts) && AllGood(coords, ts) {
      FoldedSumOrderFree(sqrt, coords, ts, us);
    }
  }

  // ---------------------------------------------------------------------
  // Translating the molecule does not change its axis

  lemma AtTranslate(coords: seq<Vec3>, t: Vec3, i: int)
    ensures At(Translate(coords, t), i).Some? == At(coords, i).Some?
    ensures At(coords, i).Some? ==> At(Translate(coords, t), i).value == Sub(At(coords, i).value, t)
  {
  }

  lemma EdgeTranslate(a: Vec3, b: Vec3, t: Vec3)
    ensures Sub(Sub(b, t), Sub(a, t)) == Sub(b, a)
  {
  }

  /** Each triple's plane direction is unchanged when all points move by the same offset. */
  lemma PlaneTranslate(coords: seq<Vec3>, t: Vec3, tr: Triple<int>)
    ensures Resolves(Translate(coords, t), tr) == Resolves(coords, tr)
    ensures Resolves(coords, tr) ==> PlaneDirection(Translate(coords, t), tr) == PlaneDirection(coords, tr)
  {
    var moved := Translate(coords, t);
    AtTranslate(coords, t, tr.a);
    AtTranslate(coords, t, tr.b);
    AtTranslate(coords, t, tr.c);
    if Resolves(coords, tr) {
      var a, b, c := At(coords, tr.a).value, At(coords, tr.b).value, At(coords, tr.c).value;
      EdgeTranslate(a, b, t);
      EdgeTranslate(a, c, t);
    }
  }

  /** Translating all points leaves the consensus axis (and its failure modes) unchanged. */
  lemma ConsensusTranslate(sqrt: real -> real, coords: seq<Vec3>, ts: seq<Triple<int>>, t: Vec3)
    requires IsSqrt(sqrt)
    ensures ConsensusAxis(sqrt, Translate(coords, t), ts) == ConsensusAxis(sqrt, coords, ts)
  {
    var moved := Translate(coords, t);
    forall i | 0 <= i < |ts|
      ensures Resolves(moved, ts[i]) == Resolves(coords, ts[i])
      ensures Good(moved, ts[i]) == Good(coords, ts[i])
      ensures Good(coords, ts[i]) ==> Contribution(sqrt, moved, ts[i]) == Contribution(sqrt, coords, ts[i])
    {
      PlaneTranslate(coords, t, ts[i]);
    }
    if |ts| > 0 && AllGood(coords, ts) {
      assert Contributions(sqrt, moved, ts) == Contributions(sqrt, coords, ts);
    }
  }

  // ---------------------------------------------------------------------
  // Which triples `find_axis` visits

  /** `range(n)`. */
  function Range(n: nat): (r: seq<int>)
    ensures |r| == n
    ensures forall i :: 0 <= i < n ==> r[i] == i
  {
    seq(n, i requires 0 <= i < n => i)
  }

  /**
   * For a duplicate-free index list, deduplicating the combinations changes
   * nothing: every choice of positions i < j < k is visited exactly once,
   * C(n, 3) triples in all.
   */
  lemma VisitsEachSubsetOnce(idx: seq<int>)
    requires Distinct(idx)
    ensures Dedup(Triples(idx)) == Triples(idx)
    ensures Distinct(Triples(idx))
    ensures 6 * |Triples(idx)| == |idx| * (|idx| - 1) * (|idx| - 2)
    ensures forall t :: t in Triples(idx) <==>
              exists i, j, k :: 0 <= i < j < k < |idx| && t == Triple(idx[i], idx[j], idx[k])
  {
    TriplesDistinct(idx);
    DedupDistinct(Triples(idx));
    forall t
      ensures t in Triples(idx) <==>
              exists i, j, k :: 0 <= i < j < k < |idx| && t == Triple(idx[i], idx[j], idx[k])
    {
      TriplesMembership(idx, t);
    }
  }

  /** Every member of the deduplicated combinations comes from three positions i < j < k. */
  lemma DedupTripleSource(idx: seq<int>, t: Triple<int>)
    requires t in Dedup(Triples(idx))
    ensures exists i, j, k :: 0 <= i < j < k < |idx| && t == Triple(idx[i], idx[j], idx[k])
  {
    var ts := Dedup(Triples(idx));
    var p :| 0 <= p < |ts| && ts[p] == t;
    assert t in Triples(idx);
    TriplesMembership(idx, t);
  }

  /** The default index list `range(natoms)` only names existing rows. */
  lemma DefaultTriplesResolve(coords: seq<Vec3>)
    ensures AllResolve(coords, Dedup(Triples(Range(|coords|))))
  {
    var r := Range(|coords|);
    var ts := Dedup(Triples(r));
    forall p | 0 <= p < |ts|
      ensures Resolves(coords, ts[p])
    {
      DedupTripleSource(r, ts[p]);
    }
  }

  predicate OutOfRange(coords: seq<Vec3>, x: int) {
    !(-|coords| <= x < |coords|)
  }

  /** Fewer than three indices give no combination of three, and three or more give some. */
  lemma NoTriplesBelowThree(idx: seq<int>)
    ensures |Dedup(Triples(idx))| == 0 <==> |idx| < 3
  {
    var ts := Triples(idx);
    if |idx| >= 3 {
      TriplesComplete(idx, 0, 1, 2);
      assert Triple(idx[0], idx[1], idx[2]) in Dedup(ts);
    } else {
      var n := |idx|;
      assert n * (n - 1) * (n - 2) == 0 by {
        assert n == 0 || n == 1 || n == 2;
      }
      assert |ts| == 0;
    }
  }

  /**
   * `Structure.find_axis`: only the main axis changes; IndexError for an
   * index without a row. Fewer than three indices leave a 0-d NaN; otherwise
   * a number is the unit vector along the sum of the folded normals of the
   * visited triples.
   */
  function FindAxis(sqrt: real -> real, st: Structure, atoms: Option<seq<int>>): (r: Result<Structure, PyError>)
    requires IsSqrt(sqrt)
    ensures r.Failure? ==> r.error == IndexError
    ensures r.Success? ==> r.value.(mainAxis := st.mainAxis) == st
    ensures r.Success? ==> r.value.mainAxis != Absent
    ensures r.Success? ==> (r.value.mainAxis == ScalarNaN <==> |atoms.GetOr(Range(|st.atoms|))| < 3)
    ensures r.Success? && r.value.mainAxis.Known? ==>
              NonNegative(r.value.mainAxis.value) && Dot(r.value.mainAxis.value, r.value.mainAxis.value) == 1.0
    ensures r.Success? && r.value.mainAxis.Known? ==>
              var ts := Dedup(Triples(atoms.GetOr(Range(|st.atoms|))));
              AllGood(st.coords, ts) && IsPositiveMultiple(r.value.mainAxis.value, Sum(Contributions(sqrt, st.coords, ts)))
  {
    var idx := atoms.GetOr(Range(|st.atoms|));
    NoTriplesBelowThree(idx);
    match ConsensusAxis(sqrt, st.coords, Dedup(Triples(idx)))
    case Failure(e) => Failure(e)
    case Success(axis) => Success(st.(mainAxis := axis))
  }

  lemma ResolvesInRange(coords: seq<Vec3>, t: Triple<int>)
    ensures Resolves(coords, t) <==>
              !OutOfRange(coords, t.a) && !OutOfRange(coords, t.b) && !OutOfRange(coords, t.c)
  {
  }

  lemma TriplesIndexBad(coords: seq<Vec3>, idx: seq<int>, t: Triple<int>)
    requires t in Dedup(Triples(idx))
    requires !Resolves(coords, t)
    ensures |idx| >= 3 && exists x :: x in idx && OutOfRange(coords, x)
  {
    DedupTripleSource(idx, t);
    var i, j, k :| 0 <= i < j < k < |idx| && t == Triple(idx[i], idx[j], idx[k]);
    ResolvesInRange(coords, t);
    if OutOfRange(coords, t.a) {
      assert idx[i] in idx;
    } else if OutOfRange(coords, t.b) {
      assert idx[j] in idx;
    } else {
      assert idx[k] in idx;
    }
  }

  lemma PositionInTriple(idx: seq<int>, p: nat)
    requires |idx| >= 3 && p < |idx|
    ensures exists t :: t in Dedup(Triples(idx)) && (t.a == idx[p] || t.b == idx[p] || t.c == idx[p])
  {
    var i, j, k := 0, 1, if p < 2 then 2 else p;
    TriplesComplete(idx, i, j, k);
    var t := Triple(idx[i], idx[j], idx[k]);
    assert t in Dedup(Triples(idx));
  }

  /**
   * With an explicit index list, `find_axis` raises IndexError exactly when
   * there are at least three indices and one of them has no row.
   */
  lemma FindAxisIndexError(sqrt: real -> real, st: Structure, idx: seq<int>)
    requires IsSqrt(sqrt)
    ensures FindAxis(sqrt, st, Some(idx)).Failure? <==>
              |idx| >= 3 && exists x :: x in idx && OutOfRange(st.coords, x)
  {
    var ts := Dedup(Triples(idx));
    if !AllResolve(st.coords, ts) {
      var p :| 0 <= p < |ts| && !Resolves(st.coords, ts[p]);
      TriplesIndexBad(st.coords, idx, ts[p]);
    }
    if |idx| >= 3 && exists x :: x in idx && OutOfRange(st.coords, x) {
      var x :| x in idx && OutOfRange(st.coords, x);
      var p :| 0 <= p < |idx| && idx[p] == x;
      PositionInTriple(idx, p);
      var t :| t in ts && (t.a == x || t.b == x || t.c == x);
      var q :| 0 <= q < |ts| && ts[q] == t;
      assert !Resolves(st.coords, ts[q]);
    }
  }

  /** With the default indices of a well-formed structure, `find_axis` never raises. */
  lemma FindAxisDefaultSucceeds(sqrt: real -> real, st: Structure)
    requires IsSqrt(sqrt)
    requires Valid(st)
    ensures FindAxis(sqrt, st, None).Success?
  {
    DefaultTriplesResolve(st.coords);
  }

  lemma SomeTriplesNeedThreeRows(n: nat, ts: seq<Triple<int>>)
    requires ts == Dedup(Triples(Range(n)))
    requires |ts| > 0
    ensures n >= 3
  {
    assert ts[0] in Triples(Range(n));
  }

  /**
   * The main axis `find_axis()` computes from the default indices: a 0-d NaN
   * below three atoms, a vector of NaNs when some three atoms are collinear,
   * and otherwise the unit vector along the sum of the folded normals.
   */
  function AxisOf(sqrt: real -> real, coords: seq<Vec3>): (r: Cached<Vec3>)
    requires IsSqrt(sqrt)
    ensures r != Absent
    ensures r == ScalarNaN <==> |coords| < 3
    ensures r.Known? ==> |coords| >= 3
    ensures r.Known? ==> NonNegative(r.value) && Dot(r.value, r.value) == 1.0
    ensures r.Known? ==> var ts := Dedup(Triples(Range(|coords|)));
              AllGood(coords, ts) && IsPositiveMultiple(r.value, Sum(Contributions(sqrt, coords, ts)))
  {
    var ts := Dedup(Triples(Range(|coords|)));
    DefaultTriplesResolve(coords);
    NoTriplesBelowThree(Range(|coords|));
    var r := ConsensusAxis(sqrt, coords, ts).value;
    if r.Known? then
      SomeTriplesNeedThreeRows(|coords|, ts);
      r
    else r
  }

  /**
   * The default axis is a number exactly when there are at least three atoms
   * and no three of them are collinear; a vector of NaNs exactly when there
   * are three atoms and some three are collinear.
   */
  lemma AxisOfKnown(sqrt: real -> real, coords: seq<Vec3>)
    requires IsSqrt(sqrt)
    ensures AxisOf(sqrt, coords).Known? <==> |coords| >= 3 && AllGood(coords, Dedup(Triples(Range(|coords|))))
    ensures AxisOf(sqrt, coords) == NotANumber <==> |coords| >= 3 && !AllGood(coords, Dedup(Triples(Range(|coords|))))
  {
    DefaultTriplesResolve(coords);
    NoTriplesBelowThree(Range(|coords|));
  }

  /** `Structure.update_geometry`: recompute the centre, then the main axis. */
  function UpdateGeometry(sqrt: real -> real, st: Structure): (r: Structure)
    requires IsSqrt(sqrt)
    requires Valid(st)
    ensures r == st.(center := Centre(st.coords), mainAxis := AxisOf(sqrt, st.coords))
  {
    var c := FindCenter(st);
    FindAxisDefaultSucceeds(sqrt, c);
    FindAxis(sqrt, c, None).value
  }

  /** Running `update_geometry` twice gives the same structure as running it once. */
  lemma UpdateGeometryIdempotent(sqrt: real -> real, st: Structure)
    requires IsSqrt(sqrt)
    requires Valid(st)
    ensures Valid(UpdateGeometry(sqrt, st))
    ensures UpdateGeometry(sqrt, UpdateGeometry(sqrt, st)) == UpdateGeometry(sqrt, st)
  {
  }

  // ---------------------------------------------------------------------
  // translate_to_center

  lemma TranslateOrigin(pts: seq<Vec3>)
    ensures Translate(pts, Origin) == pts
  {
    forall i | 0 <= i < |pts|
      ensures Translate(pts, Origin)[i] == pts[i]
    {
      var p := pts[i];
      assert Sub(p, Origin) == p;
    }
  }

  /** The default-index axis is the same before and after a translation. */
  lemma AxisTranslate(sqrt: real -> real, coords: seq<Vec3>, t: Vec3)
    requires IsSqrt(sqrt)
    ensures AxisOf(sqrt, Translate(coords, t)) == AxisOf(sqrt, coords)
  {
    DefaultTriplesResolve(coords);
    ConsensusTranslate(sqrt, coords, Dedup(Triples(Range(|coords|))), t);
  }

  /**
   * `Structure.translate_to_center`: refresh the geometry, subtract the
   * centre from every row, refresh again. With no rows the centre is NaN and
   * the (empty) coordinates stay as they are.
   */
  function TranslateToCenter(sqrt: real -> real, st: Structure): (r: Structure)
    requires IsSqrt(sqrt)
    requires Valid(st)
    ensures Valid(r) && r.name == st.name && r.atoms == st.atoms
    ensures |r.coords| == |st.coords|
    ensures |st.coords| > 0 ==>
              forall i :: 0 <= i < |st.coords| ==> r.coords[i] == Sub(st.coords[i], Centroid(st.coords))
    ensures |st.coords| > 0 ==> r.center == Known(Origin)
    ensures |st.coords| == 0 ==> r.center == NotANumber && r.coords == st.coords
    ensures r.mainAxis == AxisOf(sqrt, st.coords)
  {
    var g := UpdateGeometry(sqrt, st);
    var moved := if g.center.Known? then Translate(g.coords, g.center.value) else g.coords;
    var r := UpdateGeometry(sqrt, g.(coords := moved));
    if |st.coords| > 0 then
      CentredAtOrigin(st.coords);
      AxisTranslate(sqrt, st.coords, Centroid(st.coords));
      r
    else
      r
  }

  /** A second `translate_to_center` changes nothing. */
  lemma TranslateToCenterIdempotent(sqrt: real -> real, st: Structure)
    requires IsSqrt(sqrt)
    requires Valid(st)
    ensures TranslateToCenter(sqrt, TranslateToCenter(sqrt, st)) == TranslateToCenter(sqrt, st)
  {
    var r := TranslateToCenter(sqrt, st);
    assert UpdateGeometry(sqrt, r) == r;
    TranslateOrigin(r.coords);
  }

  // ---------------------------------------------------------------------
  // rotate_to_z

  /** The unit direction `find_normal_from_vectors(axis, z)` of the turn. */
  function TurnDirection(sqrt: real -> real, axis: Vec3): (d: Vec3)
    requires IsSqrt(sqrt)
    requires NonZero(Cross(axis, ZAxis))
    ensures Dot(d, d) == 1.0
  {
    FindNormalFromVectors(sqrt, axis, ZAxis)
  }

  /** The rotation `rotate_to_z` builds: about `axis x z`, by the angle from `axis` to z, through `center`. */
  function TurnToZ(sqrt: real -> real, sin: real -> real, cos: real -> real, arccos: real -> real,
                   axis: Vec3, center: Vec3): (m: Mat4)
    requires IsSqrt(sqrt)
    requires NonZero(axis)
    requires NonZero(Cross(axis, ZAxis))
    ensures ApplyPoint(m, center) == center
    ensures m.r3 == Vec4(0.0, 0.0, 0.0, 1.0)
  {
    var direction := TurnDirection(sqrt, axis);
    UnitNonZero(direction);
    RotationMatrix(sqrt, sin(TurnAngle(sqrt, arccos, axis)), cos(TurnAngle(sqrt, arccos, axis)), direction, Some(center))
  }

  /** The turn's angle `angle_between(axis, z)`. */
  function TurnAngle(sqrt: real -> real, arccos: real -> real, axis: Vec3): real
    requires IsSqrt(sqrt)
    requires NonZero(axis)
  {
    AngleBetween(sqrt, arccos, axis, ZAxis)
  }

  /** The turn is the rotation matrix of its angle and direction. */
  lemma TurnToZIsRotation(sqrt: real -> real, sin: real -> real, cos: real -> real, arccos: real -> real,
                          axis: Vec3, center: Vec3)
    requires IsSqrt(sqrt)
    requires NonZero(axis)
    requires NonZero(Cross(axis, ZAxis))
    ensures var d := TurnDirection(sqrt, axis);
            var a := TurnAngle(sqrt, arccos, axis);
            NonZero(d) && TurnToZ(sqrt, sin, cos, arccos, axis, center) == RotationMatrix(sqrt, sin(a), cos(a), d, Some(center))
  {
    UnitNonZero(TurnDirection(sqrt, axis));
  }

  /** With the Pythagorean identity, the turn keeps every distance. */
  lemma TurnToZRigid(sqrt: real -> real, sin: real -> real, cos: real -> real, arccos: real -> real,
                     axis: Vec3, center: Vec3, p: Vec3, q: Vec3)
    requires IsSqrt(sqrt) && IsTrig(sin, cos)
    requires NonZero(axis)
    requires NonZero(Cross(axis, ZAxis))
    ensures var m := TurnToZ(sqrt, sin, cos, arccos, axis, center);
            var e := Sub(ApplyPoint(m, p), ApplyPoint(m, q));
            Dot(e, e) == Dot(Sub(p, q), Sub(p, q))
  {
    var angle := TurnAngle(sqrt, arccos, axis);
    TurnToZIsRotation(sqrt, sin, cos, arccos, axis, center);
    TrigAt(sin, cos, angle);
    RotationPreservesDistance(sqrt, sin(angle), cos(angle), TurnDirection(sqrt, axis), Some(center), p, q);
  }

  lemma TrigAt(sin: real -> real, cos: real -> real, angle: real)
    requires IsTrig(sin, cos)
    ensures sin(angle) * sin(angle) + cos(angle) * cos(angle) == 1.0
  {
  }

  /** Turn the coordinates of a refreshed structure and refresh it again. */
  function Rotated(sqrt: real -> real, sin: real -> real, cos: real -> real, arccos: real -> real,
                   g: Structure): (r: Structure)
    requires IsSqrt(sqrt)
    requires Valid(g)
    requires |g.coords| > 0 && g.center == Known(Centroid(g.coords))
    requires g.mainAxis.Known? && NonZero(g.mainAxis.value)
    requires NonZero(Cross(g.mainAxis.value, ZAxis))
    ensures Valid(r) && r.name == g.name && r.atoms == g.atoms
    ensures r.center == g.center
    ensures r.coords == ApplyToSet(TurnToZ(sqrt, sin, cos, arccos, g.mainAxis.value, g.center.value), g.coords)
    ensures r.mainAxis == AxisOf(sqrt, r.coords)
  {
    var m := TurnToZ(sqrt, sin, cos, arccos, g.mainAxis.value, g.center.value);
    CentroidApplied(m, g.coords);
    UpdateGeometry(sqrt, g.(coords := ApplyToSet(m, g.coords)))
  }

  lemma UnitNonZero(v: Vec3)
    requires Dot(v, v) == 1.0
    ensures NonZero(v)
  {
  }

  /**
   * `Structure.rotate_to_z` as written. A 0-d NaN axis (fewer than three
   * atoms) makes `np.cross` raise ValueError. `Success(None)` stands for the
   * coordinates becoming NaN: when the axis is a vector of NaNs, or when it is
   * parallel to z, so that `axis x z` is zero and has no direction.
   */
  function RotateToZ(sqrt: real -> real, sin: real -> real, cos: real -> real, arccos: real -> real,
                     st: Structure): (r: Result<Option<Structure>, PyError>)
    requires IsSqrt(sqrt)
    requires Valid(st)
    ensures r.Failure? ==> r.error == ValueError
    ensures r.Success? && r.value.Some? ==> Valid(r.value.value) && r.value.value.name == st.name && r.value.value.atoms == st.atoms
    ensures r.Success? && r.value.Some? ==> |r.value.value.coords| == |st.coords|
    ensures r.Success? && r.value.Some? ==> r.value.value.center == Centre(st.coords) && r.value.value.center.Known?
    ensures r.Success? && r.value.Some? ==>
              var a := AxisOf(sqrt, st.coords);
              a.Known? && NonZero(a.value) && NonZero(Cross(a.value, ZAxis))
              && r.value.value.coords == ApplyToSet(TurnToZ(sqrt, sin, cos, arccos, a.value, Centroid(st.coords)), st.coords)
              && r.value.value.mainAxis == AxisOf(sqrt, r.value.value.coords)
  {
    var g := UpdateGeometry(sqrt, st);
    if g.mainAxis == ScalarNaN then Failure(ValueError)
    else if g.center.Known? && g.mainAxis.Known? && NonZero(Cross(g.mainAxis.value, ZAxis)) then
      UnitNonZero(g.mainAxis.value);
      Success(Some(Rotated(sqrt, sin, cos, arccos, g)))
    else
      Success(None)
  }

  lemma SquaresZero(a: real, b: real)
    requires a * a + b * b <= 0.0
    ensures a == 0.0 && b == 0.0
  {
    assert 0.0 <= a * a && 0.0 <= b * b;
    ProductZero(a, a);
    ProductZero(b, b);
  }

  lemma UnitOnZ(x: real, y: real, z: real)
    requires 0.0 <= z && x * x + y * y + z * z == 1.0
    requires y * y + x * x <= 0.0
    ensures x == 0.0 && y == 0.0 && z == 1.0
  {
    SquaresZero(y, x);
    assert z * z == 1.0;
    UnitRoot(z);
  }

  lemma CrossZ(a: Vec3)
    ensures Dot(Cross(a, ZAxis), Cross(a, ZAxis)) == a.y * a.y + a.x * a.x
  {
    assert Cross(a, ZAxis) == Vec3(a.y, -a.x, 0.0);
  }

  /** A non-negative unit vector is parallel to z exactly when it is z. */
  lemma CrossWithZ(a: Vec3)
    requires NonNegative(a) && Dot(a, a) == 1.0
    ensures NonZero(Cross(a, ZAxis)) <==> a != ZAxis
  {
    CrossZ(a);
    if !NonZero(Cross(a, ZAxis)) {
      UnitOnZ(a.x, a.y, a.z);
    }
  }

  /**
   * `rotate_to_z` raises ValueError exactly when there are fewer than three
   * atoms, and produces coordinates exactly when the structure has a main
   * axis and that axis is not already z.
   */
  lemma RotateToZDefined(sqrt: real -> real, sin: real -> real, cos: real -> real, arccos: real -> real,
                         st: Structure)
    requires IsSqrt(sqrt)
    requires Valid(st)
    ensures RotateToZ(sqrt, sin, cos, arccos, st).Failure? <==> |st.coords| < 3
    ensures RotateToZ(sqrt, sin, cos, arccos, st).Success? && RotateToZ(sqrt, sin, cos, arccos, st).value.Some? <==>
              AxisOf(sqrt, st.coords).Known? && AxisOf(sqrt, st.coords) != Known(ZAxis)
  {
    var axis := AxisOf(sqrt, st.coords);
    RotateToZShape(sqrt, sin, cos, arccos, st);
    if axis.Known? {
      CrossWithZ(axis.value);
    }
  }

  lemma RotateToZShape(sqrt: real -> real, sin: real -> real, cos: real -> real, arccos: real -> real,
                       st: Structure)
    requires IsSqrt(sqrt)
    requires Valid(st)
    ensures RotateToZ(sqrt, sin, cos, arccos, st).Failure? <==> AxisOf(sqrt, st.coords) == ScalarNaN
    ensures RotateToZ(sqrt, sin, cos, arccos, st).Success? && RotateToZ(sqrt, sin, cos, arccos, st).value.Some? <==>
              AxisOf(sqrt, st.coords).Known? && NonZero(Cross(AxisOf(sqrt, st.coords).value, ZAxis))
  {
    var g := UpdateGeometry(sqrt, st);
    assert g.mainAxis == AxisOf(sqrt, st.coords);
    if g.mainAxis.Known? {
      assert g.center.Known?;
    }
  }

  /** Every distance between two atoms is the same before and after `rotate_to_z`. */
  lemma RotateToZRigid(sqrt: real -> real, sin: real -> real, cos: real -> real, arccos: real -> real,
                       st: Structure, i: nat, j: nat)
    requires IsSqrt(sqrt) && IsTrig(sin, cos)
    requires Valid(st)
    requires RotateToZ(sqrt, sin, cos, arccos, st).Success? && RotateToZ(sqrt, sin, cos, arccos, st).value.Some?
    requires i < |st.coords| && j < |st.coords|
    ensures var moved := RotateToZ(sqrt, sin, cos, arccos, st).value.value.coords;
            Dot(Sub(moved[i], moved[j]), Sub(moved[i], moved[j]))
            == Dot(Sub(st.coords[i], st.coords[j]), Sub(st.coords[i], st.coords[j]))
  {
    var g := UpdateGeometry(sqrt, st);
    var axis := g.mainAxis.value;
    UnitNonZero(axis);
    TurnToZRigid(sqrt, sin, cos, arccos, axis, g.center.value, st.coords[i], st.coords[j]);
  }

  // ---------------------------------------------------------------------
  // Molecules already lying in the xy-plane

  /** The vector lies on the z axis. */
  predicate OnZAxis(v: Vec3) {
    v.x == 0.0 && v.y == 0.0
  }

  /** Every atom lies in the plane z = 0. */
  predicate Flat(coords: seq<Vec3>) {
    forall i :: 0 <= i < |coords| ==> coords[i].z == 0.0
  }

  lemma FlatPlaneDirection(coords: seq<Vec3>, t: Triple<int>)
    requires Flat(coords) && Resolves(coords, t)
    ensures OnZAxis(PlaneDirection(coords, t))
  {
    var a, b, c := At(coords, t.a).value, At(coords, t.b).value, At(coords, t.c).value;
    assert a.z == 0.0 && b.z == 0.0 && c.z == 0.0;
  }

  lemma PositiveMultipleOnZ(u: Vec3, v: Vec3)
    requires IsPositiveMultiple(u, v) && OnZAxis(v)
    ensures OnZAxis(u)
  {
    var k :| 0.0 < k && u == Scale(k, v);
  }

  lemma FlatContribution(sqrt: real -> real, coords: seq<Vec3>, t: Triple<int>)
    requires IsSqrt(sqrt) && Flat(coords) && Good(coords, t)
    ensures OnZAxis(Contribution(sqrt, coords, t))
  {
    var a, b, c := At(coords, t.a).value, At(coords, t.b).value, At(coords, t.c).value;
    FlatPlaneDirection(coords, t);
    var n := FindNormalFromPoints(sqrt, a, b, c);
    PositiveMultipleOnZ(n, Cross(Sub(b, a), Sub(c, a)));
    PositiveMultipleOnZ(UnitVector(sqrt, n), n);
  }

  lemma {:induction false} SumOnZ(vs: seq<Vec3>)
    requires forall i :: 0 <= i < |vs| ==> OnZAxis(vs[i])
    ensures OnZAxis(Sum(vs))
    decreases |vs|
  {
    if |vs| > 0 {
      SumOnZ(vs[..|vs| - 1]);
    }
  }

  /** The only non-negative unit vector on the z axis is z. */
  lemma OnZUnit(a: Vec3)
    requires NonNegative(a) && Dot(a, a) == 1.0 && OnZAxis(a)
    ensures a == ZAxis
  {
    UnitOnZ(a.x, a.y, a.z);
  }

  /** When every folded normal lies on the z axis, so does their normalised mean. */
  lemma ConsensusOnZ(sqrt: real -> real, coords: seq<Vec3>, ts: seq<Triple<int>>)
    requires IsSqrt(sqrt)
    requires |ts| > 0 && AllGood(coords, ts)
    requires forall i :: 0 <= i < |ts| ==> OnZAxis(Contribution(sqrt, coords, ts[i]))
    ensures ConsensusAxis(sqrt, coords, ts).Success?
    ensures ConsensusAxis(sqrt, coords, ts).value.Known?
    ensures OnZAxis(ConsensusAxis(sqrt, coords, ts).value.value)
  {
    var folded := Contributions(sqrt, coords, ts);
    SumOnZ(folded);
    FoldedMean(folded);
    var mean := Scale(1.0 / (|folded| as real), Sum(folded));
    PositiveMultipleOnZ(UnitVector(sqrt, mean), mean);
  }

  /** The axis of a molecule lying in the xy-plane, when it has one, is exactly z. */
  lemma FlatAxisIsZ(sqrt: real -> real, coords: seq<Vec3>)
    requires IsSqrt(sqrt) && Flat(coords)
    requires AxisOf(sqrt, coords).Known?
    ensures AxisOf(sqrt, coords) == Known(ZAxis)
  {
    var ts := Dedup(Triples(Range(|coords|)));
    DefaultTriplesResolve(coords);
    forall i | 0 <= i < |ts|
      ensures OnZAxis(Contribution(sqrt, coords, ts[i]))
    {
      FlatContribution(sqrt, coords, ts[i]);
    }
    ConsensusOnZ(sqrt, coords, ts);
    OnZUnit(AxisOf(sqrt, coords).value);
  }

  /**
   * As written, `rotate_to_z` never turns a molecule lying in the xy-plane:
   * below three atoms it raises ValueError, and otherwise the coordinates
   * become NaN, because the axis is NaN or exactly z, and `z x z` is zero.
   */
  lemma RotateToZFlatIsNaN(sqrt: real -> real, sin: real -> real, cos: real -> real, arccos: real -> real,
                           st: Structure)
    requires IsSqrt(sqrt)
    requires Valid(st) && Flat(st.coords)
    ensures |st.coords| < 3 ==> RotateToZ(sqrt, sin, cos, arccos, st) == Failure(ValueError)
    ensures |st.coords| >= 3 ==> RotateToZ(sqrt, sin, cos, arccos, st) == Success(None)
  {
    RotateToZDefined(sqrt, sin, cos, arccos, st);
    if AxisOf(sqrt, st.coords).Known? {
      FlatAxisIsZ(sqrt, st.coords);
    }
  }

  /** A right triangle in the xy-plane, with legs of length `h` and 1. */
  function FlatTriangle(h: real): (st: Structure)
    ensures Valid(st) && Flat(st.coords)
  {
    Structure("system", ["C", "C", "C"], [Origin, Vec3(h, 0.0, 0.0), Vec3(0.0, 1.0, 0.0)], Absent, Absent)
  }

  lemma SquareAtLeastOne(h: real)
    requires 1.0 <= h
    ensures 1.0 <= h * h
  {
  }

  /** Three rows give exactly one triple. */
  lemma ThreeRowTriples(n: nat)
    requires n == 3
    ensures Dedup(Triples(Range(n))) == [Triple(0, 1, 2)]
  {
    var r := Range(n);
    var ts := Triples(r);
    assert |ts| == 1;
    assert Distinct(ts);
    var t := ts[0];
    assert t in ts;
    TriplesMembership(r, t);
    var i, j, k :| 0 <= i < j < k < |r| && t == Triple(r[i], r[j], r[k]);
    assert r[i] == 0 && r[j] == 1 && r[k] == 2;
    assert ts == [Triple(0, 1, 2)];
  }

  lemma TriangleGood(coords: seq<Vec3>, h: real)
    requires coords == [Origin, Vec3(h, 0.0, 0.0), Vec3(0.0, 1.0, 0.0)]
    requires 1.0 <= h
    ensures Good(coords, Triple(0, 1, 2))
  {
    var a, b, c := coords[0], coords[1], coords[2];
    assert At(coords, 0) == Some(a) && At(coords, 1) == Some(b) && At(coords, 2) == Some(c);
    var u, v := Sub(b, a), Sub(c, a);
    assert u == Vec3(h, 0.0, 0.0) && v == Vec3(0.0, 1.0, 0.0);
    var w := Cross(u, v);
    assert w == Vec3(0.0, 0.0, h);
    assert Dot(w, w) == h * h;
    SquareAtLeastOne(h);
    assert NonZero(w);
  }

  /** The flat triangle has a well-defined main axis, and it is z. */
  lemma FlatTriangleAxis(sqrt: real -> real, h: real)
    requires IsSqrt(sqrt)
    requires 1.0 <= h
    ensures AxisOf(sqrt, FlatTriangle(h).coords) == Known(ZAxis)
  {
    var coords := FlatTriangle(h).coords;
    ThreeRowTriples(|coords|);
    var t := Triple(0, 1, 2);
    TriangleGood(coords, h);
    assert AllGood(coords, [t]);
    FlatAxisIsZ(sqrt, coords);
  }

  /** So `rotate_to_z` on the flat triangle yields NaN although its axis is well defined. */
  lemma FlatTriangleRotateIsNaN(sqrt: real -> real, sin: real -> real, cos: real -> real, arccos: real -> real,
                                h: real)
    requires IsSqrt(sqrt)
    requires 1.0 <= h
    ensures AxisOf(sqrt, FlatTriangle(h).coords).Known?
    ensures RotateToZ(sqrt, sin, cos, arccos, FlatTriangle(h)) == Success(None)
  {
    FlatTriangleAxis(sqrt, h);
    RotateToZFlatIsNaN(sqrt, sin, cos, arccos, FlatTriangle(h));
  }

  /**
   * `rotate_to_z` as intended: a structure whose axis is already z needs no
   * turn and keeps its coordinates; otherwise as written, including the
   * ValueError below three atoms.
   */
  function RotateToZAligned(sqrt: real -> real, sin: real -> real, cos: real -> real, arccos: real -> real,
                            st: Structure): (r: Result<Option<Structure>, PyError>)
    requires IsSqrt(sqrt)
    requires Valid(st)
    ensures r.Failure? <==> |st.coords| < 3
    ensures r.Failure? ==> r.error == ValueError
    ensures r.Success? ==> (r.value.Some? <==> AxisOf(sqrt, st.coords).Known?)
    ensures r.Success? && r.value.Some? ==> Valid(r.value.value) && r.value.value.name == st.name && r.value.value.atoms == st.atoms
    ensures r.Success? && r.value.Some? ==> |r.value.value.coords| == |st.coords|
    ensures r.Success? && r.value.Some? ==> r.value.value.center == Centre(st.coords) && r.value.value.center.Known?
    ensures AxisOf(sqrt, st.coords) == Known(ZAxis) ==> r.Success? && r.value.Some? && r.value.value.coords == st.coords
    ensures AxisOf(sqrt, st.coords) != Known(ZAxis) ==> r == RotateToZ(sqrt, sin, cos, arccos, st)
  {
    var g := UpdateGeometry(sqrt, st);
    if g.mainAxis == Known(ZAxis) then
      AlignedUnchanged(sqrt, st);
      Success(Some(g))
    else
      RotateToZDefined(sqrt, sin, cos, arccos, st);
      RotateToZ(sqrt, sin, cos, arccos, st)
  }

  /** A refreshed structure whose axis is z has at least three atoms, a centre, and its own coordinates. */
  lemma AlignedUnchanged(sqrt: real -> real, st: Structure)
    requires IsSqrt(sqrt)
    requires Valid(st)
    requires AxisOf(sqrt, st.coords) == Known(ZAxis)
    ensures var g := UpdateGeometry(sqrt, st);
            |st.coords| >= 3 && Valid(g) && g.name == st.name && g.atoms == st.atoms && g.coords == st.coords
            && g.center == Centre(st.coords) && g.center.Known?
  {
  }

  /** The corrected operation is rigid too. */
  lemma RotateToZAlignedRigid(sqrt: real -> real, sin: real -> real, cos: real -> real, arccos: real -> real,
                              st: Structure, i: nat, j: nat)
    requires IsSqrt(sqrt) && IsTrig(sin, cos)
    requires Valid(st)
    requires RotateToZAligned(sqrt, sin, cos, arccos, st).Success? && RotateToZAligned(sqrt, sin, cos, arccos, st).value.Some?
    requires i < |st.coords| && j < |st.coords|
    ensures var moved := RotateToZAligned(sqrt, sin, cos, arccos, st).value.value.coords;
            Dot(Sub(moved[i], moved[j]), Sub(moved[i], moved[j]))
            == Dot(Sub(st.coords[i], st.coords[j]), Sub(st.coords[i], st.coords[j]))
  {
    if AxisOf(sqrt, st.coords) != Known(ZAxis) {
      RotateToZRigid(sqrt, sin, cos, arccos, st, i, j);
    }
  }
}

=== FILE: text.dfy ===
/**
 * The Python string operations the log scanner relies on: substring search,
 * `str.split()` on whitespace, `str.split(sep)`, slicing with Python's index
 * rules, and `int(...)` on decimal text.
 */
module Text {
  import opened Wrappers
  import opened Errors

  /** The characters `str.isspace` accepts in the ASCII and Latin-1 range. */
  predicate IsSpace(c: char) {
    c == ' ' || c == '\t' || c == '\n' || c == '\r' || c == '\U{000B}' || c == '\U{000C}'
    || ('\U{001C}' <= c <= '\U{001F}') || c == '\U{0085}' || c == '\U{00A0}'
  }

  // ---------------------------------------------------------------------
  // Substring search

  /** `pat` occurs in `s` starting at position `i`. */
  predicate OccursAt(s: string, pat: string, i: int) {
    0 <= i && i + |pat| <= |s| && s[i..i + |pat|] == pat
  }

  /** `pat in s`. */
  predicate Contains(s: string, pat: string) {
    exists i :: 0 <= i <= |s| && OccursAt(s, pat, i)
  }

  /** Text containing `p` contains everything `p` contains. */
  lemma ContainsWithin(s: string, p: string, q: string, j: nat)
    requires Contains(s, p) && OccursAt(p, q, j)
    ensures Contains(s, q)
  {
    var i :| 0 <= i <= |s| && OccursAt(s, p, i);
    forall k | 0 <= k < |q|
      ensures s[i + j + k] == q[k]
    {
      assert p[j + k] == q[k];
      assert s[i + (j + k)] == p[j + k];
    }
    assert s[i + j..i + j + |q|] == q;
    assert OccursAt(s, q, i + j);
  }

  /** The first occurrence of `pat` at or after `i`, or -1. */
  function FindFrom(s: string, pat: string, i: nat): (r: int)
    requires i <= |s|
    ensures r == -1 || (i <= r && OccursAt(s, pat, r))
    ensures r == -1 ==> forall k :: i <= k <= |s| ==> !OccursAt(s, pat, k)
    ensures r != -1 ==> forall k :: i <= k < r ==> !OccursAt(s, pat, k)
    decreases |s| - i
  {
    if i + |pat| > |s| then -1
    else if s[i..i + |pat|] == pat then i
    else if i == |s| then -1
    else FindFrom(s, pat, i + 1)
  }

  /** `s.find(pat)`: the first position of `pat` in `s`, or -1 when it does not occur. */
  function Find(s: string, pat: string): (r: int)
    ensures r == -1 <==> !Contains(s, pat)
    ensures r != -1 ==> OccursAt(s, pat, r) && forall k :: 0 <= k < r ==> !OccursAt(s, pat, k)
  {
    FindFrom(s, pat, 0)
  }

  // ---------------------------------------------------------------------
  // Python slicing

  /** A slice bound after Python's rules: negative counts from the end, then clamped to the string. */
  function SliceBound(n: nat, x: int): (r: nat)
    ensures r <= n
    ensures 0 <= x <= n ==> r == x
    ensures -(n as int) <= x < 0 ==> r == n + x
  {
    if x < 0 then (if x + n < 0 then 0 else x + n)
    else if x > n then n
    else x
  }

  /** `s[a:b]`. */
  function Slice(s: string, a: int, b: int): (r: string)
    ensures SliceBound(|s|, a) <= SliceBound(|s|, b) ==> r == s[SliceBound(|s|, a)..SliceBound(|s|, b)]
    ensures SliceBound(|s|, b) < SliceBound(|s|, a) ==> r == ""
  {
    var lo, hi := SliceBound(|s|, a), SliceBound(|s|, b);
    if lo <= hi then s[lo..hi] else ""
  }

  // ---------------------------------------------------------------------
  // str.split() on whitespace

  /** A token of `str.split()`: non-empty, without whitespace. */
  predicate IsWord(w: string) {
    |w| > 0 && forall i :: 0 <= i < |w| ==> !IsSpace(w[i])
  }

  /** The number of leading characters that are not whitespace. */
  function RunLength(s: string): (n: nat)
    ensures n <= |s|
    ensures forall i :: 0 <= i < n ==> !IsSpace(s[i])
    ensures n < |s| ==> IsSpace(s[n])
  {
    if |s| == 0 || IsSpace(s[0]) then 0 else 1 + RunLength(s[1..])
  }

  /** The characters of `s` that are not whitespace, in order. */
  function NonSpace(s: string): string {
    if |s| == 0 then "" else (if IsSpace(s[0]) then "" else [s[0]]) + NonSpace(s[1..])
  }

  function Concat(ws: seq<string>): string {
    if |ws| == 0 then "" else ws[0] + Concat(ws[1..])
  }

  /** `s.split()`: the maximal runs of non-whitespace characters, in order. */
  function Words(s: string): (ws: seq<string>)
    ensures forall i :: 0 <= i < |ws| ==> IsWord(ws[i])
    decreases |s|
  {
    if |s| == 0 then []
    else if IsSpace(s[0]) then Words(s[1..])
    else
      var n := RunLength(s);
      [s[..n]] + Words(s[n..])
  }

  lemma {:induction false} NonSpaceAppend(a: string, b: string)
    ensures NonSpace(a + b) == NonSpace(a) + NonSpace(b)
    decreases |a|
  {
    if |a| == 0 {
      assert a + b == b;
    } else {
      assert (a + b)[1..] == a[1..] + b;
      NonSpaceAppend(a[1..], b);
    }
  }

  lemma {:induction false} NonSpaceOfWord(w: string)
    requires forall i :: 0 <= i < |w| ==> !IsSpace(w[i])
    ensures NonSpace(w) == w
    decreases |w|
  {
    if |w| > 0 {
      NonSpaceOfWord(w[1..]);
    }
  }

  /** The tokens of `s`, glued together, are exactly the non-whitespace characters of `s`. */
  lemma {:induction false} WordsKeepEveryCharacter(s: string)
    ensures Concat(Words(s)) == NonSpace(s)
    decreases |s|
  {
    if |s| == 0 {
    } else if IsSpace(s[0]) {
      WordsKeepEveryCharacter(s[1..]);
    } else {
      var n := RunLength(s);
      assert s == s[..n] + s[n..];
      WordsKeepEveryCharacter(s[n..]);
      NonSpaceOfWord(s[..n]);
      NonSpaceAppend(s[..n], s[n..]);
      assert Words(s) == [s[..n]] + Words(s[n..]);
      assert Concat(Words(s)) == s[..n] + Concat(Words(s[n..]));
    }
  }

  /** `" ".join(ws)`. */
  function Unwords(ws: seq<string>): string {
    if |ws| == 0 then "" else if |ws| == 1 then ws[0] else ws[0] + " " + Unwords(ws[1..])
  }

  lemma {:induction false} RunLengthOfWord(w: string, rest: string)
    requires IsWord(w)
    requires |rest| == 0 || IsSpace(rest[0])
    ensures RunLength(w + rest) == |w|
    decreases |w|
  {
    if |w| > 1 {
      assert (w + rest)[1..] == w[1..] + rest;
      RunLengthOfWord(w[1..], rest);
    } else {
      assert (w + rest)[1..] == rest;
    }
  }

  /** Splitting space-joined tokens gives the tokens back. */
  lemma {:induction false} WordsUnwords(ws: seq<string>)
    requires forall i :: 0 <= i < |ws| ==> IsWord(ws[i])
    ensures Words(Unwords(ws)) == ws
    decreases |ws|
  {
    if |ws| == 1 {
      var w := ws[0];
      RunLengthOfWord(w, "");
      assert w + "" == w;
      assert w[..|w|] == w && w[|w|..] == "";
    } else if |ws| > 1 {
      var w := ws[0];
      var rest := " " + Unwords(ws[1..]);
      var s := w + rest;
      assert Unwords(ws) == s;
      RunLengthOfWord(w, rest);
      assert s[..|w|] == w && s[|w|..] == rest;
      assert Words(rest) == Words(Unwords(ws[1..]));
      WordsUnwords(ws[1..]);
    }
  }

  /** Leading whitespace yields no token. */
  lemma {:induction false} WordsAfterSpace(sp: string, t: string)
    requires AllSpace(sp)
    ensures Words(sp + t) == Words(t)
    decreases |sp|
  {
    if |sp| == 0 {
      assert sp + t == t;
    } else {
      assert (sp + t)[1..] == sp[1..] + t;
      WordsAfterSpace(sp[1..], t);
    }
  }

  /**
   * A token after any whitespace and before whitespace or the end is the
   * first token: runs of spaces and tabs separate tokens just as one space does.
   */
  lemma WordsCons(sp: string, w: string, rest: string)
    requires AllSpace(sp) && IsWord(w)
    requires |rest| == 0 || IsSpace(rest[0])
    ensures Words(sp + w + rest) == [w] + Words(rest)
  {
    assert sp + w + rest == sp + (w + rest);
    WordsAfterSpace(sp, w + rest);
    RunLengthOfWord(w, rest);
    var t := w + rest;
    assert t[..|w|] == w && t[|w|..] == rest;
  }

  /**
   * Tokens laid out with whitespace gaps: `gaps[0] + ws[0] + gaps[1] + ...
   * + ws[n-1] + gaps[n]`.
   */
  function Layout(gaps: seq<string>, ws: seq<string>): string
    requires |gaps| == |ws| + 1
  {
    if |ws| == 0 then gaps[0] else gaps[0] + ws[0] + Layout(gaps[1..], ws[1..])
  }

  /** Every gap is whitespace, and those between two tokens are not empty. */
  predicate Separates(gaps: seq<string>, ws: seq<string>) {
    |gaps| == |ws| + 1
    && (forall i :: 0 <= i < |gaps| ==> AllSpace(gaps[i]))
    && (forall i :: 0 < i < |ws| ==> |gaps[i]| > 0)
  }

  /** `split()` recovers the tokens of any whitespace layout, whatever its gaps. */
  lemma {:induction false} WordsLayout(gaps: seq<string>, ws: seq<string>)
    requires Separates(gaps, ws)
    requires forall i :: 0 <= i < |ws| ==> IsWord(ws[i])
    ensures Words(Layout(gaps, ws)) == ws
    decreases |ws|
  {
    if |ws| == 0 {
      WordsAfterSpace(gaps[0], "");
      assert gaps[0] + "" == gaps[0];
    } else {
      var rest := Layout(gaps[1..], ws[1..]);
      assert |rest| == 0 || IsSpace(rest[0]) by {
        if |gaps[1]| > 0 {
          assert rest[0] == gaps[1][0];
        }
      }
      WordsCons(gaps[0], ws[0], rest);
      assert Separates(gaps[1..], ws[1..]) by {
        assert forall i :: 0 < i < |ws| - 1 ==> gaps[1..][i] == gaps[i + 1];
      }
      WordsLayout(gaps[1..], ws[1..]);
    }
  }

  // ---------------------------------------------------------------------
  // str.split(sep)

  /** `sep.join(pieces)`. */
  function Join(sep: string, pieces: seq<string>): string {
    if |pieces| == 0 then "" else if |pieces| == 1 then pieces[0]
    else pieces[0] + sep + Join(sep, pieces[1..])
  }

  /** `s.split(sep)` for a non-empty separator (Python raises ValueError on an empty one). */
  function SplitOn(s: string, sep: string): (pieces: seq<string>)
    requires |sep| > 0
    ensures |pieces| >= 1
    ensures Join(sep, pieces) == s
    ensures forall i :: 0 <= i < |pieces| ==> !Contains(pieces[i], sep)
    ensures Contains(s, sep) <==> |pieces| >= 2
    ensures forall i :: 0 <= i < |pieces| - 1 ==> !Contains(pieces[i] + sep[..|sep| - 1], sep)
    decreases |s|
  {
    var f := Find(s, sep);
    if f == -1 then [s]
    else
      var head, tail := s[..f], s[f + |sep|..];
      NoEarlierOccurrence(s, sep, f);
      LeftmostCut(s, sep, f);
      var rest := SplitOn(tail, sep);
      assert s == head + sep + tail;
      assert OccursAt(s, sep, f);
      var pieces := [head] + rest;
      assert forall i :: 1 <= i < |pieces| ==> pieces[i] == rest[i - 1];
      pieces
  }

  /**
   * No occurrence of `sep` starts before the first one, even one that would
   * overlap it: the piece before the cut, followed by all but the last
   * character of `sep`, does not contain `sep`.
   */
  lemma LeftmostCut(s: string, sep: string, f: nat)
    requires |sep| > 0
    requires OccursAt(s, sep, f)
    requires forall k :: 0 <= k < f ==> !OccursAt(s, sep, k)
    ensures !Contains(s[..f] + sep[..|sep| - 1], sep)
  {
    var t := s[..f] + sep[..|sep| - 1];
    assert t == s[..f + |sep| - 1];
    if Contains(t, sep) {
      var k :| 0 <= k <= |t| && OccursAt(t, sep, k);
      assert k < f;
      assert t[k..k + |sep|] == s[k..k + |sep|];
      assert OccursAt(s, sep, k);
      assert false;
    }
  }

  /** The text before the first occurrence of `sep` does not contain `sep`. */
  lemma NoEarlierOccurrence(s: string, sep: string, f: nat)
    requires |sep| > 0
    requires OccursAt(s, sep, f)
    requires forall k :: 0 <= k < f ==> !OccursAt(s, sep, k)
    ensures !Contains(s[..f], sep)
  {
    if Contains(s[..f], sep) {
      var k :| 0 <= k <= f && OccursAt(s[..f], sep, k);
      assert k < f;
      assert s[..f][k..k + |sep|] == s[k..k + |sep|];
      assert OccursAt(s, sep, k);
      assert false;
    }
  }

  // ---------------------------------------------------------------------
  // int(...) on decimal text

  predicate IsDigit(c: char) {
    '0' <= c <= '9'
  }

  function DigitValue(c: char): nat
    requires IsDigit(c)
  {
    (c as int) - ('0' as int)
  }

  /** The value of a string of decimal digits, most significant first. */
  function DigitsValue(ds: string): nat
    requires forall i :: 0 <= i < |ds| ==> IsDigit(ds[i])
  {
    if |ds| == 0 then 0 else 10 * DigitsValue(ds[..|ds| - 1]) + DigitValue(ds[|ds| - 1])
  }

  predicate AllSpace(s: string) {
    forall k :: 0 <= k < |s| ==> IsSpace(s[k])
  }

  /** `r` is `s` with only whitespace cut from its two ends. */
  predicate CutFrom(s: string, r: string) {
    exists i, j :: 0 <= i <= j <= |s| && r == s[i..j] && AllSpace(s[..i]) && AllSpace(s[j..])
  }

  /**
   * `s.strip()`: whitespace removed from both ends. The result is a piece of
   * `s` with only whitespace cut off before and after it, and it neither
   * starts nor ends with whitespace, so all of it was cut.
   */
  function Strip(s: string): (r: string)
    ensures |r| == 0 || (!IsSpace(r[0]) && !IsSpace(r[|r| - 1]))
    ensures CutFrom(s, r)
    decreases |s|
  {
    if |s| == 0 then
      CutWhole(s);
      s
    else if IsSpace(s[0]) then
      var r := Strip(s[1..]);
      CutFront(s, r);
      r
    else if IsSpace(s[|s| - 1]) then
      var r := Strip(s[..|s| - 1]);
      CutBack(s, r);
      r
    else
      CutWhole(s);
      s
  }

  lemma CutWhole(s: string)
    ensures CutFrom(s, s)
  {
    assert s == s[0..|s|] && s[..0] == [] && s[|s|..] == [];
  }

  lemma CutFront(s: string, r: string)
    requires |s| > 0 && IsSpace(s[0]) && CutFrom(s[1..], r)
    ensures CutFrom(s, r)
  {
    var t := s[1..];
    var i, j :| 0 <= i <= j <= |t| && r == t[i..j] && AllSpace(t[..i]) && AllSpace(t[j..]);
    ShiftedCut(s, i, j);
    AllSpaceCons(s[0], t[..i]);
  }

  lemma ShiftedCut(s: string, i: nat, j: nat)
    requires i <= j < |s|
    ensures s[1..][i..j] == s[i + 1..j + 1]
    ensures s[..i + 1] == [s[0]] + s[1..][..i]
    ensures s[j + 1..] == s[1..][j..]
  {
  }

  lemma AllSpaceCons(c: char, w: string)
    requires IsSpace(c) && AllSpace(w)
    ensures AllSpace([c] + w)
  {
    assert forall k :: 0 < k <= |w| ==> ([c] + w)[k] == w[k - 1];
  }

  lemma CutBack(s: string, r: string)
    requires |s| > 0 && IsSpace(s[|s| - 1]) && CutFrom(s[..|s| - 1], r)
    ensures CutFrom(s, r)
  {
    var t := s[..|s| - 1];
    var i, j :| 0 <= i <= j <= |t| && r == t[i..j] && AllSpace(t[..i]) && AllSpace(t[j..]);
    assert r == s[i..j];
    assert s[..i] == t[..i];
    assert s[j..] == t[j..] + [s[|s| - 1]];
  }

  /** Stripping twice is stripping once. */
  lemma StripIdempotent(s: string)
    ensures Strip(Strip(s)) == Strip(s)
  {
    var r := Strip(s);
    if |r| > 0 {
      StripWord(r);
    }
  }

  predicate AllDigits(ds: string) {
    forall i :: 0 <= i < |ds| ==> IsDigit(ds[i])
  }

  /** One or more digits, after at most one sign character. */
  predicate IntLiteral(t: string) {
    (|t| > 0 && AllDigits(t)) || (|t| > 1 && (t[0] == '-' || t[0] == '+') && AllDigits(t[1..]))
  }

  /**
   * `int(s)` on a decimal literal: surrounding whitespace, an optional sign,
   * then one or more ASCII digits; anything else raises ValueError.
   */
  function ParseInt(s: string): (r: Result<int, PyError>)
    ensures r.Failure? ==> r.error == ValueError
    ensures r.Success? <==> IntLiteral(Strip(s))
    ensures r.Success? && AllDigits(Strip(s)) ==> r.value == DigitsValue(Strip(s))
    ensures r.Success? && Strip(s)[0] == '+' ==> r.value == DigitsValue(Strip(s)[1..])
    ensures r.Success? && Strip(s)[0] == '-' ==> r.value == -(DigitsValue(Strip(s)[1..]) as int)
  {
    var t := Strip(s);
    if !IntLiteral(t) then Failure(ValueError)
    else if t[0] == '-' then Success(-(DigitsValue(t[1..]) as int))
    else if t[0] == '+' then Success(DigitsValue(t[1..]))
    else Success(DigitsValue(t))
  }

  function DigitChar(d: nat): (c: char)
    requires d < 10
    ensures IsDigit(c) && DigitValue(c) == d
  {
    ('0' as int + d) as char
  }

  /** The decimal digits of `n`, without leading zeros. */
  function NatToString(n: nat): (s: string)
    ensures |s| > 0 && AllDigits(s)
    ensures s[0] == '0' <==> n == 0
  {
    if n < 10 then [DigitChar(n)] else NatToString(n / 10) + [DigitChar(n % 10)]
  }

  /** `str(n)` / `"{}".format(n)` for an integer. */
  function IntToString(n: int): (s: string)
    ensures |s| > 0
    ensures n >= 0 ==> AllDigits(s) && DigitsValue(s) == n
    ensures n < 0 ==> s[0] == '-' && AllDigits(s[1..]) && DigitsValue(s[1..]) == -n
  {
    if n < 0 then
      var ds := NatToString(-n);
      NatToStringValue(-n);
      assert ("-" + ds)[1..] == ds;
      "-" + ds
    else
      NatToStringValue(n);
      NatToString(n)
  }

  lemma {:induction false} NatToStringValue(n: nat)
    ensures DigitsValue(NatToString(n)) == n
  {
    if n >= 10 {
      var s := NatToString(n);
      NatToStringValue(n / 10);
      assert s[..|s| - 1] == NatToString(n / 10);
    }
  }

  lemma StripWord(t: string)
    requires |t| > 0 && !IsSpace(t[0]) && !IsSpace(t[|t| - 1])
    ensures Strip(t) == t
  {
  }

  /** `int(str(n)) == n`. */
  lemma ParseIntToString(n: int)
    ensures ParseInt(IntToString(n)) == Success(n)
  {
    var s := IntToString(n);
    if n < 0 {
      var ds := NatToString(-n);
      StripWord(s);
      assert s[1..] == ds;
      NatToStringValue(-n);
    } else {
      var ds := NatToString(n);
      StripWord(s);
      NatToStringValue(n);
    }
  }
}

=== FILE: transforms.dfy ===
/**
 * Homogeneous transforms of the molecule tools (nics/moleculetools.py):
 * the axis-angle (Rodrigues) rotation builder with an optional pivot, and the
 * application of a 4 x 4 transform to an N x 3 point list.  The sine and
 * cosine of the rotation angle are passed in as two reals.
 */
module Transforms {
  import opened Wrappers
  import opened Vectors

  /** A 3 x 3 matrix, by rows. */
  datatype Mat3 = Mat3(r0: Vec3, r1: Vec3, r2: Vec3)

  function MulVec(m: Mat3, v: Vec3): Vec3 {
    Vec3(Dot(m.r0, v), Dot(m.r1, v), Dot(m.r2, v))
  }

  function MatAdd(a: Mat3, b: Mat3): Mat3 {
    Mat3(Add(a.r0, b.r0), Add(a.r1, b.r1), Add(a.r2, b.r2))
  }

  function MatScale(k: real, a: Mat3): Mat3 {
    Mat3(Scale(k, a.r0), Scale(k, a.r1), Scale(k, a.r2))
  }

  /** `np.diag([c, c, c])`. */
  function Diag(c: real): Mat3 {
    Mat3(Vec3(c, 0.0, 0.0), Vec3(0.0, c, 0.0), Vec3(0.0, 0.0, c))
  }

  /** `np.outer(u, w)`: the rank-one matrix u w^T. */
  function Outer(u: Vec3, w: Vec3): Mat3 {
    Mat3(Scale(u.x, w), Scale(u.y, w), Scale(u.z, w))
  }

  /** The skew-symmetric matrix of w, laid out as the rotation builder writes it. */
  function Skew(w: Vec3): Mat3 {
    Mat3(Vec3(0.0, -w.z, w.y),
         Vec3(w.z, 0.0, -w.x),
         Vec3(-w.y, w.x, 0.0))
  }

  /** A sum of matrices acts as the sum of their actions. */
  lemma MulVecMatAdd(a: Mat3, b: Mat3, v: Vec3)
    ensures MulVec(MatAdd(a, b), v) == Add(MulVec(a, v), MulVec(b, v))
  {
    var l := MulVec(MatAdd(a, b), v);
    var r := Add(MulVec(a, v), MulVec(b, v));
    assert l.x == r.x;
    assert l.y == r.y;
    assert l.z == r.z;
  }

  /** A scaled matrix acts as the scaled action. */
  lemma MulVecMatScale(k: real, a: Mat3, v: Vec3)
    ensures MulVec(MatScale(k, a), v) == Scale(k, MulVec(a, v))
  {
    ScaledRows(k, a, v);
    ScaledAction(k, a, v);
  }

  lemma ScaledRows(k: real, a: Mat3, v: Vec3)
    ensures MulVec(MatScale(k, a), v) == Vec3(k * Dot(a.r0, v), k * Dot(a.r1, v), k * Dot(a.r2, v))
  {
    DotScaleLeft(k, a.r0, v);
    DotScaleLeft(k, a.r1, v);
    DotScaleLeft(k, a.r2, v);
  }

  lemma ScaledAction(k: real, a: Mat3, v: Vec3)
    ensures Scale(k, MulVec(a, v)) == Vec3(k * Dot(a.r0, v), k * Dot(a.r1, v), k * Dot(a.r2, v))
  {
  }

  /** The diagonal matrix of c multiplies by the scalar c. */
  lemma MulVecDiag(c: real, v: Vec3)
    ensures MulVec(Diag(c), v) == Scale(c, v)
  {
  }

  /** The outer product u w^T sends v to (w . v) u. */
  lemma MulVecOuter(u: Vec3, w: Vec3, v: Vec3)
    ensures MulVec(Outer(u, w), v) == Scale(Dot(w, v), u)
  {
    DotScaleLeft(u.x, w, v);
    DotScaleLeft(u.y, w, v);
    DotScaleLeft(u.z, w, v);
    calc {
      MulVec(Outer(u, w), v);
      Vec3(Dot(Scale(u.x, w), v), Dot(Scale(u.y, w), v), Dot(Scale(u.z, w), v));
      Vec3(u.x * Dot(w, v), u.y * Dot(w, v), u.z * Dot(w, v));
      { Commute(u.x, Dot(w, v)); Commute(u.y, Dot(w, v)); Commute(u.z, Dot(w, v)); }
      Scale(Dot(w, v), u);
    }
  }

  lemma Commute(a: real, b: real)
    ensures a * b == b * a
  {
  }

  /** The skew matrix of w sends v to the cross product w x v. */
  lemma MulVecSkew(w: Vec3, v: Vec3)
    ensures MulVec(Skew(w), v) == Cross(w, v)
  {
    var l := MulVec(Skew(w), v);
    var r := Cross(w, v);
    assert l.x == r.x;
    assert l.y == r.y;
    assert l.z == r.z;
  }

  /** Matrix-vector multiplication commutes with differences. */
  lemma MulVecSub(m: Mat3, p: Vec3, q: Vec3)
    ensures MulVec(m, Sub(p, q)) == Sub(MulVec(m, p), MulVec(m, q))
  {
    var l := MulVec(m, Sub(p, q));
    var r := Sub(MulVec(m, p), MulVec(m, q));
    assert l.x == r.x;
    assert l.y == r.y;
    assert l.z == r.z;
  }

  /** Matrix-vector multiplication commutes with sums. */
  lemma MulVecAdd(m: Mat3, p: Vec3, q: Vec3)
    ensures MulVec(m, Add(p, q)) == Add(MulVec(m, p), MulVec(m, q))
  {
    var l := MulVec(m, Add(p, q));
    var r := Add(MulVec(m, p), MulVec(m, q));
    assert l.x == r.x;
    assert l.y == r.y;
    assert l.z == r.z;
  }

  /** Matrix-vector multiplication commutes with scaling. */
  lemma MulVecScale(m: Mat3, k: real, p: Vec3)
    ensures MulVec(m, Scale(k, p)) == Scale(k, MulVec(m, p))
  {
    DotScaleRight(k, m.r0, p);
    DotScaleRight(k, m.r1, p);
    DotScaleRight(k, m.r2, p);
    var l := MulVec(m, Scale(k, p));
    var r := Scale(k, MulVec(m, p));
    assert l.x == r.x;
    assert l.y == r.y;
    assert l.z == r.z;
  }

  /** Matrix-vector multiplication commutes with sums and scaling. */
  lemma MulVecAddScaled(m: Mat3, p: Vec3, k: real, d: Vec3)
    ensures MulVec(m, Add(p, Scale(k, d))) == Add(MulVec(m, p), Scale(k, MulVec(m, d)))
  {
    DotScaleLeft(k, d, m.r0);
    DotScaleLeft(k, d, m.r1);
    DotScaleLeft(k, d, m.r2);
    var l := MulVec(m, Add(p, Scale(k, d)));
    var r := Add(MulVec(m, p), Scale(k, MulVec(m, d)));
    assert l.x == r.x;
    assert l.y == r.y;
    assert l.z == r.z;
  }

  /** A row or a column of a 4 x 4 matrix; a point with a homogeneous coordinate. */
  datatype Vec4 = Vec4(x: real, y: real, z: real, w: real)

  /** A 4 x 4 matrix, by rows. */
  datatype Mat4 = Mat4(r0: Vec4, r1: Vec4, r2: Vec4, r3: Vec4)

  function Dot4(a: Vec4, b: Vec4): real {
    a.x * b.x + a.y * b.y + a.z * b.z + a.w * b.w
  }

  function MulVec4(m: Mat4, v: Vec4): Vec4 {
    Vec4(Dot4(m.r0, v), Dot4(m.r1, v), Dot4(m.r2, v), Dot4(m.r3, v))
  }

  const Identity4 := Mat4(Vec4(1.0, 0.0, 0.0, 0.0),
                          Vec4(0.0, 1.0, 0.0, 0.0),
                          Vec4(0.0, 0.0, 1.0, 0.0),
                          Vec4(0.0, 0.0, 0.0, 1.0))

  /** `M[:3, :3]`: the linear part of a homogeneous transform. */
  function Block(m: Mat4): Mat3 {
    Mat3(Vec3(m.r0.x, m.r0.y, m.r0.z),
         Vec3(m.r1.x, m.r1.y, m.r1.z),
         Vec3(m.r2.x, m.r2.y, m.r2.z))
  }

  /** `M[:3, 3]`: the translation part of a homogeneous transform. */
  function Translation(m: Mat4): Vec3 {
    Vec3(m.r0.w, m.r1.w, m.r2.w)
  }

  /** `np.identity(4)` with its top-left block set to r and its top-right column set to t. */
  function Embed(r: Mat3, t: Vec3): (m: Mat4)
    ensures Block(m) == r && Translation(m) == t
    ensures m.r3 == Vec4(0.0, 0.0, 0.0, 1.0)
  {
    Mat4(Vec4(r.r0.x, r.r0.y, r.r0.z, t.x),
         Vec4(r.r1.x, r.r1.y, r.r1.z, t.y),
         Vec4(r.r2.x, r.r2.y, r.r2.z, t.z),
         Vec4(0.0, 0.0, 0.0, 1.0))
  }

  /**
   * One point through a homogeneous transform: append the coordinate 1,
   * multiply, keep the first three coordinates (no division by the fourth).
   */
  function ApplyPoint(m: Mat4, p: Vec3): (q: Vec3)
    ensures q == Add(MulVec(Block(m), p), Translation(m))
  {
    var h := MulVec4(m, Vec4(p.x, p.y, p.z, 1.0));
    Vec3(h.x, h.y, h.z)
  }

  /** `apply_4x4_matrix_to_3D_set`: every row of the point list through the transform. */
  function ApplyToSet(m: Mat4, pts: seq<Vec3>): (r: seq<Vec3>)
    ensures |r| == |pts|
    ensures forall i :: 0 <= i < |pts| ==> r[i] == Add(MulVec(Block(m), pts[i]), Translation(m))
  {
    seq(|pts|, i requires 0 <= i < |pts| => ApplyPoint(m, pts[i]))
  }

  /** 1 - cos: the coefficient of the outer-product term of the rotation block. */
  function Versine(c: real): real {
    1.0 - c
  }

  function Transpose(m: Mat3): Mat3 {
    Mat3(Vec3(m.r0.x, m.r1.x, m.r2.x), Vec3(m.r0.y, m.r1.y, m.r2.y), Vec3(m.r0.z, m.r1.z, m.r2.z))
  }

  /**
   * The rotation block c I + (1 - c) d d^T + [s d]x, built in the order the
   * source adds its terms. Its transpose is the block built with the sine
   * negated: the rotation by the opposite angle.
   */
  function Rodrigues(s: real, c: real, d: Vec3): (r: Mat3)
    ensures Transpose(r) == MatAdd(MatAdd(Diag(c), MatScale(Versine(c), Outer(d, d))), Skew(Scale(-s, d)))
  {
    MatAdd(MatAdd(Diag(c), MatScale(Versine(c), Outer(d, d))), Skew(Scale(s, d)))
  }

  lemma FactorOut(s: real, a: real, b: real, c: real, d: real)
    ensures (s * a) * b - (s * c) * d == s * (a * b - c * d)
  {
  }

  lemma CrossScaleLeft(s: real, d: Vec3, v: Vec3)
    ensures Cross(Scale(s, d), v) == Scale(s, Cross(d, v))
  {
    FactorOut(s, d.y, v.z, d.z, v.y);
    FactorOut(s, d.z, v.x, d.x, v.z);
    FactorOut(s, d.x, v.y, d.y, v.x);
    var l := Cross(Scale(s, d), v);
    var r := Scale(s, Cross(d, v));
    assert l.x == r.x;
    assert l.y == r.y;
    assert l.z == r.z;
  }

  /** The matrix form agrees with Rodrigues' vector formula. */
  lemma RodriguesVectorForm(s: real, c: real, d: Vec3, v: Vec3)
    ensures MulVec(Rodrigues(s, c, d), v)
         == Add(Add(Scale(c, v), Scale(Versine(c), Scale(Dot(d, v), d))), Scale(s, Cross(d, v)))
  {
    var diag, outer, skew := Diag(c), MatScale(Versine(c), Outer(d, d)), Skew(Scale(s, d));
    MulVecMatAdd(MatAdd(diag, outer), skew, v);
    MulVecMatAdd(diag, outer, v);
    MulVecDiag(c, v);
    MulVecMatScale(Versine(c), Outer(d, d), v);
    MulVecOuter(d, d, v);
    MulVecSkew(Scale(s, d), v);
    CrossScaleLeft(s, d, v);
    assert MulVec(outer, v) == Scale(Versine(c), Scale(Dot(d, v), d));
  }

  lemma ScaleOne(k: real, v: Vec3)
    requires k == 1.0
    ensures Scale(k, v) == v
  {
  }

  lemma ScaleSumOne(a: real, b: real, v: Vec3)
    requires a + b == 1.0
    ensures Add(Scale(a, v), Scale(b, v)) == v
  {
    var l := Add(Scale(a, v), Scale(b, v));
    assert l.x == (a + b) * v.x;
    assert l.y == (a + b) * v.y;
    assert l.z == (a + b) * v.z;
  }

  /** A unit direction is left where it is by the rotation block. */
  lemma RodriguesFixesAxis(s: real, c: real, d: Vec3)
    requires Dot(d, d) == 1.0
    ensures MulVec(Rodrigues(s, c, d), d) == d
  {
    RodriguesVectorForm(s, c, d, d);
    ScaleOne(Dot(d, d), d);
    assert Cross(d, d) == Origin;
    assert Scale(s, Origin) == Origin;
    ScaleSumOne(c, Versine(c), d);
    assert Add(d, Origin) == d;
  }

  /**
   * `rotation_matrix`: rotation by the angle whose sine and cosine are s and c
   * about the unit direction of `direction`, through `pivot` when one is given.
   */
  function RotationMatrix(sqrt: real -> real, s: real, c: real, direction: Vec3, pivot: Option<Vec3>): (m: Mat4)
    requires IsSqrt(sqrt)
    requires NonZero(direction)
    ensures m.r3 == Vec4(0.0, 0.0, 0.0, 1.0)
    ensures MulVec(Block(m), UnitVector(sqrt, direction)) == UnitVector(sqrt, direction)
    ensures pivot.None? ==> Translation(m) == Origin
    ensures pivot.Some? ==> ApplyPoint(m, pivot.value) == pivot.value
  {
    var d := UnitVector(sqrt, direction);
    var r := Rodrigues(s, c, d);
    RodriguesFixesAxis(s, c, d);
    PivotEmbed(r, pivot)
  }

  /** The linear part of the rotation matrix is the Rodrigues block of the unit direction. */
  lemma RotationMatrixBlock(sqrt: real -> real, s: real, c: real, direction: Vec3, pivot: Option<Vec3>)
    requires IsSqrt(sqrt)
    requires NonZero(direction)
    ensures Block(RotationMatrix(sqrt, s, c, direction, pivot)) == Rodrigues(s, c, UnitVector(sqrt, direction))
  {
  }

  /** Every point of the rotation axis (the line through the pivot along the direction) is fixed. */
  lemma RotationFixesAxisLine(sqrt: real -> real, s: real, c: real, direction: Vec3, pivot: Vec3, k: real)
    requires IsSqrt(sqrt)
    requires NonZero(direction)
    ensures var q := Add(pivot, Scale(k, UnitVector(sqrt, direction)));
            ApplyPoint(RotationMatrix(sqrt, s, c, direction, Some(pivot)), q) == q
  {
    var d := UnitVector(sqrt, direction);
    var r := Rodrigues(s, c, d);
    RodriguesFixesAxis(s, c, d);
    MulVecAddScaled(r, pivot, k, d);
    var m := RotationMatrix(sqrt, s, c, direction, Some(pivot));
    var q := Add(pivot, Scale(k, d));
    var l := ApplyPoint(m, q);
    assert l == Add(Add(MulVec(r, pivot), Scale(k, d)), Sub(pivot, MulVec(r, pivot)));
    assert l.x == q.x;
    assert l.y == q.y;
    assert l.z == q.z;
  }

  const Identity3 := Mat3(Vec3(1.0, 0.0, 0.0), Vec3(0.0, 1.0, 0.0), Vec3(0.0, 0.0, 1.0))

  lemma MatScaleZero(a: Mat3)
    ensures MatScale(0.0, a) == Mat3(Origin, Origin, Origin)
  {
  }

  /** At angle zero the rotation block is the identity, whatever the direction. */
  lemma RodriguesAngleZero(d: Vec3)
    ensures Rodrigues(0.0, 1.0, d) == Identity3
  {
    assert Versine(1.0) == 0.0;
    MatScaleZero(Outer(d, d));
    assert Scale(0.0, d) == Origin;
  }

  /** Angle zero (sine 0, cosine 1) gives the 4 x 4 identity, whatever the direction and pivot. */
  lemma RotationAngleZeroIsIdentity(sqrt: real -> real, direction: Vec3, pivot: Option<Vec3>)
    requires IsSqrt(sqrt)
    requires NonZero(direction)
    ensures RotationMatrix(sqrt, 0.0, 1.0, direction, pivot) == Identity4
  {
    var d := UnitVector(sqrt, direction);
    RodriguesAngleZero(d);
    EmbedIdentity(pivot);
    assert RotationMatrix(sqrt, 0.0, 1.0, direction, pivot) == PivotEmbed(Rodrigues(0.0, 1.0, d), pivot);
  }

  /** The homogeneous matrix of a rotation block about a pivot (the origin when there is none). */
  function PivotEmbed(r: Mat3, pivot: Option<Vec3>): Mat4 {
    match pivot
    case None => Embed(r, Origin)
    case Some(p) => Embed(r, Sub(p, MulVec(r, p)))
  }

  lemma EmbedIdentity(pivot: Option<Vec3>)
    ensures PivotEmbed(Identity3, pivot) == Identity4
  {
    if pivot.Some? {
      var p := pivot.value;
      assert MulVec(Identity3, p) == p;
      assert Sub(p, MulVec(Identity3, p)) == Origin;
    }
  }

  lemma DotScales(k1: real, u: Vec3, k2: real, w: Vec3)
    ensures Dot(Scale(k1, u), Scale(k2, w)) == (k1 * k2) * Dot(u, w)
  {
  }

  lemma DotOfThreeTerms(p: Vec3, q: Vec3, r: Vec3)
    ensures Dot(Add(Add(p, q), r), Add(Add(p, q), r))
         == Dot(p, p) + Dot(q, q) + Dot(r, r) + 2.0 * Dot(p, q) + 2.0 * Dot(p, r) + 2.0 * Dot(q, r)
  {
  }

  lemma DotScaleRight(k: real, u: Vec3, v: Vec3)
    ensures Dot(u, Scale(k, v)) == k * Dot(u, v)
  {
  }

  /** The scalar identity behind length preservation, over the dot products of the three terms. */
  lemma LengthScalarIdentity(c: real, k: real, s: real, a: real, len: real, dd: real, xx: real,
                             vd: real, vx: real, dx: real, ww: real, vw: real, wx: real)
    requires k == 1.0 - c && s * s + c * c == 1.0
    requires dd == 1.0 && vd == a && vx == 0.0 && dx == 0.0
    requires xx == dd * len - a * a
    requires ww == (a * a) * dd && vw == a * vd && wx == a * dx
    ensures (c * c) * len + (k * k) * ww + (s * s) * xx
            + 2.0 * ((c * k) * vw) + 2.0 * ((c * s) * vx) + 2.0 * ((k * s) * wx) == len
  {
  }

  /** The dot products of the three Rodrigues terms add up to the squared length of v. */
  lemma LengthFromDots(c: real, s: real, d: Vec3, v: Vec3, p: Vec3, q: Vec3, r: Vec3, w: Vec3, x: Vec3)
    requires s * s + c * c == 1.0 && Dot(d, d) == 1.0
    requires Dot(p, p) == (c * c) * Dot(v, v)
    requires Dot(q, q) == (Versine(c) * Versine(c)) * Dot(w, w)
    requires Dot(r, r) == (s * s) * Dot(x, x)
    requires Dot(p, q) == (c * Versine(c)) * Dot(v, w)
    requires Dot(p, r) == (c * s) * Dot(v, x)
    requires Dot(q, r) == (Versine(c) * s) * Dot(w, x)
    requires Dot(w, w) == (Dot(d, v) * Dot(d, v)) * Dot(d, d)
    requires Dot(v, w) == Dot(d, v) * Dot(v, d)
    requires Dot(w, x) == Dot(d, v) * Dot(d, x)
    requires Dot(x, x) == Dot(d, d) * Dot(v, v) - Dot(d, v) * Dot(d, v)
    requires Dot(v, d) == Dot(d, v) && Dot(v, x) == 0.0 && Dot(d, x) == 0.0
    ensures Dot(p, p) + Dot(q, q) + Dot(r, r) + 2.0 * Dot(p, q) + 2.0 * Dot(p, r) + 2.0 * Dot(q, r) == Dot(v, v)
  {
    LengthScalarIdentity(c, Versine(c), s, Dot(d, v), Dot(v, v), Dot(d, d), Dot(x, x),
                         Dot(v, d), Dot(v, x), Dot(d, x), Dot(w, w), Dot(v, w), Dot(w, x));
  }

  /** When s^2 + c^2 = 1 the rotation block preserves lengths. */
  lemma RodriguesPreservesLength(s: real, c: real, d: Vec3, v: Vec3)
    requires Dot(d, d) == 1.0
    requires s * s + c * c == 1.0
    ensures Dot(MulVec(Rodrigues(s, c, d), v), MulVec(Rodrigues(s, c, d), v)) == Dot(v, v)
  {
    var x, w := Cross(d, v), Scale(Dot(d, v), d);
    var p, q, r := Scale(c, v), Scale(Versine(c), w), Scale(s, x);
    RodriguesVectorForm(s, c, d, v);
    DotOfThreeTerms(p, q, r);
    DotScales(c, v, c, v);
    DotScales(Versine(c), w, Versine(c), w);
    DotScales(s, x, s, x);
    DotScales(c, v, Versine(c), w);
    DotScales(c, v, s, x);
    DotScales(Versine(c), w, s, x);
    DotScales(Dot(d, v), d, Dot(d, v), d);
    DotScaleRight(Dot(d, v), v, d);
    DotScaleLeft(Dot(d, v), d, x);
    CrossLagrange(d, v);
    CrossOrthogonal(d, v);
    LengthFromDots(c, s, d, v, p, q, r, w, x);
  }

  /** When s^2 + c^2 = 1 the transform is rigid: it preserves the distance between any two points. */
  lemma RotationPreservesDistance(sqrt: real -> real, s: real, c: real, direction: Vec3,
                                  pivot: Option<Vec3>, p: Vec3, q: Vec3)
    requires IsSqrt(sqrt)
    requires NonZero(direction)
    requires s * s + c * c == 1.0
    ensures var m := RotationMatrix(sqrt, s, c, direction, pivot);
            var e := Sub(ApplyPoint(m, p), ApplyPoint(m, q));
            Dot(e, e) == Dot(Sub(p, q), Sub(p, q))
  {
    var m := RotationMatrix(sqrt, s, c, direction, pivot);
    var d := UnitVector(sqrt, direction);
    var r := Rodrigues(s, c, d);
    assert Block(m) == r;
    MulVecSub(r, p, q);
    var t := Translation(m);
    var e := Sub(Add(MulVec(r, p), t), Add(MulVec(r, q), t));
    assert e == Sub(MulVec(r, p), MulVec(r, q)) by {
      assert e.x == (MulVec(r, p).x + t.x) - (MulVec(r, q).x + t.x);
    }
    RodriguesPreservesLength(s, c, d, Sub(p, q));
  }
}

=== FILE: vectors.dfy ===
/**
 * Vector primitives of the molecule tools (nics/moleculetools.py):
 * 3-vectors over exact reals, normalisation, the clipped cosine and the
 * cross-product plane normals.  Square root and arccos are not computed:
 * they are passed in as functions, and `IsSqrt` states the only facts about
 * square roots that the proofs use.
 */
module Vectors {

  /** A point or a direction in space: one row of an N x 3 coordinate array. */
  datatype Vec3 = Vec3(x: real, y: real, z: real)

  const Origin := Vec3(0.0, 0.0, 0.0)
  const ZAxis := Vec3(0.0, 0.0, 1.0)

  function Add(u: Vec3, v: Vec3): Vec3 {
    Vec3(u.x + v.x, u.y + v.y, u.z + v.z)
  }

  function Sub(u: Vec3, v: Vec3): Vec3 {
    Vec3(u.x - v.x, u.y - v.y, u.z - v.z)
  }

  function Neg(v: Vec3): Vec3 {
    Vec3(-v.x, -v.y, -v.z)
  }

  function Scale(k: real, v: Vec3): Vec3 {
    Vec3(k * v.x, k * v.y, k * v.z)
  }

  function Dot(u: Vec3, v: Vec3): real {
    u.x * v.x + u.y * v.y + u.z * v.z
  }

  /** The cross product, as numpy's `cross` computes it for two 3-vectors. */
  function Cross(u: Vec3, v: Vec3): Vec3 {
    Vec3(u.y * v.z - u.z * v.y, u.z * v.x - u.x * v.z, u.x * v.y - u.y * v.x)
  }

  /** The cross product is orthogonal to both of its factors. */
  lemma CrossOrthogonal(u: Vec3, v: Vec3)
    ensures Dot(Cross(u, v), u) == 0.0 && Dot(Cross(u, v), v) == 0.0
  {
  }

  /** Lagrange's identity: |u x v|^2 = |u|^2 |v|^2 - (u . v)^2. */
  lemma CrossLagrange(u: Vec3, v: Vec3)
    ensures Dot(Cross(u, v), Cross(u, v)) == Dot(u, u) * Dot(v, v) - Dot(u, v) * Dot(u, v)
  {
  }

  function AbsReal(a: real): (r: real)
    ensures 0.0 <= r && r * r == a * a
    ensures r == a || r == -a
  {
    if a < 0.0 then -a else a
  }

  /** Component-wise absolute value (numpy's `abs` on a vector): sign folding. */
  function Abs(v: Vec3): (r: Vec3)
    ensures NonNegative(r)
    ensures (r.x == v.x || r.x == -v.x) && (r.y == v.y || r.y == -v.y) && (r.z == v.z || r.z == -v.z)
    ensures Dot(r, r) == Dot(v, v)
  {
    Vec3(AbsReal(v.x), AbsReal(v.y), AbsReal(v.z))
  }

  predicate NonNegative(v: Vec3) {
    0.0 <= v.x && 0.0 <= v.y && 0.0 <= v.z
  }

  /** `v` has a non-zero length, so it has a direction. */
  predicate NonZero(v: Vec3) {
    0.0 < Dot(v, v)
  }

  /** `u` points the same way as `v`: it is `v` scaled by a positive factor. */
  ghost predicate IsPositiveMultiple(u: Vec3, v: Vec3) {
    exists k: real :: 0.0 < k && u == Scale(k, v)
  }

  /** The facts about the square root that the model relies on, for non-negative arguments. */
  ghost predicate IsSqrt(sqrt: real -> real) {
    forall a: real :: 0.0 <= a ==> 0.0 <= sqrt(a) && sqrt(a) * sqrt(a) == a
  }

  /** The Euclidean norm, `np.linalg.norm` of a 3-vector. */
  function Norm(sqrt: real -> real, v: Vec3): real {
    sqrt(Dot(v, v))
  }

  lemma DotSelfNonNegative(v: Vec3)
    ensures 0.0 <= Dot(v, v)
  {
  }

  lemma NormPositive(sqrt: real -> real, v: Vec3)
    requires IsSqrt(sqrt)
    requires NonZero(v)
    ensures 0.0 < Norm(sqrt, v)
    ensures Norm(sqrt, v) * Norm(sqrt, v) == Dot(v, v)
  {
    var n := Norm(sqrt, v);
    assert 0.0 <= n && n * n == Dot(v, v);
    SquareRootNonZero(n, Dot(v, v));
  }

  lemma SquareRootNonZero(n: real, d: real)
    requires n * n == d && 0.0 < d
    ensures n != 0.0
  {
  }

  lemma DotScaleLeft(k: real, u: Vec3, v: Vec3)
    ensures Dot(Scale(k, u), v) == k * Dot(u, v)
  {
  }

  lemma DotScaleBoth(k: real, v: Vec3)
    ensures Dot(Scale(k, v), Scale(k, v)) == k * k * Dot(v, v)
  {
  }

  /** `unit_vector`: the input divided by its norm.  A zero input has no direction. */
  function UnitVector(sqrt: real -> real, v: Vec3): (u: Vec3)
    requires IsSqrt(sqrt)
    requires NonZero(v)
    ensures IsPositiveMultiple(u, v)
    ensures Dot(u, u) == 1.0
  {
    NormPositive(sqrt, v);
    var n := Norm(sqrt, v);
    var u := Vec3(v.x / n, v.y / n, v.z / n);
    assert u == Scale(1.0 / n, v);
    DotScaleBoth(1.0 / n, v);
    assert (1.0 / n) * (1.0 / n) * (n * n) == 1.0;
    u
  }

  /** A unit vector is its own normalisation. */
  lemma UnitVectorOfUnit(sqrt: real -> real, u: Vec3)
    requires IsSqrt(sqrt)
    requires Dot(u, u) == 1.0
    ensures NonZero(u)
    ensures UnitVector(sqrt, u) == u
  {
    var n := Norm(sqrt, u);
    assert 0.0 <= n && n * n == 1.0;
    UnitRoot(n);
  }

  lemma UnitRoot(n: real)
    requires 0.0 <= n && n * n == 1.0
    ensures n == 1.0
  {
    assert (n - 1.0) * (n + 1.0) == 0.0;
    ProductZero(n - 1.0, n + 1.0);
  }

  lemma ProductZero(a: real, b: real)
    requires a * b == 0.0
    ensures a == 0.0 || b == 0.0
  {
  }

  lemma PositiveMultipleOrthogonal(u: Vec3, v: Vec3, w: Vec3)
    requires IsPositiveMultiple(u, v)
    requires Dot(v, w) == 0.0
    ensures Dot(u, w) == 0.0
  {
    var k :| 0.0 < k && u == Scale(k, v);
    DotScaleLeft(k, v, w);
  }

  /** `np.clip(a, lo, hi)`: the nearest value to `a` within `[lo, hi]`. */
  function Clip(a: real, lo: real, hi: real): (r: real)
    requires lo <= hi
    ensures lo <= r <= hi
    ensures lo <= a <= hi ==> r == a
    ensures a < lo ==> r == lo
    ensures hi < a ==> r == hi
  {
    if a < lo then lo else if hi < a then hi else a
  }

  /** `cos_between`: the dot product of the two unit vectors, clipped to [-1, 1]. */
  function CosBetween(sqrt: real -> real, u: Vec3, v: Vec3): (c: real)
    requires IsSqrt(sqrt)
    requires NonZero(u) && NonZero(v)
    ensures -1.0 <= c <= 1.0
  {
    Clip(Dot(UnitVector(sqrt, u), UnitVector(sqrt, v)), -1.0, 1.0)
  }

  /**
   * `angle_between`: arccos of the clipped cosine. Over exact reals the clip
   * never acts, so the angle is arccos of the dot product of the unit vectors.
   */
  function AngleBetween(sqrt: real -> real, arccos: real -> real, u: Vec3, v: Vec3): (a: real)
    requires IsSqrt(sqrt)
    requires NonZero(u) && NonZero(v)
    ensures a == arccos(Dot(UnitVector(sqrt, u), UnitVector(sqrt, v)))
  {
    CosBetweenClipInert(sqrt, u, v);
    arccos(CosBetween(sqrt, u, v))
  }

  /** The angle from u to v is the angle from v to u. */
  lemma AngleBetweenSymmetric(sqrt: real -> real, arccos: real -> real, u: Vec3, v: Vec3)
    requires IsSqrt(sqrt)
    requires NonZero(u) && NonZero(v)
    ensures AngleBetween(sqrt, arccos, u, v) == AngleBetween(sqrt, arccos, v, u)
  {
    var p, q := UnitVector(sqrt, u), UnitVector(sqrt, v);
    assert Dot(p, q) == Dot(q, p);
  }

  /** Two unit vectors have a dot product within [-1, 1] (Cauchy-Schwarz for unit vectors). */
  lemma UnitDotBounded(p: Vec3, q: Vec3)
    requires Dot(p, p) == 1.0 && Dot(q, q) == 1.0
    ensures -1.0 <= Dot(p, q) <= 1.0
  {
    DotSelfNonNegative(Sub(p, q));
    DotSelfNonNegative(Add(p, q));
    assert Dot(Sub(p, q), Sub(p, q)) == Dot(p, p) - 2.0 * Dot(p, q) + Dot(q, q);
    assert Dot(Add(p, q), Add(p, q)) == Dot(p, p) + 2.0 * Dot(p, q) + Dot(q, q);
  }

  /** Over exact reals the clip in `cos_between` never changes the dot product of the unit vectors. */
  lemma CosBetweenClipInert(sqrt: real -> real, u: Vec3, v: Vec3)
    requires IsSqrt(sqrt)
    requires NonZero(u) && NonZero(v)
    ensures CosBetween(sqrt, u, v) == Dot(UnitVector(sqrt, u), UnitVector(sqrt, v))
  {
    UnitDotBounded(UnitVector(sqrt, u), UnitVector(sqrt, v));
  }

  /** A vector makes angle arccos(1) (zero) with itself. */
  lemma AngleBetweenSelf(sqrt: real -> real, arccos: real -> real, v: Vec3)
    requires IsSqrt(sqrt)
    requires NonZero(v)
    ensures CosBetween(sqrt, v, v) == 1.0
    ensures AngleBetween(sqrt, arccos, v, v) == arccos(1.0)
  {
  }

  lemma UnitVectorOfNeg(sqrt: real -> real, v: Vec3)
    requires IsSqrt(sqrt)
    requires NonZero(v)
    ensures NonZero(Neg(v))
    ensures UnitVector(sqrt, Neg(v)) == Neg(UnitVector(sqrt, v))
  {
    assert Dot(Neg(v), Neg(v)) == Dot(v, v);
    NormPositive(sqrt, v);
    var n := Norm(sqrt, v);
    assert Norm(sqrt, Neg(v)) == n;
    NegDivide(v.x, n);
    NegDivide(v.y, n);
    NegDivide(v.z, n);
  }

  lemma NegDivide(a: real, n: real)
    requires n != 0.0
    ensures (-a) / n == -(a / n)
  {
  }

  /** A vector makes angle arccos(-1) (pi) with its opposite. */
  lemma AngleBetweenOpposite(sqrt: real -> real, arccos: real -> real, v: Vec3)
    requires IsSqrt(sqrt)
    requires NonZero(v)
    ensures NonZero(Neg(v))
    ensures CosBetween(sqrt, v, Neg(v)) == -1.0
    ensures AngleBetween(sqrt, arccos, v, Neg(v)) == arccos(-1.0)
  {
    UnitVectorOfNeg(sqrt, v);
    var u := UnitVector(sqrt, v);
    assert Dot(u, Neg(u)) == -Dot(u, u);
  }

  /** `find_normal_from_points`: the unit normal of the plane through a, b and c. */
  function FindNormalFromPoints(sqrt: real -> real, a: Vec3, b: Vec3, c: Vec3): (n: Vec3)
    requires IsSqrt(sqrt)
    requires NonZero(Cross(Sub(b, a), Sub(c, a)))
    ensures IsPositiveMultiple(n, Cross(Sub(b, a), Sub(c, a)))
    ensures Dot(n, n) == 1.0
    ensures Dot(n, Sub(b, a)) == 0.0 && Dot(n, Sub(c, a)) == 0.0
  {
    var dir := Cross(Sub(b, a), Sub(c, a));
    var n := UnitVector(sqrt, dir);
    CrossOrthogonal(Sub(b, a), Sub(c, a));
    PositiveMultipleOrthogonal(n, dir, Sub(b, a));
    PositiveMultipleOrthogonal(n, dir, Sub(c, a));
    n
  }

  /** `find_normal_from_vectors`: the unit normal of the plane spanned by u and v. */
  function FindNormalFromVectors(sqrt: real -> real, u: Vec3, v: Vec3): (n: Vec3)
    requires IsSqrt(sqrt)
    requires NonZero(Cross(u, v))
    ensures IsPositiveMultiple(n, Cross(u, v))
    ensures Dot(n, n) == 1.0
    ensures Dot(n, u) == 0.0 && Dot(n, v) == 0.0
  {
    var dir := Cross(u, v);
    var n := UnitVector(sqrt, dir);
    CrossOrthogonal(u, v);
    PositiveMultipleOrthogonal(n, dir, u);
    PositiveMultipleOrthogonal(n, dir, v);
    n
  }
}

=== FILE: wrappers.dfy ===
/** Failure-compatible result types shared by the model. */
module Wrappers {

  /** A value that may be missing. */
  datatype Option<+T> = None | Some(value: T) {
    function GetOr(default: T): T {
      match this
      case Some(v) => v
      case None => default
    }
  }

  /** Either a value or the error that the modelled code raises instead. */
  datatype Result<+T, +E> = Success(value: T) | Failure(error: E)

  /**
   * Applies `f` to the elements in order and stops at the first failure, as a
   * Python loop or comprehension does when an element raises.
   */
  function MapAll<A, B, E>(xs: seq<A>, f: A -> Result<B, E>): (r: Result<seq<B>, E>)
    ensures r.Success? <==> forall i :: 0 <= i < |xs| ==> f(xs[i]).Success?
    ensures r.Success? ==> (|r.value| == |xs|
      && forall i :: 0 <= i < |xs| ==> f(xs[i]) == Success(r.value[i]))
    ensures r.Failure? ==> exists i :: (0 <= i < |xs| && f(xs[i]) == Failure(r.error)
      && forall j :: 0 <= j < i ==> f(xs[j]).Success?)
    decreases |xs|
  {
    if |xs| == 0 then Success([])
    else
      match f(xs[0])
      case Failure(e) => Failure(e)
      case Success(y) =>
        match MapAll(xs[1..], f)
        case Failure(e) =>
          ghost var i :| 0 <= i < |xs[1..]| && f(xs[1..][i]) == Failure(e)
            && forall j :: 0 <= j < i ==> f(xs[1..][j]).Success?;
          assert f(xs[i + 1]) == Failure(e);
          assert forall j :: 0 <= j < i + 1 ==> f(xs[j]).Success? by {
            forall j | 0 <= j < i + 1 ensures f(xs[j]).Success? {
              if j > 0 {
                assert xs[j] == xs[1..][j - 1];
              }
            }
          }
          Failure(e)
        case Success(ys) =>
          assert forall i :: 0 <= i < |xs| ==> f(xs[i]) == Success(([y] + ys)[i]) by {
            forall i | 0 <= i < |xs| ensures f(xs[i]) == Success(([y] + ys)[i]) {
              if i > 0 {
                assert xs[i] == xs[1..][i - 1];
              }
            }
          }
          Success([y] + ys)
  }
}
